=== FILE: README.md ===
# Recruitment manager: a verified model of its rules

This project models, in Dafny, the deterministic rules of a recruitment web application.
The application has two Flask services and a React front end. Each part is modelled as
immutable datatypes and pure functions; a request handler becomes a function from the old
state and the request to the new state and a reply or an error.

- **Interview service** (`interview_agent.py`). This is an in-memory map of interview
  sessions with the routes start, answer, session, end, results and all-results
  (modules `QuestionBank`, `Evaluator`, `InterviewSessions`, `InterviewReport`). The store
  keeps its insertion order, so the all-results route lists sessions in the order the
  source's dict does. A session moves only from active to completed. Its messages always
  have the same shape: a greeting, then questions and answers alternating, then the
  closing message. Its score list always has one entry per answered question. Invariant
  lemmas show that every route keeps this. A language-model reply is an `LlmReply`
  input: unavailable, malformed, an error message, or content.
- **Resume rankers.** The analysing ranker (`ResumeRanker`) matches skills, classifies
  education, and derives strengths, weaknesses and a recommendation. The plain ranker is
  `BasicRanker`. Both share the upload filter (`FileNames`). The similarity score, the
  text read from a file and the years-of-experience text are inputs.
- **Job descriptions** (`JobDescription`). This covers the template used when no model
  answers, the role taken from the prompt, and the `/generate-jd` route.
- **Routing** (`Routing`). This covers the front end's `getApiUrl` and the prefix
  dispatch of the unified WSGI wrapper.
- **Front-end screens** (`Candidates`, `FinalReport`, `Scheduler`, `BackendScheduler`,
  `ResumeManager`, `InterviewScreen`). Each handler becomes a function from the candidate
  and interview lists it receives to the lists it hands back.
  - The repository holds two versions of the scheduler and resume screens. The second
    scheduler cancels and builds time slots with the same code as the first, so
    `Scheduler.Cancel` and `Scheduler.TimeSlots` model both.
  - The second scheduler's Interview type declares other field names, but its code uses
    the first version's fields. One `Interview` datatype serves both.
- **Shared helpers.** `Text` holds substring search, split, join and strip. `Numbers`
  holds decimal text, `parseInt`, `Number` and rounding. `Sorting` is a stable
  descending sort, and `Lists` an order-keeping filter.

Rounding is exact:

- Python's `round` is `Numbers.RoundHalfEven` on the exact quotient.
- JavaScript's `Math.round` is `Numbers.RoundHalfUp` on an exact quotient, or
  `Numbers.JsRound` on a real.

Both agree with the floating-point source everywhere except at the ties that floating
point cannot represent exactly.

Two facts about the final report follow from the code and are proved here:

- The report lists only candidates whose status is `interviewed`, and a final decision
  moves the candidate to `hired`, `rejected` or `on-hold`. So a decided candidate leaves
  the report (`FinalReport.DecisionLeavesReport`).
- As a result, the decision filter can only match candidates that are still
  `interviewed` but carry a decision made elsewhere (`FinalReport.StatusFilterNeedsDecision`).

The interview screen's guard tests the skills text before it is parsed. So a text made
only of commas passes the guard, and the service then refuses the start with 400
(`InterviewScreen.CommaPassesGuard`, `InterviewScreen.ServiceAcceptsIffSkills`).

Two behaviours of the code that are easy to misread:

- `generate_fallback_jd` splits the prompt on the literal `role:`. The role therefore
  ends at the next newline or at a second `role:`, whichever comes first.
  `JobDescription.RoleFromMarker` states the case without a second marker.
- `renderScoreStars` in the later resume screen is never called; its table rounds
  instead. Both counts are modelled and compared in `ResumeManager.StarsDiffer`.

## Model

| member | source | states |
|---|---|---|
| QuestionBank.GeneralIndexIsGeneral | Agentic_AI_Recruitment_Manager-main/Agentic_AI_Recruitment_Manager-main/beckend/interview_agent.py:84-93 | the default bank is the one declared under `general` |
| QuestionBank.BankIndex | Agentic_AI_Recruitment_Manager-main/Agentic_AI_Recruitment_Manager-main/beckend/interview_agent.py:124-135 | the bank chosen for a skill is the first key, in declaration order, that is a substring of the lower-cased skill or contains it, and `general` when no key matches |
| QuestionBank.ChoiceReachesAll | Agentic_AI_Recruitment_Manager-main/Agentic_AI_Recruitment_Manager-main/beckend/interview_agent.py:132 | every question of a bank can be the random choice |
| QuestionBank.FallbackQuestion | Agentic_AI_Recruitment_Manager-main/Agentic_AI_Recruitment_Manager-main/beckend/interview_agent.py:124-135 | the fallback question belongs to the bank chosen for the skill |
| QuestionBank.GenerateQuestion | Agentic_AI_Recruitment_Manager-main/Agentic_AI_Recruitment_Manager-main/beckend/interview_agent.py:96-122 | without model content the question comes from the skill's bank; with content it is the content with whitespace and then quotes stripped off both ends, so it is never longer than the reply |
| QuestionBank.JavaGetsJavaScript | Agentic_AI_Recruitment_Manager-main/Agentic_AI_Recruitment_Manager-main/beckend/interview_agent.py:129-132 | because the test is two-way containment, the skill `Java` is served JavaScript questions |
| QuestionBank.EmptySkillGetsReact | Agentic_AI_Recruitment_Manager-main/Agentic_AI_Recruitment_Manager-main/beckend/interview_agent.py:129-132 | an empty skill is contained in every key and so selects the first bank, `react` |
| Evaluator.FallbackEvaluation | Agentic_AI_Recruitment_Manager-main/Agentic_AI_Recruitment_Manager-main/beckend/interview_agent.py:186-197 | the rule-based score is 3 for fewer than 5 words, 6 for 5 to 19, 8 for 20 to 49 and 9 for 50 or more, each with its own fixed feedback text |
| Evaluator.FallbackMonotonic | Agentic_AI_Recruitment_Manager-main/Agentic_AI_Recruitment_Manager-main/beckend/interview_agent.py:186-197 | more words never lower the rule-based score |
| Evaluator.Clamp | Agentic_AI_Recruitment_Manager-main/Agentic_AI_Recruitment_Manager-main/beckend/interview_agent.py:173 | `max(0, min(10, n))` lies in [0, 10] and keeps a value already in range |
| Evaluator.ScoreOf | Agentic_AI_Recruitment_Manager-main/Agentic_AI_Recruitment_Manager-main/beckend/interview_agent.py:170-175 | a `Score:` line yields a value in [0, 10], or nothing when the integer does not parse |
| Evaluator.Step | Agentic_AI_Recruitment_Manager-main/Agentic_AI_Recruitment_Manager-main/beckend/interview_agent.py:169-176 | one line replaces the score when it carries a readable score, the feedback when it carries feedback, never both, and keeps the score in [0, 10] |
| Evaluator.ParseLines | Agentic_AI_Recruitment_Manager-main/Agentic_AI_Recruitment_Manager-main/beckend/interview_agent.py:169-177 | the parsing loop keeps the score in [0, 10] |
| Evaluator.ParseLinesLastWins | Agentic_AI_Recruitment_Manager-main/Agentic_AI_Recruitment_Manager-main/beckend/interview_agent.py:165-177 | the loop ends with the right-most readable `Score:` value and the right-most `Feedback:` text, and keeps the defaults where no line sets them |
| Evaluator.ParseReply | Agentic_AI_Recruitment_Manager-main/Agentic_AI_Recruitment_Manager-main/beckend/interview_agent.py:161-179 | a parsed reply has the defaults 5 and `Answer received.` unless a line of the newline-split content overrides them |
| Evaluator.Evaluate | Agentic_AI_Recruitment_Manager-main/Agentic_AI_Recruitment_Manager-main/beckend/interview_agent.py:137-184 | every evaluation score lies in [0, 10]; model content is parsed line by line after stripping; without content the rule-based evaluation is used |
| Evaluator.ScoreLineReads | Agentic_AI_Recruitment_Manager-main/Agentic_AI_Recruitment_Manager-main/beckend/interview_agent.py:170-172 | a `Score:` line is read between its first and second colon |
| Evaluator.LaterScoreWins | Agentic_AI_Recruitment_Manager-main/Agentic_AI_Recruitment_Manager-main/beckend/interview_agent.py:170-175 | a later `Score:` line with a readable integer sets the score, clamped |
| Evaluator.UnparsableScoreKeepsPrevious | Agentic_AI_Recruitment_Manager-main/Agentic_AI_Recruitment_Manager-main/beckend/interview_agent.py:171-175 | a `Score:` line whose integer does not parse leaves the earlier score in place |
| InterviewSessions.EmptyStoreInv | Agentic_AI_Recruitment_Manager-main/Agentic_AI_Recruitment_Manager-main/beckend/interview_agent.py:19-20 | the empty store satisfies the store invariant |
| InterviewSessions.PutInv | Agentic_AI_Recruitment_Manager-main/Agentic_AI_Recruitment_Manager-main/beckend/interview_agent.py:245 | storing a well-formed session keeps the store invariant |
| InterviewSessions.UpdateInv | Agentic_AI_Recruitment_Manager-main/Agentic_AI_Recruitment_Manager-main/beckend/interview_agent.py:288-344 | updating a stored session in place with a well-formed record keeps the store invariant |
| InterviewSessions.FinalScore | Agentic_AI_Recruitment_Manager-main/Agentic_AI_Recruitment_Manager-main/beckend/interview_agent.py:304-305 | the percentage score lies in [0, 100] and is 0 without scores |
| InterviewSessions.FinalScoreNearest | Agentic_AI_Recruitment_Manager-main/Agentic_AI_Recruitment_Manager-main/beckend/interview_agent.py:304-305 | the percentage is the exact mean times ten rounded to the nearest integer, off by at most one half |
| InterviewSessions.FinalScoreOfConstant | Agentic_AI_Recruitment_Manager-main/Agentic_AI_Recruitment_Manager-main/beckend/interview_agent.py:304-305 | when every score is v the percentage is exactly 10 v |
| InterviewSessions.Start | Agentic_AI_Recruitment_Manager-main/Agentic_AI_Recruitment_Manager-main/beckend/interview_agent.py:199-254 | a missing or empty candidate id or an absent or empty skill list gives 400; otherwise exactly one session, under the fresh id and holding the request's candidate id and skills, is added and no other session changes |
| InterviewSessions.StartCreates | Agentic_AI_Recruitment_Manager-main/Agentic_AI_Recruitment_Manager-main/beckend/interview_agent.py:212-245 | a started session holds the fresh id, the request's candidate id and skills, `startedAt` now and no `completedAt`; it is active, on question 1 of `numQuestions` (5 when absent, not validated), has no scores and two messages, the second being question 1 on the first requested skill |
| InterviewSessions.StartPreservesInv | Agentic_AI_Recruitment_Manager-main/Agentic_AI_Recruitment_Manager-main/beckend/interview_agent.py:199-254 | starting a session keeps the store invariant |
| InterviewSessions.SkillFor | Agentic_AI_Recruitment_Manager-main/Agentic_AI_Recruitment_Manager-main/beckend/interview_agent.py:291 | the skill for question k is one of the session's skills |
| InterviewSessions.SkillForClamps | Agentic_AI_Recruitment_Manager-main/Agentic_AI_Recruitment_Manager-main/beckend/interview_agent.py:291-325 | question k targets skill k while there are enough skills and the last skill after that: skills do not cycle |
| InterviewSessions.AnswerStep | Agentic_AI_Recruitment_Manager-main/Agentic_AI_Recruitment_Manager-main/beckend/interview_agent.py:284-344 | an accepted answer appends one score; the session completes iff the counter has reached the total, keeping the counter, and otherwise the counter grows by one |
| InterviewSessions.Accept | Agentic_AI_Recruitment_Manager-main/Agentic_AI_Recruitment_Manager-main/beckend/interview_agent.py:284-344 | recording an answer writes only the answered session: the order, the keys and every other session are unchanged |
| InterviewSessions.AcceptKeepsInv | Agentic_AI_Recruitment_Manager-main/Agentic_AI_Recruitment_Manager-main/beckend/interview_agent.py:284-344 | recording an accepted answer keeps the store invariant |
| InterviewSessions.AcceptAdvances | Agentic_AI_Recruitment_Manager-main/Agentic_AI_Recruitment_Manager-main/beckend/interview_agent.py:284-344 | recording an answer never reopens a completed session or removes a score |
| InterviewSessions.Submit | Agentic_AI_Recruitment_Manager-main/Agentic_AI_Recruitment_Manager-main/beckend/interview_agent.py:256-354 | errors come in a fixed order: unknown or missing id 404, blank answer 400, inactive session 400; an accepted answer changes only its own session |
| InterviewSessions.SubmitAccepts | Agentic_AI_Recruitment_Manager-main/Agentic_AI_Recruitment_Manager-main/beckend/interview_agent.py:284-344 | an accepted answer appends the evaluation score of the stripped answer; the reply is final iff the counter had reached the total; otherwise the next question is numbered one higher and targets the skill of that number |
| InterviewSessions.ShapedAfterLastAnswer | Agentic_AI_Recruitment_Manager-main/Agentic_AI_Recruitment_Manager-main/beckend/interview_agent.py:299-314 | answering the last question and appending the closing message keeps the message-list shape |
| InterviewSessions.ShapedAfterNextQuestion | Agentic_AI_Recruitment_Manager-main/Agentic_AI_Recruitment_Manager-main/beckend/interview_agent.py:324-344 | answering and asking the next question keeps the message-list shape one question on |
| InterviewSessions.AnswerStepInv | Agentic_AI_Recruitment_Manager-main/Agentic_AI_Recruitment_Manager-main/beckend/interview_agent.py:284-344 | an accepted answer keeps the session invariant: scores count the answered questions and stay in [0, 10] |
| InterviewSessions.SubmitOk | Agentic_AI_Recruitment_Manager-main/Agentic_AI_Recruitment_Manager-main/beckend/interview_agent.py:256-354 | an accepted request is the answer step on the stripped answer, its evaluation and the question generated for the next skill |
| InterviewSessions.SubmitPreservesInv | Agentic_AI_Recruitment_Manager-main/Agentic_AI_Recruitment_Manager-main/beckend/interview_agent.py:256-354 | submitting an answer keeps the store invariant and never reopens a session or removes a score |
| InterviewSessions.GetSession | Agentic_AI_Recruitment_Manager-main/Agentic_AI_Recruitment_Manager-main/beckend/interview_agent.py:356-373 | an unknown id gives 404; a known id gives its session and the current score, which is the percentage of its scores |
| InterviewSessions.End | Agentic_AI_Recruitment_Manager-main/Agentic_AI_Recruitment_Manager-main/beckend/interview_agent.py:375-396 | an unknown or missing id gives 404; otherwise the session becomes completed at `now` whatever its status and keeps its scores and messages; the reply names the session and carries the percentage of its scores |
| InterviewSessions.EndPreservesInv | Agentic_AI_Recruitment_Manager-main/Agentic_AI_Recruitment_Manager-main/beckend/interview_agent.py:375-396 | ending keeps the store invariant |
| InterviewSessions.EndIdempotent | Agentic_AI_Recruitment_Manager-main/Agentic_AI_Recruitment_Manager-main/beckend/interview_agent.py:375-396 | ending twice reports the same final score and answer count |
| InterviewSessions.EndAdvances | Agentic_AI_Recruitment_Manager-main/Agentic_AI_Recruitment_Manager-main/beckend/interview_agent.py:381-390 | ending never reopens a session or removes a score |
| InterviewSessions.StartAdvances | Agentic_AI_Recruitment_Manager-main/Agentic_AI_Recruitment_Manager-main/beckend/interview_agent.py:212-245 | starting under a fresh id touches no existing session |
| InterviewReport.SkillSlice | Agentic_AI_Recruitment_Manager-main/Agentic_AI_Recruitment_Manager-main/beckend/interview_agent.py:419-421 | a skill's slice of scores stays within [0, 10] |
| InterviewReport.SkillScores | Agentic_AI_Recruitment_Manager-main/Agentic_AI_Recruitment_Manager-main/beckend/interview_agent.py:416-429 | at most one entry per skill, each naming one of the session's skills with a percentage in [0, 100] |
| InterviewReport.SkillScoresFromBounds | Agentic_AI_Recruitment_Manager-main/Agentic_AI_Recruitment_Manager-main/beckend/interview_agent.py:418-429 | the loop from any skill on gives at most one entry per remaining skill, each a percentage |
| InterviewReport.FewScoresNoSkillScores | Agentic_AI_Recruitment_Manager-main/Agentic_AI_Recruitment_Manager-main/beckend/interview_agent.py:416-429 | with fewer scores than skills, no skill gets a score |
| InterviewReport.SliceIsBlock | Agentic_AI_Recruitment_Manager-main/Agentic_AI_Recruitment_Manager-main/beckend/interview_agent.py:419-421 | when the blocks fit, a skill's slice is its own block of `questions_per_skill` scores |
| InterviewReport.AllSkillsFrom | Agentic_AI_Recruitment_Manager-main/Agentic_AI_Recruitment_Manager-main/beckend/interview_agent.py:418-429 | when every block fits, every skill gets exactly one entry, in order |
| InterviewReport.BlockScoreAt | Agentic_AI_Recruitment_Manager-main/Agentic_AI_Recruitment_Manager-main/beckend/interview_agent.py:418-429 | when every block fits, skill j gets the average of block j |
| InterviewReport.EnoughScoresSkillAt | Agentic_AI_Recruitment_Manager-main/Agentic_AI_Recruitment_Manager-main/beckend/interview_agent.py:416-429 | with at least as many scores as skills, skill j gets one entry, the average of its block |
| InterviewReport.SkillScoresEmptyIff | Agentic_AI_Recruitment_Manager-main/Agentic_AI_Recruitment_Manager-main/beckend/interview_agent.py:416-429 | `skillScores` is empty exactly when there are fewer scores than skills |
| InterviewReport.HighSkills | Agentic_AI_Recruitment_Manager-main/Agentic_AI_Recruitment_Manager-main/beckend/interview_agent.py:440 | the skills averaging at least 8 are exactly those listed as high |
| InterviewReport.LowSkills | Agentic_AI_Recruitment_Manager-main/Agentic_AI_Recruitment_Manager-main/beckend/interview_agent.py:447 | the skills averaging below 6 are exactly those listed as low |
| InterviewReport.Strengths | Agentic_AI_Recruitment_Manager-main/Agentic_AI_Recruitment_Manager-main/beckend/interview_agent.py:431-498 | the strengths list is never empty; the excellence line appears iff the overall score is at least 80, the knowledge line iff at least 70, the proficiency line iff some skill averages at least 8, and the placeholder alone iff none of these |
| InterviewReport.Weaknesses | Agentic_AI_Recruitment_Manager-main/Agentic_AI_Recruitment_Manager-main/beckend/interview_agent.py:444-499 | the weaknesses list is never empty; the depth line appears iff the overall score is below 70, the improvement line iff some skill averages below 6, and the placeholder alone iff neither |
| InterviewReport.Recommend | Agentic_AI_Recruitment_Manager-main/Agentic_AI_Recruitment_Manager-main/beckend/interview_agent.py:451-459 | the recommendation is Highly Recommended iff at least 80, Recommended iff 65 to 79, Not Recommended iff below 50 |
| InterviewReport.RecommendMonotonic | Agentic_AI_Recruitment_Manager-main/Agentic_AI_Recruitment_Manager-main/beckend/interview_agent.py:451-459 | a higher overall score never gets a weaker recommendation |
| InterviewReport.FirstAnswerFrom | Agentic_AI_Recruitment_Manager-main/Agentic_AI_Recruitment_Manager-main/beckend/interview_agent.py:470-474 | the answer paired with a question is the first candidate message after it |
| InterviewReport.Transcript | Agentic_AI_Recruitment_Manager-main/Agentic_AI_Recruitment_Manager-main/beckend/interview_agent.py:461-482 | at most one entry per message, and no entry when no candidate message exists |
| InterviewReport.ShapedEntries | Agentic_AI_Recruitment_Manager-main/Agentic_AI_Recruitment_Manager-main/beckend/interview_agent.py:461-482 | a well-shaped session yields one entry per answered question |
| InterviewReport.TranscriptFromShaped | Agentic_AI_Recruitment_Manager-main/Agentic_AI_Recruitment_Manager-main/beckend/interview_agent.py:461-482 | the transcript loop over a well-shaped message list gives one entry per answered question |
| InterviewReport.TranscriptOfSession | Agentic_AI_Recruitment_Manager-main/Agentic_AI_Recruitment_Manager-main/beckend/interview_agent.py:461-482 | the transcript pairs every answered question with its answer, in order, with the recorded score |
| InterviewReport.GetResults | Agentic_AI_Recruitment_Manager-main/Agentic_AI_Recruitment_Manager-main/beckend/interview_agent.py:402-504 | an unknown id gives 404; otherwise the results carry the session's ids, candidate name, skills and question counts, its percentage score and the recommendation of that score, and the skill scores, strengths, weaknesses and transcript computed from its scores and messages |
| InterviewReport.CompletedIds | Agentic_AI_Recruitment_Manager-main/Agentic_AI_Recruitment_Manager-main/beckend/interview_agent.py:509-512 | the ids listed are exactly the completed sessions, kept in insertion order |
| InterviewReport.CompletedIdsKeepOrder | Agentic_AI_Recruitment_Manager-main/Agentic_AI_Recruitment_Manager-main/beckend/interview_agent.py:509-512 | the listing distributes over concatenation of the insertion order and lists one id iff it is completed, so it keeps insertion order |
| InterviewReport.RowsOf | Agentic_AI_Recruitment_Manager-main/Agentic_AI_Recruitment_Manager-main/beckend/interview_agent.py:515-527 | one summary row per listed session |
| InterviewReport.AllResults | Agentic_AI_Recruitment_Manager-main/Agentic_AI_Recruitment_Manager-main/beckend/interview_agent.py:506-529 | one row per completed session in insertion order, and `count` is the number of rows |
| InterviewReport.AllResultsExactlyCompleted | Agentic_AI_Recruitment_Manager-main/Agentic_AI_Recruitment_Manager-main/beckend/interview_agent.py:509-512 | a session appears in the summary exactly when it is stored and completed |
| FileNames.Extension | Agentic_AI_Recruitment_Manager-main/beckend/resume_ranker.py:25 | the extension is absent iff the name has no dot, and otherwise holds no dot |
| FileNames.AllowedIff | Agentic_AI_Recruitment_Manager-main/beckend/resume_ranker.py:24-25 | a name ending in a dot and a dot-free extension is allowed iff the extension, lower-cased, is `pdf` or `docx` |
| FileNames.LastDotOf | Agentic_AI_Recruitment_Manager-main/beckend/resume_ranker.py:25 | the last dot of `stem.ext` is the one before the extension |
| FileNames.NoDotNotAllowed | beckend/resume_ranker.py:20-21 | a name without a dot is refused |
| FileNames.StripExtension | Agentic_AI_Recruitment_Manager-main/src/components/ResumeManager.tsx:22 | removing the extension leaves a prefix of the name |
| FileNames.CandidateName | Agentic_AI_Recruitment_Manager-main/src/components/ResumeManager.tsx:22 | the display name is no longer than the file name and holds no `-` or `_` |
| FileNames.StripExtensionOf | Agentic_AI_Recruitment_Manager-main/src/components/ResumeManager.tsx:22 | a stem followed by a non-empty extension without `.` or `/` loses exactly the extension |
| FileNames.StripExtensionKeeps | Agentic_AI_Recruitment_Manager-main/src/components/ResumeManager.tsx:22 | a name ending in a dot, or whose last extension holds a `/`, is kept whole |
| FileNames.BeforeFirst | Agentic_AI_Recruitment_Manager-main/src/components/ResumeManager.tsx:23 | the text before the first occurrence of a character is a prefix without that character, followed by it unless it is the whole text |
| FileNames.CandidateEmailOf | Agentic_AI_Recruitment_Manager-main/src/components/ResumeManager.tsx:23 | the e-mail is the lower-cased text before the first dot followed by `@email.com` |
| FileNames.BeforeFirstOf | Agentic_AI_Recruitment_Manager-main/src/components/ResumeManager.tsx:23 | splitting `stem.rest` at the first dot gives the stem when it has no dot |
| JobDescription.TemplateLayout | Agentic_AI_Recruitment_Manager-main/Agentic_AI_Recruitment_Manager-main/beckend/Intelligent_layer/app.py:27-58 | the template opens with a heading naming the role, and the role, the last requirement and the closing text appear in that order |
| JobDescription.FallbackRole | Agentic_AI_Recruitment_Manager-main/Agentic_AI_Recruitment_Manager-main/beckend/Intelligent_layer/app.py:19-25 | the role is the default or no longer than the prompt; a role taken after a marker never ends with a dot |
| JobDescription.MarkedRole | Agentic_AI_Recruitment_Manager-main/Agentic_AI_Recruitment_Manager-main/beckend/Intelligent_layer/app.py:22-23 | the text after the marker gives a role no longer than it that does not end with a dot |
| JobDescription.LastRequirement | Agentic_AI_Recruitment_Manager-main/Agentic_AI_Recruitment_Manager-main/beckend/Intelligent_layer/app.py:44 | the last bullet is shorter than 200 characters; a short prompt gives itself, stripped |
| JobDescription.FallbackJd | Agentic_AI_Recruitment_Manager-main/Agentic_AI_Recruitment_Manager-main/beckend/Intelligent_layer/app.py:14-60 | the template opens with `# ` and the role and ends with the fixed closing note |
| JobDescription.RoleFromMarker | Agentic_AI_Recruitment_Manager-main/Agentic_AI_Recruitment_Manager-main/beckend/Intelligent_layer/app.py:20-23 | with a literal `role:` the role is the rest of that line, stripped, without trailing dots |
| JobDescription.RoleAtEnd | Agentic_AI_Recruitment_Manager-main/Agentic_AI_Recruitment_Manager-main/beckend/Intelligent_layer/app.py:20-23 | a marker whose role runs to the end of the prompt, with no newline, names that rest, stripped, without trailing dots |
| JobDescription.RoleOtherCase | Agentic_AI_Recruitment_Manager-main/Agentic_AI_Recruitment_Manager-main/beckend/Intelligent_layer/app.py:19-23 | when only a differently cased marker occurs, the role stays `Software Engineer` |
| JobDescription.RoleShortPrompt | Agentic_AI_Recruitment_Manager-main/Agentic_AI_Recruitment_Manager-main/beckend/Intelligent_layer/app.py:24-25 | without a marker a prompt shorter than 200 characters is itself the role, stripped |
| JobDescription.RoleLongPrompt | Agentic_AI_Recruitment_Manager-main/Agentic_AI_Recruitment_Manager-main/beckend/Intelligent_layer/app.py:19-25 | without a marker a longer prompt gets the default role |
| JobDescription.MarkerFirstAt | Agentic_AI_Recruitment_Manager-main/Agentic_AI_Recruitment_Manager-main/beckend/Intelligent_layer/app.py:22 | the marker found is the first literal `role:` |
| JobDescription.LineFirstAt | Agentic_AI_Recruitment_Manager-main/Agentic_AI_Recruitment_Manager-main/beckend/Intelligent_layer/app.py:22 | the role ends at the first newline after the marker |
| JobDescription.LowerContainsMarker | Agentic_AI_Recruitment_Manager-main/Agentic_AI_Recruitment_Manager-main/beckend/Intelligent_layer/app.py:21 | a literal `role:` also passes the case-insensitive test |
| JobDescription.GenerateJd | Agentic_AI_Recruitment_Manager-main/Agentic_AI_Recruitment_Manager-main/beckend/Intelligent_layer/app.py:62-95 | no description exactly when the model raises an error that is not a not-found error; model content is returned stripped; otherwise the template is used |
| JobDescription.GenerateJdRoute | Agentic_AI_Recruitment_Manager-main/beckend/resume_ranker.py:225-236 | an empty prompt is a 400; a missing or empty description is a 500; the route succeeds exactly when the prompt is non-empty and a non-empty description is generated, and then returns it |
| JobDescription.TemplateRouteSucceeds | Agentic_AI_Recruitment_Manager-main/beckend/resume_ranker.py:225-236 | whenever the template is used, the route succeeds for a non-empty prompt |
| ResumeRanker.Select | Agentic_AI_Recruitment_Manager-main/beckend/resume_ranker.py:75-82 | the selected skills are exactly the listed skills the job description mentions and the resume does (matched) or does not (missing) mention |
| ResumeRanker.SelectIff | Agentic_AI_Recruitment_Manager-main/beckend/resume_ranker.py:75-82 | a skill is selected iff the job description mentions it and the resume mentions it (matched) or does not (missing) |
| ResumeRanker.SelectKeepsOrder | Agentic_AI_Recruitment_Manager-main/beckend/resume_ranker.py:75-82 | selection distributes over concatenation and keeps one skill iff it is wanted, so the list order is kept |
| ResumeRanker.Titles | Agentic_AI_Recruitment_Manager-main/beckend/resume_ranker.py:80-82 | each reported skill is title-cased |
| ResumeRanker.Take | Agentic_AI_Recruitment_Manager-main/beckend/resume_ranker.py:85-86 | the caps keep a prefix of at most n elements |
| ResumeRanker.ExtractSkills | Agentic_AI_Recruitment_Manager-main/beckend/resume_ranker.py:84-87 | the matched skills are the first up to 10, in list order, of the title-cased matched selection, and the missing skills the first up to 5 of the missing selection |
| ResumeRanker.CommonSkillsLowerCase | Agentic_AI_Recruitment_Manager-main/beckend/resume_ranker.py:57-66 | every listed skill is lower-case |
| ResumeRanker.ExtractSkillsSound | Agentic_AI_Recruitment_Manager-main/beckend/resume_ranker.py:75-82 | each reported skill is a title-cased listed skill the job description mentions; matched ones are in the resume and missing ones are not |
| ResumeRanker.ExtractSkillsDisjoint | Agentic_AI_Recruitment_Manager-main/beckend/resume_ranker.py:79-82 | no skill is both matched and missing |
| ResumeRanker.ExtractSkillsComplete | Agentic_AI_Recruitment_Manager-main/beckend/resume_ranker.py:75-87 | below the caps every listed skill the job description mentions is reported, as matched or as missing |
| ResumeRanker.GoInsideGood | Agentic_AI_Recruitment_Manager-main/beckend/resume_ranker.py:76-77 | matching is by plain substring: `go` is found in `Good` |
| ResumeRanker.FirstFound | Agentic_AI_Recruitment_Manager-main/beckend/resume_ranker.py:110-111 | the keyword found is the first in list order that occurs |
| ResumeRanker.Education | Agentic_AI_Recruitment_Manager-main/beckend/resume_ranker.py:106-120 | the education is one of the four degrees or `Not specified` |
| ResumeRanker.EducationUnspecifiedIff | Agentic_AI_Recruitment_Manager-main/beckend/resume_ranker.py:106-120 | the education is `Not specified` exactly when no keyword occurs |
| ResumeRanker.EducationFirstKeyword | Agentic_AI_Recruitment_Manager-main/beckend/resume_ranker.py:110-120 | otherwise it is the degree of the first keyword that occurs |
| ResumeRanker.FirstFoundAt | Agentic_AI_Recruitment_Manager-main/beckend/resume_ranker.py:110-111 | a keyword with no earlier keyword present is the one found |
| ResumeRanker.KeywordDegree | Agentic_AI_Recruitment_Manager-main/beckend/resume_ranker.py:112-119 | every keyword maps to one of the four degrees |
| ResumeRanker.DegreeTable | Agentic_AI_Recruitment_Manager-main/beckend/resume_ranker.py:112-119 | bachelor, b.tech and b.s give a bachelor's; master, m.tech and m.s a master's; phd a PhD; mba an MBA |
| ResumeRanker.BachelorTakesPrecedence | Agentic_AI_Recruitment_Manager-main/beckend/resume_ranker.py:106-120 | a resume mentioning `bachelor` is a bachelor's whatever else it mentions |
| ResumeRanker.MasterSecond | Agentic_AI_Recruitment_Manager-main/beckend/resume_ranker.py:106-120 | otherwise a resume mentioning `master` is a master's |
| ResumeRanker.Recommendation | Agentic_AI_Recruitment_Manager-main/beckend/resume_ranker.py:153-160 | four bands at 80, 65 and 50 |
| ResumeRanker.RecommendationMonotonic | Agentic_AI_Recruitment_Manager-main/beckend/resume_ranker.py:153-160 | a higher score never gets a weaker band |
| ResumeRanker.RelevantDegreeIff | Agentic_AI_Recruitment_Manager-main/beckend/resume_ranker.py:140 | of those, exactly the bachelor's and the master's count as relevant |
| ResumeRanker.Analyze | Agentic_AI_Recruitment_Manager-main/beckend/resume_ranker.py:127-170 | the analysis carries the extracted skills, the education, the years text, the recommendation of the score, and the strengths and weaknesses lists built from those skills, the score and the education or years (their rules are `StrengthsRules` and `WeaknessesRules`) |
| ResumeRanker.StrengthsRules | Agentic_AI_Recruitment_Manager-main/beckend/resume_ranker.py:133-167 | strengths are never empty; the alignment line iff more than five skills match; the proficiency line iff any matches; the excellence line iff the score exceeds 75; the education line iff the education is relevant |
| ResumeRanker.WeaknessesRules | Agentic_AI_Recruitment_Manager-main/beckend/resume_ranker.py:143-168 | weaknesses are never empty; the limited-experience line iff a skill is missing; the match line iff the score is below 60; the experience line iff the years are not stated |
| ResumeRanker.AnalysisEducationStrength | Agentic_AI_Recruitment_Manager-main/beckend/resume_ranker.py:140-141 | in a full analysis the education strength appears exactly for a bachelor's or a master's |
| ResumeRanker.Kept | Agentic_AI_Recruitment_Manager-main/beckend/resume_ranker.py:190-192 | the kept uploads are exactly those the extension filter allows |
| ResumeRanker.KeptKeepsOrder | Agentic_AI_Recruitment_Manager-main/beckend/resume_ranker.py:190-192 | the filter distributes over concatenation and keeps one upload iff allowed, so upload order is kept |
| ResumeRanker.RankingOf | Agentic_AI_Recruitment_Manager-main/beckend/resume_ranker.py:193-220 | a kept file is listed under its saved name; a processed one carries its score and the analysis of its text (skills, education, years, strengths, weaknesses and recommendation); a failed one score 0.0, its error and the fixed error analysis |
| ResumeRanker.RankingsOf | Agentic_AI_Recruitment_Manager-main/beckend/resume_ranker.py:197-220 | one ranking per kept upload, in order |
| ResumeRanker.RankTiesKeepUploadOrder | Agentic_AI_Recruitment_Manager-main/beckend/resume_ranker.py:222 | rankings with equal scores keep the order of the kept uploads, since Python's sort is stable |
| ResumeRanker.Rank | Agentic_AI_Recruitment_Manager-main/beckend/resume_ranker.py:179-223 | a blank job description is refused first, then an empty file list; otherwise the rankings are a permutation of those of the kept files, sorted by score from highest to lowest, and `count` is their number |
| ResumeRanker.RankListsEveryKeptFile | Agentic_AI_Recruitment_Manager-main/beckend/resume_ranker.py:197-220 | each kept upload appears under its saved name; a failed one with score 0.0, its error and the fixed error analysis |
| ResumeRanker.RankSkipsRefused | Agentic_AI_Recruitment_Manager-main/beckend/resume_ranker.py:190-192 | a refused file changes nothing in the reply |
| BasicRanker.RankingsOf | beckend/resume_ranker.py:67-79 | the rankings are exactly those of the allowed uploads |
| BasicRanker.RankingsOfKeepsOrder | beckend/resume_ranker.py:67-79 | the rankings follow upload order: the list for two upload lists joined is their two lists joined, and one upload gives its ranking iff its extension is allowed |
| BasicRanker.RankTiesKeepUploadOrder | beckend/resume_ranker.py:81 | rankings with equal scores keep upload order, since Python's sort is stable |
| BasicRanker.RankingsCount | beckend/resume_ranker.py:67-79 | one ranking per allowed upload |
| BasicRanker.Rank | beckend/resume_ranker.py:56-82 | a blank job description is refused before the files are looked at, then an empty file list; otherwise the rankings are sorted by score from highest to lowest and `count` is their number |
| BasicRanker.RankEntries | beckend/resume_ranker.py:67-79 | every allowed file is listed, a failed one with score 0.0 and its error |
| BasicRanker.RankSkipsRefused | beckend/resume_ranker.py:67-69 | a refused file changes nothing in the reply |
| Routing.CleanEndpoint | Agentic_AI_Recruitment_Manager-main/src/config.ts:9 | exactly one leading `/` is removed, and only when there is one |
| Routing.ApiUrl | Agentic_AI_Recruitment_Manager-main/src/config.ts:7-18 | the URL is the base followed by the endpoint with exactly one leading `/`, whether or not the endpoint had one |
| Routing.ApiUrlShape | Agentic_AI_Recruitment_Manager-main/src/config.ts:7-18 | the URL starts with the base followed by one `/`, so with an empty base it starts with `/` |
| Routing.LeadingSlashIrrelevant | Agentic_AI_Recruitment_Manager-main/src/config.ts:9 | `getApiUrl("/" + e)` equals `getApiUrl(e)` when `e` does not start with `/` |
| Routing.OnlyOneSlashRemoved | Agentic_AI_Recruitment_Manager-main/src/config.ts:9 | a doubled leading slash survives once: the join shows two slashes |
| Routing.SingleSlashAtJoin | Agentic_AI_Recruitment_Manager-main/src/config.ts:12-17 | an endpoint without a leading slash is joined with exactly one `/` |
| Routing.Dispatch | Agentic_AI_Recruitment_Manager-main/beckend/unified_app.py:49-56 | a request goes to the interview app iff its path starts with `/api/interview`, and to the ranker app otherwise |
| Routing.PrefixedGoesToInterview | Agentic_AI_Recruitment_Manager-main/beckend/unified_app.py:52-53 | every path under the prefix goes to the interview app |
| Routing.PrefixIsNotSegmentAware | Agentic_AI_Recruitment_Manager-main/beckend/unified_app.py:52 | `/api/interviews` also goes to the interview app |
| Routing.MissingPathGoesToRanker | Agentic_AI_Recruitment_Manager-main/beckend/unified_app.py:49-56 | a missing or empty path goes to the ranker app |
| Routing.RankerPaths | Agentic_AI_Recruitment_Manager-main/beckend/unified_app.py:13-60 | the ranker routes and the wrapper's own `/` and `/health` all go to the ranker app, so the wrapper's handlers are unreachable |
| Routing.ShortPathGoesToRanker | Agentic_AI_Recruitment_Manager-main/beckend/unified_app.py:52-56 | a path shorter than the prefix goes to the ranker app |
| Candidates.UpdateWhere | src/components/FinalReport.tsx:35-45 | a map over the list changes exactly the records with the id |
| Candidates.FindCandidate | Agentic_AI_Recruitment_Manager-main/src/components/InterviewAgent.tsx:50 | the candidate found is the first with the id, and none is found iff no candidate has it |
| Candidates.FindInterview | src/components/InterviewScheduler.tsx:64 | the interview found is the first with the id, and none is found iff no interview has it |
| FinalReport.OverallScore | src/components/FinalReport.tsx:84-96 | without sentiment the resume score; otherwise the weighted score 0.6 score + 0.4 (positive + neutral/2) rounded to the nearest integer, halves upwards |
| FinalReport.OverallIgnoresNegative | src/components/FinalReport.tsx:87-95 | the negative percentage never changes the overall score |
| FinalReport.OverallMonotonic | src/components/FinalReport.tsx:87-95 | a higher resume score, positive or neutral percentage never lowers the overall score |
| FinalReport.OverallBounds | src/components/FinalReport.tsx:87-95 | in-range inputs give an overall score in [0, 100] |
| FinalReport.OverallExample | src/data/mockData.ts:14-30 | the sample candidate with score 78 and sentiment 65/15/20 scores 77 |
| FinalReport.DecisionStatus | src/components/FinalReport.tsx:38-42 | hire gives hired, reject rejected, on-hold on-hold |
| FinalReport.MakeDecision | src/components/FinalReport.tsx:34-47 | only candidates with the id change: they get the decision, the notes and the decision's status; the length is kept |
| FinalReport.MakeDecisionIdempotent | src/components/FinalReport.tsx:34-47 | making the same decision twice is making it once |
| FinalReport.Report | src/components/FinalReport.tsx:16-18 | the report lists exactly the interviewed candidates with a sentiment |
| FinalReport.DecisionLeavesReport | src/components/FinalReport.tsx:16-47 | after a decision the candidate is no longer in the report |
| FinalReport.Shown | src/components/FinalReport.tsx:21-28 | a report entry is shown iff the lower-cased term occurs in its lower-cased name or e-mail and the selector is `all` or names its decision |
| FinalReport.EmptySearchShowsAll | src/components/FinalReport.tsx:21-28 | an empty term with `all` shows the whole report |
| FinalReport.StatusFilterNeedsDecision | src/components/FinalReport.tsx:21-28 | with a status selected only interviewed candidates carrying that decision are shown |
| Scheduler.EligibleCandidates | src/components/InterviewScheduler.tsx:24-26 | exactly the reviewed candidates scoring at least 70 are offered |
| Scheduler.Schedule | src/components/InterviewScheduler.tsx:28-61 | an incomplete form changes nothing; otherwise one scheduled interview is appended after the earlier ones and only the chosen candidate becomes interviewed with the date |
| Scheduler.ScheduledNotEligible | src/components/InterviewScheduler.tsx:24-53 | a scheduled candidate is no longer offered |
| Scheduler.CancelWhere | src/components/InterviewScheduler.tsx:68-70 | only interviews with the id become cancelled |
| Scheduler.Cancel | src/components/InterviewScheduler.tsx:63-80 | an unknown id changes nothing; otherwise the interview is cancelled and its candidate goes back to reviewed without a date, and nothing else changes (the second scheduler screen, lines 151-166 of its file, cancels with the same code) |
| Scheduler.CancelUndoesSchedule | src/components/InterviewScheduler.tsx:28-80 | cancelling the interview just scheduled gives back the candidate list and leaves the interview as cancelled |
| Scheduler.Hour2Digits | src/components/InterviewScheduler.tsx:104 | `padStart(2, '0')` renders an hour below 100 as its two digits |
| Scheduler.SlotMinutes | src/components/InterviewScheduler.tsx:104-106 | each slot is clock text for its hour and half hour |
| Scheduler.TimeSlots | src/components/InterviewScheduler.tsx:102-108 | 17 slots, the k-th at 09:00 plus 30 k minutes (the second scheduler screen, lines 188-194 of its file, builds the same slots) |
| Scheduler.TimeSlotBounds | src/components/InterviewScheduler.tsx:102-108 | the slots run from 09:00 to 17:00, strictly increasing, without 17:30 |
| Scheduler.ClockTextInjective | src/components/InterviewScheduler.tsx:102-108 | two clock texts with the same minutes are equal |
| BackendScheduler.AllEligible | Agentic_AI_Recruitment_Manager-main/src/components/InterviewScheduler.tsx:64-72 | the combined eligible list (`allEligibleCandidates`) holds local candidates iff reviewed and scoring at least 70 and service candidates iff scoring at least 70, whatever their status |
| BackendScheduler.DropDown | Agentic_AI_Recruitment_Manager-main/src/components/InterviewScheduler.tsx:250-270 | the candidate drop-down lists every service candidate, unfiltered and in order, then the eligible local candidates |
| BackendScheduler.LowScoringRemoteOffered | Agentic_AI_Recruitment_Manager-main/src/components/InterviewScheduler.tsx:250-270 | a service candidate scoring below 70 is in the drop-down although it is not in the combined eligible list |
| BackendScheduler.FindRemote | Agentic_AI_Recruitment_Manager-main/src/components/InterviewScheduler.tsx:103 | the service candidate found is the first with the number, and none iff no candidate has it |
| BackendScheduler.ScheduleCombined | Agentic_AI_Recruitment_Manager-main/src/components/InterviewScheduler.tsx:74-149 | an incomplete form changes nothing; a numeric id goes to the service and at most appends one `backend-` interview, only when accepted and the candidate is loaded, never touching the candidates; any other id is scheduled locally; the form is reset unless an exception was thrown |
| BackendScheduler.CandidateName | Agentic_AI_Recruitment_Manager-main/src/components/InterviewScheduler.tsx:197-204 | a name is never empty; a `backend-` id names the first service candidate with its number, any other among the local candidates, else `Unknown` |
| BackendScheduler.BookedNameRoundTrip | Agentic_AI_Recruitment_Manager-main/src/components/InterviewScheduler.tsx:98-204 | an interview booked for a service candidate shows that candidate's name |
| BackendScheduler.LocalName | Agentic_AI_Recruitment_Manager-main/src/components/InterviewScheduler.tsx:197-204 | a local id resolves to its candidate's name |
| BackendScheduler.EmptySuffixIsZero | Agentic_AI_Recruitment_Manager-main/src/components/InterviewScheduler.tsx:199 | `backend-` with no number is looked up as service candidate 0 |
| ResumeManager.Upload | Agentic_AI_Recruitment_Manager-main/src/components/ResumeManager.tsx:16-33 | no file list changes nothing; otherwise one new candidate per file, with score 0, status new, and the name and e-mail derived from the file name, is appended after the unchanged existing ones |
| ResumeManager.UploadIdsDistinct | Agentic_AI_Recruitment_Manager-main/src/components/ResumeManager.tsx:21 | the files of one upload get different ids |
| ResumeManager.UploadNameAndEmail | Agentic_AI_Recruitment_Manager-main/src/components/ResumeManager.tsx:22-23 | `stem.ext` gives the stem with `-` and `_` as spaces, and the lower-cased stem at `email.com` |
| ResumeManager.FindRanking | Agentic_AI_Recruitment_Manager-main/src/components/ResumeManager.tsx:89 | the ranking found is the first with the resume name, and none iff no ranking has it |
| ResumeManager.Merge | Agentic_AI_Recruitment_Manager-main/src/components/ResumeManager.tsx:88-99 | a candidate with a ranking gets the rounded score of the first ranking under its resume name, `reviewed` and that ranking's analysis, nothing else changing; the others are unchanged |
| ResumeManager.RankResumes | Agentic_AI_Recruitment_Manager-main/src/components/ResumeManager.tsx:51-112 | without files or reply nothing changes; otherwise the result is a permutation of the merged list sorted by score from highest to lowest |
| ResumeManager.RankResumesTiesKeepOrder | Agentic_AI_Recruitment_Manager-main/src/components/ResumeManager.tsx:102 | candidates with equal scores keep their merged-list order, since `Array.prototype.sort` is stable |
| ResumeManager.RankKeepsIds | Agentic_AI_Recruitment_Manager-main/src/components/ResumeManager.tsx:88-102 | ranking neither adds nor drops a candidate |
| ResumeManager.MockScore | src/components/ResumeManager.tsx:56 | a mock score lies in [60, 99] |
| ResumeManager.MockRank | src/components/ResumeManager.tsx:53-63 | the result is a permutation of the list with every candidate given a mock score in [60, 99] and reviewed, nothing else changed, sorted from highest to lowest |
| ResumeManager.MockRankTiesKeepOrder | src/components/ResumeManager.tsx:61 | candidates with equal mock scores keep their list order, since `Array.prototype.sort` is stable |
| ResumeManager.Delete | Agentic_AI_Recruitment_Manager-main/src/components/ResumeManager.tsx:114-116 | exactly the candidates with the id are removed |
| ResumeManager.DeleteKeepsOrder | src/components/ResumeManager.tsx:68-70 | deleting keeps the order of the others and an absent id changes nothing |
| ResumeManager.LitBelow | Agentic_AI_Recruitment_Manager-main/src/components/ResumeManager.tsx:258-266 | lighting the stars below a threshold lights the threshold clamped to [0, 5] |
| ResumeManager.TableStars | Agentic_AI_Recruitment_Manager-main/src/components/ResumeManager.tsx:258-266 | the table lights `Math.round(score / 20)` stars, clamped to [0, 5] |
| ResumeManager.RenderStars | src/components/ResumeManager.tsx:83-97 | `renderScoreStars` lights `floor(score / 20)` stars, clamped to [0, 5] |
| ResumeManager.StarsDiffer | Agentic_AI_Recruitment_Manager-main/src/components/ResumeManager.tsx:130-266 | the two star counts differ by at most one; 90 gives 5 in the table and 4 in `renderScoreStars` |
| ResumeManager.StarsShown | src/components/ResumeManager.tsx:208-214 | stars are shown iff the score is positive |
| InterviewScreen.ParseSkills | Agentic_AI_Recruitment_Manager-main/src/components/InterviewAgent.tsx:53 | every parsed skill is non-empty, holds no comma and has no surrounding whitespace |
| InterviewScreen.ParseSkillsJoin | Agentic_AI_Recruitment_Manager-main/src/components/InterviewAgent.tsx:53 | skills joined with commas parse back to themselves |
| InterviewScreen.ParseSkillsEmpty | Agentic_AI_Recruitment_Manager-main/src/components/InterviewAgent.tsx:53 | no skill survives exactly when every comma-separated piece is blank |
| InterviewScreen.StartInterview | Agentic_AI_Recruitment_Manager-main/src/components/InterviewAgent.tsx:41-85 | the start is refused iff no candidate is selected or the skills text is blank; an unknown candidate sends nothing; otherwise the request carries the candidate's id and name, the parsed skills and the count |
| InterviewScreen.ServiceAcceptsIffSkills | Agentic_AI_Recruitment_Manager-main/src/components/InterviewAgent.tsx:53-65 | the service accepts a request the screen sends iff at least one skill survives parsing |
| InterviewScreen.CommaPassesGuard | Agentic_AI_Recruitment_Manager-main/src/components/InterviewAgent.tsx:42-53 | a text of only a comma passes the guard but parses to no skill |
| InterviewScreen.QuestionCount | Agentic_AI_Recruitment_Manager-main/src/components/InterviewAgent.tsx:249 | `parseInt(v) || 5`: no number or 0 gives 5, any other number is kept |
| InterviewScreen.QuestionCountOf | Agentic_AI_Recruitment_Manager-main/src/components/InterviewAgent.tsx:249 | a typed non-zero number, even negative, is the count: the 1 to 10 bounds are not enforced |
| InterviewScreen.QuestionCountDefaults | Agentic_AI_Recruitment_Manager-main/src/components/InterviewAgent.tsx:249 | an empty field or 0 gives 5 |
| InterviewScreen.Interviewed | Agentic_AI_Recruitment_Manager-main/src/components/InterviewAgent.tsx:118-124 | only the session's candidate gets the final score and the interviewed status |
| InterviewScreen.AfterAnswer | Agentic_AI_Recruitment_Manager-main/src/components/InterviewAgent.tsx:118-125 | the list changes only when the reply is completed with a final score |
| InterviewScreen.AfterEnd | Agentic_AI_Recruitment_Manager-main/src/components/InterviewAgent.tsx:157-162 | ending always gives the matched candidate the final score and `interviewed`, keeping its other fields, and leaves every other candidate unchanged |
| InterviewScreen.EndAfterCompletion | Agentic_AI_Recruitment_Manager-main/src/components/InterviewAgent.tsx:118-162 | ending after completion with the same score changes nothing more |
| InterviewScreen.AnswerScoreColor | Agentic_AI_Recruitment_Manager-main/src/components/InterviewAgent.tsx:183-187 | green iff at least 8, yellow iff 6 or 7, red iff below 6 |
| InterviewScreen.Recommendation | Agentic_AI_Recruitment_Manager-main/src/components/InterviewResults.tsx:68 | Highly Recommended iff at least 80, Recommended iff 65 to 79, Consider for Review iff below 65 |
| InterviewScreen.Results | Agentic_AI_Recruitment_Manager-main/src/components/InterviewResults.tsx:39-86 | a card exists exactly for each interviewed candidate with a positive score, with that score as overall score |
| InterviewScreen.CompletedCandidateHasResult | Agentic_AI_Recruitment_Manager-main/src/components/InterviewAgent.tsx:118-125 | a completed interview with a positive score puts its candidate on the results screen |
| InterviewScreen.SameBuckets | Agentic_AI_Recruitment_Manager-main/src/components/InterviewResults.tsx:91-101 | text and background colours use the same 80 / 65 buckets |
| InterviewScreen.RecommendationColors | Agentic_AI_Recruitment_Manager-main/src/components/InterviewResults.tsx:103-107 | the three recommendations get green, blue and yellow, because `Highly` is checked first |
| Text.Lower | Agentic_AI_Recruitment_Manager-main/beckend/resume_ranker.py:68-69 | lower-casing keeps the length and maps every character on its own |
| Text.IndexOf | Agentic_AI_Recruitment_Manager-main/beckend/resume_ranker.py:76-77 | the index found is the first occurrence of the substring, and none is found iff it never occurs |
| Text.Split | Agentic_AI_Recruitment_Manager-main/Agentic_AI_Recruitment_Manager-main/beckend/interview_agent.py:168 | a split always gives at least one piece |
| Text.JoinSplit | Agentic_AI_Recruitment_Manager-main/Agentic_AI_Recruitment_Manager-main/beckend/interview_agent.py:168 | joining the pieces of a split with the same separator gives the text back |
| Text.SplitPiecesAvoidSep | Agentic_AI_Recruitment_Manager-main/Agentic_AI_Recruitment_Manager-main/beckend/interview_agent.py:168-172 | no piece of a split contains the separator |
| Text.SplitJoin | Agentic_AI_Recruitment_Manager-main/src/components/InterviewAgent.tsx:53 | splitting a comma join of comma-free pieces gives the pieces back |
| Text.AfterFirst | Agentic_AI_Recruitment_Manager-main/Agentic_AI_Recruitment_Manager-main/beckend/interview_agent.py:177 | `split(sep, 1)[1]` is the text after an occurrence of the separator |
| Text.LStrip | Agentic_AI_Recruitment_Manager-main/src/components/InterviewAgent.tsx:249 | the characters removed from the front are all in the set, and the rest starts with one outside it |
| Text.RStrip | Agentic_AI_Recruitment_Manager-main/Agentic_AI_Recruitment_Manager-main/beckend/Intelligent_layer/app.py:23 | the characters removed from the end are all in the set, and the rest ends with one outside it |
| Text.StripSet | Agentic_AI_Recruitment_Manager-main/Agentic_AI_Recruitment_Manager-main/beckend/interview_agent.py:114-116 | stripping never lengthens the text, leaves both ends outside the set, adds no character, and empties the text exactly when all of it is in the set |
| Text.StripSetTrimmed | Agentic_AI_Recruitment_Manager-main/Agentic_AI_Recruitment_Manager-main/beckend/interview_agent.py:114-116 | stripping text whose ends are already outside the set changes nothing |
| Text.Words | Agentic_AI_Recruitment_Manager-main/Agentic_AI_Recruitment_Manager-main/beckend/interview_agent.py:188 | there are never more words than characters |
| Text.WordsJoin | Agentic_AI_Recruitment_Manager-main/Agentic_AI_Recruitment_Manager-main/beckend/interview_agent.py:188 | `split()` undoes `' '.join` of words, so the word count of words joined by spaces is their number |
| Text.WordsAreWords | Agentic_AI_Recruitment_Manager-main/Agentic_AI_Recruitment_Manager-main/beckend/interview_agent.py:188 | every piece of `split()` is a non-empty run without whitespace |
| Text.WordsEmptyIffBlank | Agentic_AI_Recruitment_Manager-main/Agentic_AI_Recruitment_Manager-main/beckend/interview_agent.py:188 | `split()` is empty exactly when the text is blank |
| Text.TitleInjective | Agentic_AI_Recruitment_Manager-main/beckend/resume_ranker.py:80-82 | title-casing never maps two different lower-case skills to the same text |
| Text.LastIndexOfChar | Agentic_AI_Recruitment_Manager-main/beckend/resume_ranker.py:25 | the index found is the last occurrence of the character, and none is found iff it does not occur |
| Text.ReplaceChars | Agentic_AI_Recruitment_Manager-main/src/components/ResumeManager.tsx:22 | each listed character becomes the replacement and every other one is kept |
| Lists.Filter | Agentic_AI_Recruitment_Manager-main/Agentic_AI_Recruitment_Manager-main/beckend/interview_agent.py:509-512 | the filter keeps exactly the elements that satisfy the condition |
| Lists.FilterAppend | Agentic_AI_Recruitment_Manager-main/Agentic_AI_Recruitment_Manager-main/beckend/interview_agent.py:509-512 | filtering distributes over concatenation, so the survivors keep their order |
| Lists.Find | Agentic_AI_Recruitment_Manager-main/src/components/InterviewAgent.tsx:50 | `find` gives the first element that satisfies the condition, and nothing iff none does |
| QuestionBank.Choice | Agentic_AI_Recruitment_Manager-main/Agentic_AI_Recruitment_Manager-main/beckend/interview_agent.py:132 | `random.choice` gives an element of the list |
| QuestionBank.FirstMatchFrom | Agentic_AI_Recruitment_Manager-main/Agentic_AI_Recruitment_Manager-main/beckend/interview_agent.py:129-132 | the bank found is the first matching one at or after the start |
| InterviewReport.TranscriptFrom | Agentic_AI_Recruitment_Manager-main/Agentic_AI_Recruitment_Manager-main/beckend/interview_agent.py:463-481 | the loop from message i gives at most one entry per remaining message, and none without a candidate message |
| ResumeManager.MockScored | src/components/ResumeManager.tsx:53-58 | each candidate, in place, gets the mock score of its own draw and becomes reviewed |
| ResumeRanker.KeptAppendRefused | Agentic_AI_Recruitment_Manager-main/beckend/resume_ranker.py:190-192 | a refused upload at the end is skipped |
| BasicRanker.RankingsAppendRefused | beckend/resume_ranker.py:67-69 | a refused upload at the end gives no ranking |
| Numbers.PyInt | Agentic_AI_Recruitment_Manager-main/Agentic_AI_Recruitment_Manager-main/beckend/interview_agent.py:172 | text without any digit never parses, and a negative result needs a `-` in the text |
| Numbers.PyIntRoundTrip | Agentic_AI_Recruitment_Manager-main/Agentic_AI_Recruitment_Manager-main/beckend/interview_agent.py:172 | `int(str(n)) == n` for every integer |
| Numbers.JsParseInt | Agentic_AI_Recruitment_Manager-main/src/components/InterviewAgent.tsx:249 | text without any digit gives `NaN`, and a negative result needs a `-` in the text |
| Numbers.JsParseIntPrefix | Agentic_AI_Recruitment_Manager-main/src/components/InterviewAgent.tsx:249 | `parseInt` reads a number back from its text, whatever non-digit text follows |
| Numbers.UnsignedDecimal | Agentic_AI_Recruitment_Manager-main/src/components/InterviewScheduler.tsx:81 | a decimal literal has a non-negative value and needs at least one digit |
| Numbers.JsNumber | Agentic_AI_Recruitment_Manager-main/src/components/InterviewScheduler.tsx:81 | blank text is 0; other text without any digit is `NaN`; a negative result needs a `-` in the text |
| Numbers.JsNumberOfNat | Agentic_AI_Recruitment_Manager-main/src/components/InterviewScheduler.tsx:81 | `Number(String(n)) == n` for a natural number |
| Numbers.RoundHalfEven | Agentic_AI_Recruitment_Manager-main/Agentic_AI_Recruitment_Manager-main/beckend/interview_agent.py:305 | `round` of an exact quotient is within one half of it, and a tie goes to the even neighbour |
| Numbers.RoundHalfUp | src/components/FinalReport.tsx:95 | `Math.round` of an exact quotient is within one half of it, and a tie goes up |
| Numbers.RoundHalfUpMonotonic | src/components/FinalReport.tsx:95 | `Math.round` never decreases as its argument grows |
| Numbers.JsRound | Agentic_AI_Recruitment_Manager-main/src/components/ResumeManager.tsx:93 | `Math.round` of a real x is the integer r with r - 0.5 <= x < r + 0.5, so a half goes up |
| Sorting.SortDesc | Agentic_AI_Recruitment_Manager-main/beckend/resume_ranker.py:222 | the sorted list is a permutation of the input |
| Sorting.SortDescSorted | Agentic_AI_Recruitment_Manager-main/beckend/resume_ranker.py:222 | the sorted list never increases in score |
| Sorting.SortDescStable | Agentic_AI_Recruitment_Manager-main/src/components/ResumeManager.tsx:102 | the sort is stable: elements with equal keys keep their input order |

## Left out

- Language-model calls (`ollama.chat`): each reply is an `LlmReply` parameter. The prompts sent, and the conversation context built for the next question, are not modelled.
- Randomness: `random.choice` takes a `pick` index. The mock scores take a `draw` in [0, 1). The results screen's random per-skill scores and its fixed strengths, weaknesses and transcript are not modelled.
- Ids and clocks: `uuid`, `Date.now()` and `datetime.now()` are parameters (`sid`, `newId`, `stamp`, `now`). Message ids and timestamps are dropped from messages. The interview duration is not computed, because it needs date arithmetic.
- Date values: `new Date(...)` and `Intl.DateTimeFormat` are not modelled. Dates are kept as the text they are built from (`date + "T" + time`).
- Similarity scoring (TF-IDF and cosine), PDF/DOCX reading, the years-of-experience regular expressions and sentiment analysis: their results are inputs.
- File and network I/O: `f.save`, `secure_filename` (an upload carries the name it was saved under), HTTP fetches, JSON parsing and Flask/WSGI serving are not modelled. A request that fails before a reply is an `Option` or `Booking` input.
- Alerts, `setTimeout` delays, loading flags and all JSX rendering are left out; a delayed update is treated as atomic.
- The candidate service that the second scheduler screen loads from and books with is outside this repository. Its answer is an input, and its own interview list is not modelled.
- Text: case mapping is ASCII only. Whitespace is the same six ASCII characters for both languages: space, tab, newline, carriage return, vertical tab and form feed. Python's `str.strip` and `str.split()` also treat `\x1c` to `\x1f`, `\x85` and the Unicode spaces as whitespace. JavaScript's `trim`, `parseInt` and `Number` treat the Unicode spaces (such as `\u00a0` and `\ufeff`) but not `\x1c` to `\x1f`.
- Floating point: scores are exact integers or reals. Python `round` and JavaScript `Math.round` agree with the model except at floating-point representation ties.
- QuestionBank.GenerateQuestion: with model content it states only that the question is no longer than the reply. The exact result is whitespace-then-quote stripping.
- InterviewScreen.AfterEnd: models only an end request that the service accepted. A failed request leaves the list unchanged and shows an alert.
- InterviewScreen.StartInterview: the reply of the session fetch after a start is not modelled; the screen only stores the session it receives.
- InterviewSessions.Start: the greeting text is built from the name and skills, but only its place in the message list is stated.
- Routing.ApiUrl: `API_BASE_URL` comes from the build environment. `Routing.ApiBase` takes it as an optional input.
- Numbers.JsNumber: reads only blank text and signed decimals with an optional fraction. JavaScript's `Number` also reads exponents (`1e3`), `0x`, `0b` and `0o` prefixes and `Infinity`, which the model reads as not a number.
- BackendScheduler.ScheduleCombined: an id counts as numeric when `Numbers.JsNumber` reads it, so ids in the forms above go to the candidate service in the screen but are scheduled locally in the model. `BackendScheduler.CandidateName` reads the number after `backend-` the same way.

=== FILE: backend_scheduler.dfy ===
/** The second scheduler screen (`Agentic_AI_Recruitment_Manager-main/src/components/
    InterviewScheduler.tsx`): it also offers candidates loaded from a candidate service and
    books their interviews there. The service's answer is an input; its interview list is not
    modelled. */
module BackendScheduler {
  import opened Outcomes
  import opened Text
  import opened Numbers
  import opened Lists
  import opened Candidates
  import opened Scheduler

  /** A candidate as the candidate service lists it. */
  datatype BackendCandidate = BackendCandidate(id: int, name: string, score: real)

  /** An entry of the drop-down or of the combined eligible list. */
  datatype Choice = Local(local: Candidate) | Remote(remote: BackendCandidate)

  predicate RemoteEligible(bc: BackendCandidate) {
    bc.score >= 70.0
  }

  /** The combined eligible list (`allEligibleCandidates`): eligible local candidates first,
      then service candidates scoring at least 70, whatever their status. The screen uses it
      only to decide whether to show the panel of candidates. */
  function AllEligible(cs: seq<Candidate>, bcs: seq<BackendCandidate>): (r: seq<Choice>)
    ensures forall c :: Local(c) in r <==> c in cs && Eligible(c)
    ensures forall bc :: Remote(bc) in r <==> bc in bcs && bc.score >= 70.0
  {
    var locals := EligibleCandidates(cs);
    var remotes := Filter(bcs, RemoteEligible);
    var r := seq(|locals|, i requires 0 <= i < |locals| => Local(locals[i]))
           + seq(|remotes|, i requires 0 <= i < |remotes| => Remote(remotes[i]));
    assert forall c :: Local(c) in r ==> c in locals;
    assert forall bc :: Remote(bc) in r ==> bc in remotes;
    assert forall i :: 0 <= i < |locals| ==> r[i] == Local(locals[i]);
    assert forall i :: 0 <= i < |remotes| ==> r[|locals| + i] == Remote(remotes[i]);
    r
  }

  /** The options of the candidate drop-down: every service candidate, in the service's order
      and without a score filter, then the eligible local candidates. */
  function DropDown(cs: seq<Candidate>, bcs: seq<BackendCandidate>): (r: seq<Choice>)
    ensures |r| == |bcs| + |EligibleCandidates(cs)|
    ensures forall i :: 0 <= i < |bcs| ==> r[i] == Remote(bcs[i])
    ensures forall bc :: Remote(bc) in r <==> bc in bcs
    ensures forall c :: Local(c) in r <==> c in cs && Eligible(c)
  {
    var locals := EligibleCandidates(cs);
    var r := seq(|bcs|, i requires 0 <= i < |bcs| => Remote(bcs[i]))
           + seq(|locals|, i requires 0 <= i < |locals| => Local(locals[i]));
    assert forall i :: 0 <= i < |bcs| ==> r[i] == Remote(bcs[i]);
    assert forall i :: 0 <= i < |locals| ==> r[|bcs| + i] == Local(locals[i]);
    assert forall c :: Local(c) in r ==> c in locals;
    assert forall bc :: Remote(bc) in r ==> bc in bcs;
    r
  }

  /** A service candidate scoring below 70 is not in the combined eligible list, yet the
      drop-down offers it, so it can be chosen. */
  lemma LowScoringRemoteOffered(cs: seq<Candidate>, bcs: seq<BackendCandidate>, bc: BackendCandidate)
    requires bc in bcs && bc.score < 70.0
    ensures Remote(bc) in DropDown(cs, bcs)
    ensures Remote(bc) !in AllEligible(cs, bcs)
  {
  }

  /** A chosen id names a service candidate when `Number(id)` is not `NaN`. */
  predicate IsRemoteId(id: string) {
    JsNumber(id).Some?
  }

  /** `backendCandidates.find(c => c.id === value)`: the first candidate with that number. */
  function FindRemote(bcs: seq<BackendCandidate>, value: real): (r: Option<BackendCandidate>)
    ensures r.None? <==> forall i :: 0 <= i < |bcs| ==> bcs[i].id as real != value
    ensures r.Some? ==> r.value in bcs && r.value.id as real == value
    ensures r.Some? ==> exists i :: 0 <= i < |bcs| && bcs[i] == r.value
                          && forall j :: 0 <= j < i ==> bcs[j].id as real != value
  {
    Find(bcs, (bc: BackendCandidate) => bc.id as real == value)
  }

  /** How the booking request ended: accepted, refused (the error body was read), or an
      exception (no connection, or an error body that is not JSON). */
  datatype Booking = Accepted | Refused | Thrown

  /** The prefix marking interviews of service candidates. */
  const RemotePrefix := "backend-"

  /** `handleScheduleInterview`, returning the lists and whether the form was reset.
      - an incomplete form changes nothing and keeps the form;
      - a numeric id goes to the service; when it accepts and the candidate is among those
        loaded, one scheduled interview for `backend-<id>` is appended; the candidate list is
        never touched;
      - any other id is scheduled locally, as on the first scheduler screen;
      - the form is reset unless an exception was thrown. */
  function ScheduleCombined(b: Board, bcs: seq<BackendCandidate>, f: Form, newId: string,
                            booking: Booking): (r: (Board, bool))
    ensures !Complete(f) ==> r == (b, false)
    ensures r.1 <==> Complete(f) && !(IsRemoteId(f.candidate.value) && booking.Thrown?)
    ensures Complete(f) && !IsRemoteId(f.candidate.value) ==> r.0 == Schedule(b, f, newId)
    ensures Complete(f) && IsRemoteId(f.candidate.value) ==>
      && r.0.candidates == b.candidates
      && (r.0.interviews == b.interviews
          || (&& booking.Accepted?
              && FindRemote(bcs, JsNumber(f.candidate.value).value).Some?
              && r.0.interviews == b.interviews
                   + [Interview(newId, RemotePrefix + f.candidate.value, When(f), Scheduled)]))
    ensures (&& Complete(f) && IsRemoteId(f.candidate.value) && booking.Accepted?
             && FindRemote(bcs, JsNumber(f.candidate.value).value).Some?)
            ==> |r.0.interviews| == |b.interviews| + 1
  {
    if !Complete(f) then (b, false)
    else
      var id := f.candidate.value;
      match JsNumber(id)
      case Some(n) =>
        (match booking
         case Accepted =>
           if FindRemote(bcs, n).Some? then
             (Board(b.candidates, b.interviews + [Interview(newId, RemotePrefix + id, When(f), Scheduled)]), true)
           else (b, true)
         case Refused => (b, true)
         case Thrown => (b, false))
      case None => (Schedule(b, f, newId), true)
  }

  /** `getCandidateName`: ids with the `backend-` prefix are looked up among the service's
      candidates by the number after it, other ids among the local candidates; a missing
      candidate or an empty name gives `Unknown`. */
  function CandidateName(id: string, cs: seq<Candidate>, bcs: seq<BackendCandidate>): (r: string)
    ensures r != ""
    ensures r != "Unknown" && |id| >= 8 && id[..8] == RemotePrefix ==>
      exists bc :: bc in bcs && bc.name == r && JsNumber(id[8..]) == Some(bc.id as real)
    ensures r != "Unknown" && |id| >= 8 && id[..8] == RemotePrefix ==>
      && JsNumber(id[8..]).Some?
      && FindRemote(bcs, JsNumber(id[8..]).value).Some?
      && FindRemote(bcs, JsNumber(id[8..]).value).value.name == r
    ensures r != "Unknown" && !(|id| >= 8 && id[..8] == RemotePrefix) ==>
      FindCandidate(cs, id).Some? && FindCandidate(cs, id).value.name == r
  {
    if RemotePrefix <= id then
      match JsNumber(id[|RemotePrefix|..])
      case None => "Unknown"
      case Some(n) =>
        match FindRemote(bcs, n)
        case Some(bc) => if bc.name != "" then bc.name else "Unknown"
        case None => "Unknown"
    else
      match FindCandidate(cs, id)
      case Some(c) => if c.name != "" then c.name else "Unknown"
      case None => "Unknown"
  }

  /** The interview booked for a service candidate shows that candidate's name (the first one
      loaded with that number) again. */
  lemma BookedNameRoundTrip(b: Board, bcs: seq<BackendCandidate>, f: Form, newId: string, cs: seq<Candidate>)
    requires Complete(f) && IsRemoteId(f.candidate.value)
    requires FindRemote(bcs, JsNumber(f.candidate.value).value).Some?
    requires FindRemote(bcs, JsNumber(f.candidate.value).value).value.name != ""
    ensures var r := ScheduleCombined(b, bcs, f, newId, Accepted).0;
      && r.interviews[|b.interviews|].candidateId == RemotePrefix + f.candidate.value
      && CandidateName(r.interviews[|b.interviews|].candidateId, cs, bcs)
         == FindRemote(bcs, JsNumber(f.candidate.value).value).value.name
  {
    var cid := RemotePrefix + f.candidate.value;
    assert cid[..8] == RemotePrefix && cid[8..] == f.candidate.value;
  }

  /** The name of a local candidate, looked up by an id without the prefix, is its own name
      when it is the first with that id and the name is not empty. */
  lemma LocalName(cs: seq<Candidate>, bcs: seq<BackendCandidate>, i: nat)
    requires i < |cs| && cs[i].name != ""
    requires forall j :: 0 <= j < i ==> cs[j].id != cs[i].id
    requires !(RemotePrefix <= cs[i].id)
    ensures CandidateName(cs[i].id, cs, bcs) == cs[i].name
  {
    var r := FindCandidate(cs, cs[i].id);
    var k :| 0 <= k < |cs| && cs[k] == r.value && r.value.id == cs[i].id
             && forall j :: 0 <= j < k ==> cs[j].id != cs[i].id;
    assert !(k < i);
    assert !(i < k);
  }

  /** `backend-` followed by no number is looked up as service candidate 0, since `Number("")` is 0. */
  lemma EmptySuffixIsZero(cs: seq<Candidate>, bcs: seq<BackendCandidate>)
    ensures CandidateName(RemotePrefix, cs, bcs) ==
      match FindRemote(bcs, 0.0)
      case Some(bc) => if bc.name != "" then bc.name else "Unknown"
      case None => "Unknown"
  {
    assert RemotePrefix[8..] == "";
  }
}

=== FILE: basic_ranker.dfy ===
/** The plain ranker (`beckend/resume_ranker.py` at the top of the repository): the `/rank`
    route without analysis. Each file's similarity score, or the exception its processing
    raised, is an input. */
module BasicRanker {
  import opened Outcomes
  import opened Text
  import opened Sorting
  import opened FileNames
  import opened Lists

  /** What processing a saved file produced: its similarity score, or an error message. */
  datatype Outcome = Scored(score: real) | Failed(error: string)

  /** One uploaded file: the name the client sent, the name it was saved under, the outcome. */
  datatype Upload = Upload(filename: string, savedName: string, outcome: Outcome)

  datatype Ranking = Ranking(resume: string, score: real, error: Option<string>)

  datatype RankReply = RankReply(rankings: seq<Ranking>, count: int)

  function RankingOf(u: Upload): Ranking {
    match u.outcome
    case Scored(score) => Ranking(u.savedName, score, None)
    case Failed(e) => Ranking(u.savedName, 0.0, Some(e))
  }

  /** The rankings of the uploads that pass the extension filter, in upload order. */
  function RankingsOf(files: seq<Upload>): (r: seq<Ranking>)
    ensures forall e :: e in r <==> exists u :: u in files && Allowed(u.filename) && e == RankingOf(u)
  {
    if |files| == 0 then []
    else
      var rest := RankingsOf(files[1..]);
      assert files == [files[0]] + files[1..];
      if Allowed(files[0].filename) then [RankingOf(files[0])] + rest else rest
  }

  /** How many uploads pass the extension filter. */
  function AllowedCount(files: seq<Upload>): nat {
    if |files| == 0 then 0
    else (if Allowed(files[0].filename) then 1 else 0) + AllowedCount(files[1..])
  }

  lemma {:induction false} RankingsCount(files: seq<Upload>)
    ensures |RankingsOf(files)| == AllowedCount(files)
  {
    if |files| > 0 {
      RankingsCount(files[1..]);
    }
  }

  function RankingScore(e: Ranking): real {
    e.score
  }

  /** `/rank`: a blank job description is refused before the files are looked at, then an
      empty file list; refused files produce no entry; the rest come back by score, highest
      first, with their number. */
  function Rank(jdField: string, files: seq<Upload>): (r: Result<RankReply>)
    ensures IsBlank(jdField) ==> r == Err(Error(400, "Missing 'jd' in form-data"))
    ensures !IsBlank(jdField) && |files| == 0 ==> r == Err(Error(400, "Upload at least one file under 'files'"))
    ensures r.Ok? <==> !IsBlank(jdField) && |files| > 0
    ensures r.Ok? ==>
      && r.value.count == |r.value.rankings|
      && SortedDesc(r.value.rankings, RankingScore)
      && multiset(r.value.rankings) == multiset(RankingsOf(files))
  {
    if Strip(jdField) == [] then Err(Error(400, "Missing 'jd' in form-data"))
    else if |files| == 0 then Err(Error(400, "Upload at least one file under 'files'"))
    else
      var results := RankingsOf(files);
      SortDescSorted(results, RankingScore);
      var sorted := SortDesc(results, RankingScore);
      Ok(RankReply(sorted, |sorted|))
  }

  /** The rankings follow the upload order: the list of a concatenation is the two lists one
      after the other, and a single upload gives its ranking iff its extension is allowed. */
  lemma {:induction false} RankingsOfKeepsOrder(xs: seq<Upload>, ys: seq<Upload>, u: Upload)
    ensures RankingsOf(xs + ys) == RankingsOf(xs) + RankingsOf(ys)
    ensures RankingsOf([u]) == if Allowed(u.filename) then [RankingOf(u)] else []
  {
    assert [u][1..] == [];
    if |xs| > 0 {
      assert (xs + ys)[1..] == xs[1..] + ys;
      RankingsOfKeepsOrder(xs[1..], ys, u);
    } else {
      assert xs + ys == ys;
    }
  }

  /** Entries with the same score keep their upload order: the sort is stable. */
  lemma RankTiesKeepUploadOrder(jdField: string, files: seq<Upload>, k: real)
    requires Rank(jdField, files).Ok?
    ensures Filter(Rank(jdField, files).value.rankings, KeyIs(RankingScore, k))
         == Filter(RankingsOf(files), KeyIs(RankingScore, k))
  {
    SortDescStable(RankingsOf(files), RankingScore, k);
  }

  /** One entry per allowed file; every allowed file is listed, one whose processing failed
      with score 0.0 and its error. */
  lemma RankEntries(jdField: string, files: seq<Upload>, u: Upload)
    requires Rank(jdField, files).Ok? && u in files
    ensures var rs := Rank(jdField, files).value.rankings;
      && |rs| == AllowedCount(files)
      && (Allowed(u.filename) ==> RankingOf(u) in rs)
      && (Allowed(u.filename) && u.outcome.Failed? ==> Ranking(u.savedName, 0.0, Some(u.outcome.error)) in rs)
  {
    RankingsCount(files);
    var results := RankingsOf(files);
    if Allowed(u.filename) {
      assert RankingOf(u) in results;
      assert RankingOf(u) in multiset(results);
    }
  }

  /** Appending a refused file changes nothing in the reply. */
  lemma RankSkipsRefused(jdField: string, files: seq<Upload>, u: Upload)
    requires !Allowed(u.filename) && |files| > 0
    ensures Rank(jdField, files + [u]) == Rank(jdField, files)
  {
    RankingsAppendRefused(files, u);
  }

  lemma {:induction false} RankingsAppendRefused(files: seq<Upload>, u: Upload)
    requires !Allowed(u.filename)
    ensures RankingsOf(files + [u]) == RankingsOf(files)
  {
    if |files| > 0 {
      assert (files + [u])[1..] == files[1..] + [u];
      RankingsAppendRefused(files[1..], u);
    } else {
      assert (files + [u])[1..] == [];
    }
  }
}

=== FILE: candidates.dfy ===
/** The front end's records: candidates and interviews as `src/types/index.ts` and the nested
    `src/types.ts` declare them, merged into one shape (the first adds the `on-hold` status,
    the sentiment, the final decision and notes; the second the uploaded file and the
    ranker's analysis), and the list lookups and updates every screen uses. */
module Candidates {
  import opened Outcomes
  import opened Lists

  datatype Status = New | Reviewed | Interviewed | Hired | Rejected | OnHold

  datatype Mood = Positive | Negative | Neutral

  /** Interview sentiment as percentages. */
  datatype Sentiment = Sentiment(positive: int, negative: int, neutral: int, overall: Mood)

  datatype Decision = Hire | Reject | Hold

  /** The ranker's analysis of a resume, as the resume screen stores it. */
  datatype Analysis = Analysis(
    recommendation: string,
    matchedSkills: seq<string>,
    missingSkills: seq<string>,
    experienceYears: string,
    education: string,
    strengths: seq<string>,
    weaknesses: seq<string>)

  /** A candidate. Dates are kept as the text they are built from; `hasFile` says whether the
      uploaded file object is still attached (it only is for uploads of the current session). */
  datatype Candidate = Candidate(
    id: string,
    name: string,
    email: string,
    resume: string,
    score: int,
    status: Status,
    jobId: string,
    appliedAt: string,
    interviewDate: Option<string>,
    sentiment: Option<Sentiment>,
    finalDecision: Option<Decision>,
    notes: Option<string>,
    hasFile: bool,
    analysis: Option<Analysis>)

  datatype InterviewStatus = Scheduled | Completed | Cancelled

  datatype Interview = Interview(id: string, candidateId: string, scheduledDate: string,
                                 status: InterviewStatus)

  /** `candidates.map(c => c.id === id ? f(c) : c)`: the one update shape every screen uses. */
  function UpdateWhere(cs: seq<Candidate>, id: string, f: Candidate -> Candidate): (r: seq<Candidate>)
    ensures |r| == |cs|
    ensures forall i :: 0 <= i < |cs| ==> r[i] == (if cs[i].id == id then f(cs[i]) else cs[i])
  {
    seq(|cs|, i requires 0 <= i < |cs| => if cs[i].id == id then f(cs[i]) else cs[i])
  }

  /** `candidates.find(c => c.id === id)`: the first candidate with that id. */
  function FindCandidate(cs: seq<Candidate>, id: string): (r: Option<Candidate>)
    ensures r.None? <==> forall i :: 0 <= i < |cs| ==> cs[i].id != id
    ensures r.Some? ==> exists i :: 0 <= i < |cs| && cs[i] == r.value && r.value.id == id
                          && forall j :: 0 <= j < i ==> cs[j].id != id
  {
    Find(cs, (c: Candidate) => c.id == id)
  }

  /** `interviews.find(i => i.id === id)`: the first interview with that id. */
  function FindInterview(ivs: seq<Interview>, id: string): (r: Option<Interview>)
    ensures r.None? <==> forall i :: 0 <= i < |ivs| ==> ivs[i].id != id
    ensures r.Some? ==> r.value in ivs && r.value.id == id
    ensures r.Some? ==> exists i :: 0 <= i < |ivs| && ivs[i] == r.value
                          && forall j :: 0 <= j < i ==> ivs[j].id != id
  {
    Find(ivs, (iv: Interview) => iv.id == id)
  }
}

=== FILE: evaluator.dfy ===
/** Answer evaluation of the interview agent: the word-count rule used without a model
    (`evaluate_answer_fallback`) and the line parser for a model's `Score:` / `Feedback:`
    reply (`evaluate_answer_ai`). */
module Evaluator {
  import opened Outcomes
  import opened Text
  import opened Numbers

  datatype Evaluation = Evaluation(score: int, feedback: string)

  predicate InRange(e: Evaluation) {
    0 <= e.score <= 10
  }

  const TooBrief := "Answer is too brief. Try to provide more details."
  const GoodAttempt := "Good attempt, but could be more comprehensive."
  const WellExplained := "Well-explained answer with good detail."
  const Comprehensive := "Comprehensive and detailed answer."

  /** The rule-based score: by the number of whitespace-separated words, in four bands
      (below 5, below 20, below 50, the rest), each with its own feedback. */
  function FallbackEvaluation(answer: string): (e: Evaluation)
    ensures e.score in {3, 6, 8, 9}
    ensures |Words(answer)| < 5 <==> e.score == 3
    ensures 5 <= |Words(answer)| < 20 <==> e.score == 6
    ensures 20 <= |Words(answer)| < 50 <==> e.score == 8
    ensures |Words(answer)| >= 50 <==> e.score == 9
    ensures e.feedback == (if e.score == 3 then TooBrief else if e.score == 6 then GoodAttempt
                           else if e.score == 8 then WellExplained else Comprehensive)
  {
    var n := |Words(answer)|;
    if n < 5 then Evaluation(3, TooBrief)
    else if n < 20 then Evaluation(6, GoodAttempt)
    else if n < 50 then Evaluation(8, WellExplained)
    else Evaluation(9, Comprehensive)
  }

  /** More words never lower the rule-based score. */
  lemma FallbackMonotonic(a: string, b: string)
    requires |Words(a)| <= |Words(b)|
    ensures FallbackEvaluation(a).score <= FallbackEvaluation(b).score
  {
  }

  const DefaultScore: int := 5
  const DefaultFeedback: string := "Answer received."

  function Clamp(n: int): (r: int)
    ensures 0 <= r <= 10
    ensures 0 <= n <= 10 ==> r == n
  {
    if n < 0 then 0 else if n > 10 then 10 else n
  }

  /** The score a `Score:` line carries: the integer between its first and second colon,
      clamped to `[0, 10]`; `None` when the line is no score line or the integer does not parse. */
  function ScoreOf(line: string): (r: Option<int>)
    ensures r.Some? ==> 0 <= r.value <= 10
  {
    if "Score:" <= line then
      assert OccursAt(line, ":", 5);
      var parts := Split(line, ":");
      match PyInt(Strip(parts[1]))
      case Some(n) => Some(Clamp(n))
      case None => None
    else None
  }

  /** The feedback a `Feedback:` line carries: the stripped text after its first colon. */
  function FeedbackOf(line: string): Option<string> {
    if "Score:" <= line then None
    else if "Feedback:" <= line then Some(Strip(AfterFirst(line, ":")))
    else None
  }

  /** One iteration of the parsing loop: a line that carries a score replaces the score, one
      that carries feedback replaces the feedback, and no line does both. */
  function Step(acc: Evaluation, line: string): (r: Evaluation)
    ensures r == Evaluation(ScoreOf(line).GetOr(acc.score), FeedbackOf(line).GetOr(acc.feedback))
    ensures InRange(acc) ==> InRange(r)
  {
    if "Score:" <= line then
      match ScoreOf(line)
      case Some(n) => acc.(score := n)
      case None => acc
    else if "Feedback:" <= line then acc.(feedback := FeedbackOf(line).value)
    else acc
  }

  /** The parsing loop over the reply's lines, in order. */
  function ParseLines(lines: seq<string>, acc: Evaluation): (e: Evaluation)
    requires InRange(acc)
    ensures InRange(e)
  {
    if |lines| == 0 then acc else ParseLines(lines[1..], Step(acc, lines[0]))
  }

  /** The value `read` gives for the right-most line it reads one from. */
  function LastOf<T>(lines: seq<string>, read: string -> Option<T>): Option<T> {
    if |lines| == 0 then None
    else match LastOf(lines[1..], read)
      case Some(x) => Some(x)
      case None => read(lines[0])
  }

  /** The score of the right-most line that carries one. */
  function LastScore(lines: seq<string>): Option<int> {
    LastOf(lines, ScoreOf)
  }

  /** The feedback of the right-most `Feedback:` line. */
  function LastFeedback(lines: seq<string>): Option<string> {
    LastOf(lines, FeedbackOf)
  }

  /** The parsing loop keeps the defaults unless a line overrides them, and a later line
      overrides an earlier one. */
  lemma {:induction false} ParseLinesLastWins(lines: seq<string>, acc: Evaluation)
    requires InRange(acc)
    ensures ParseLines(lines, acc)
         == Evaluation(LastScore(lines).GetOr(acc.score), LastFeedback(lines).GetOr(acc.feedback))
  {
    if |lines| > 0 {
      var acc' := Step(acc, lines[0]);
      ParseLinesLastWins(lines[1..], acc');
    }
  }

  /** The reply parser: defaults 5 and "Answer received.", overridden by `Score:` and
      `Feedback:` lines of the newline-split content. */
  function ParseReply(content: string): (e: Evaluation)
    ensures InRange(e)
    ensures e == Evaluation(LastScore(Split(content, "\n")).GetOr(DefaultScore),
                            LastFeedback(Split(content, "\n")).GetOr(DefaultFeedback))
  {
    var lines := Split(content, "\n");
    ParseLinesLastWins(lines, Evaluation(DefaultScore, DefaultFeedback));
    ParseLines(lines, Evaluation(DefaultScore, DefaultFeedback))
  }

  /** `evaluate_answer_ai`: the parsed model reply when there is content, otherwise the
      rule-based score. Every score lies in `[0, 10]`. */
  function Evaluate(answer: string, reply: LlmReply): (e: Evaluation)
    ensures InRange(e)
    ensures !reply.Content? ==> e == FallbackEvaluation(answer)
    ensures reply.Content? ==> e == ParseReply(Strip(reply.text))
  {
    match reply
    case Content(text) => ParseReply(Strip(text))
    case _ => FallbackEvaluation(answer)
  }

  /** A `Score:` line is read between its first and second colon. */
  lemma ScoreLineReads(v: string, rest: string)
    requires ':' !in v
    requires rest == [] || rest[0] == ':'
    ensures ScoreOf("Score:" + v + rest)
         == if PyInt(Strip(v)).Some? then Some(Clamp(PyInt(Strip(v)).value)) else None
  {
    var line := "Score:" + v + rest;
    assert "Score:" <= line;
    SecondPiece(v, rest);
  }

  /** The piece after the first colon of `Score:<v><rest>` is `v`. */
  lemma SecondPiece(v: string, rest: string)
    requires ':' !in v
    requires rest == [] || rest[0] == ':'
    ensures |Split("Score:" + v + rest, ":")| > 1 && Split("Score:" + v + rest, ":")[1] == v
  {
    assert "Score:" + v + rest == "Score" + [':'] + (v + rest);
    SplitAfterChar("Score", ':', v + rest);
    if rest == [] {
      assert v + rest == v;
      SplitWithoutChar(v, ':');
    } else {
      assert v + rest == v + [':'] + rest[1..];
      SplitAfterChar(v, ':', rest[1..]);
    }
  }

  /** A later `Score:` line with a readable integer sets the score, clamped. */
  lemma LaterScoreWins(lines: seq<string>, acc: Evaluation, v: string, n: int)
    requires InRange(acc)
    requires ':' !in v && PyInt(Strip(v)) == Some(n)
    ensures ParseLines(lines + ["Score:" + v], acc).score == Clamp(n)
  {
    ScoreLineReads(v, []);
    assert "Score:" + v + [] == "Score:" + v;
    ParseLinesLastWins(lines + ["Score:" + v], acc);
    LastScoreOfAppend(lines, "Score:" + v);
  }

  /** A `Score:` line whose value does not parse leaves the earlier value in place. */
  lemma UnparsableScoreKeepsPrevious(lines: seq<string>, acc: Evaluation, v: string)
    requires InRange(acc)
    requires ':' !in v && PyInt(Strip(v)).None?
    ensures ParseLines(lines + ["Score:" + v], acc) == ParseLines(lines, acc)
  {
    ScoreLineReads(v, []);
    assert "Score:" + v + [] == "Score:" + v;
    ParseLinesLastWins(lines + ["Score:" + v], acc);
    ParseLinesLastWins(lines, acc);
    LastOfAppendNone(lines, "Score:" + v);
  }

  lemma LastScoreOfAppend(lines: seq<string>, line: string)
    requires ScoreOf(line).Some?
    ensures LastScore(lines + [line]) == ScoreOf(line)
  {
    LastOfAppendSome(lines, line, ScoreOf);
  }

  lemma LastOfAppendNone(lines: seq<string>, line: string)
    requires ScoreOf(line).None? && FeedbackOf(line).None?
    ensures LastScore(lines + [line]) == LastScore(lines)
    ensures LastFeedback(lines + [line]) == LastFeedback(lines)
  {
    LastOfAppendNothing(lines, line, ScoreOf);
    LastOfAppendNothing(lines, line, FeedbackOf);
  }

  /** A line read last decides the result. */
  lemma {:induction false} LastOfAppendSome<T>(lines: seq<string>, line: string, read: string -> Option<T>)
    requires read(line).Some?
    ensures LastOf(lines + [line], read) == read(line)
  {
    var t := lines + [line];
    if |lines| == 0 {
      assert t[1..] == [];
    } else {
      assert t[1..] == lines[1..] + [line];
      LastOfAppendSome(lines[1..], line, read);
    }
  }

  /** A line read as nothing changes nothing. */
  lemma {:induction false} LastOfAppendNothing<T>(lines: seq<string>, line: string, read: string -> Option<T>)
    requires read(line).None?
    ensures LastOf(lines + [line], read) == LastOf(lines, read)
  {
    var t := lines + [line];
    if |lines| == 0 {
      assert t[1..] == [];
    } else {
      assert t[1..] == lines[1..] + [line];
      LastOfAppendNothing(lines[1..], line, read);
    }
  }
}

=== FILE: file_names.dfy ===
/** File-name rules: the upload filter both rankers apply (`_allowed`) and the candidate
    name and e-mail the resume screen derives from an uploaded file's name. */
module FileNames {
  import opened Outcomes
  import opened Text

  /** The extensions the rankers accept (`ALLOWED`). */
  const AllowedExtensions: set<string> := {"pdf", "docx"}

  /** The text after the last `.` of `name` (Python's `name.rsplit(".", 1)[1]`), if there is a dot. */
  function Extension(name: string): (r: Option<string>)
    ensures r.None? <==> '.' !in name
    ensures r.Some? ==> '.' !in r.value && |r.value| < |name|
  {
    match LastIndexOfChar(name, '.')
    case None => None
    case Some(i) => Some(name[i + 1..])
  }

  /** `_allowed(name)`: there is a dot and the lower-cased last extension is `pdf` or `docx`. */
  predicate Allowed(name: string) {
    match Extension(name)
    case None => false
    case Some(ext) => Lower(ext) in AllowedExtensions
  }

  /** A name built from any stem, a dot and a dot-free extension is allowed exactly when the
      extension, ignoring case, is one of the two accepted ones. */
  lemma AllowedIff(stem: string, ext: string)
    requires '.' !in ext
    ensures Allowed(stem + "." + ext) <==> Lower(ext) == "pdf" || Lower(ext) == "docx"
  {
    LastDotOf(stem, ext);
    assert (stem + "." + ext)[|stem| + 1..] == ext;
  }

  /** The last dot of `stem + "." + ext` is the one placed between them. */
  lemma LastDotOf(stem: string, ext: string)
    requires '.' !in ext
    ensures LastIndexOfChar(stem + "." + ext, '.') == Some(|stem|)
  {
    var name := stem + "." + ext;
    assert name[|stem|] == '.';
    var j := LastIndexOfChar(name, '.').value;
    if j < |stem| {
      assert false;
    } else if j > |stem| {
      assert false;
    }
  }

  /** A name without any dot is refused, whatever it says. */
  lemma NoDotNotAllowed(name: string)
    requires '.' !in name
    ensures !Allowed(name)
  {
  }

  // ---------------------------------------------------------------------------
  // Candidate name and e-mail from a file name (the resume screen's upload handler)
  // ---------------------------------------------------------------------------

  /** `name.replace(/\.[^/.]+$/, "")`: drop a final `.ext` whose extension is non-empty and
      holds no `.` or `/`; otherwise the name is kept whole. */
  function StripExtension(name: string): (r: string)
    ensures |r| <= |name| && r == name[..|r|]
  {
    match LastIndexOfChar(name, '.')
    case Some(i) =>
      if i + 1 < |name| && '/' !in name[i + 1..] then name[..i] else name
    case None => name
  }

  /** The display name: the file name without its extension, with every `-` and `_` turned
      into a space. */
  function CandidateName(fileName: string): (r: string)
    ensures |r| <= |fileName|
    ensures forall i :: 0 <= i < |r| ==> r[i] != '-' && r[i] != '_'
  {
    ReplaceChars(StripExtension(fileName), {'-', '_'}, ' ')
  }

  /** A stem followed by a real extension loses exactly the extension. */
  lemma StripExtensionOf(stem: string, ext: string)
    requires |ext| > 0 && '.' !in ext && '/' !in ext
    ensures StripExtension(stem + "." + ext) == stem
  {
    var name := stem + "." + ext;
    LastDotOf(stem, ext);
    assert name[|stem| + 1..] == ext;
    assert name[..|stem|] == stem;
  }

  /** A name that ends in a dot, or whose last extension holds a `/`, is kept whole. */
  lemma StripExtensionKeeps(name: string, i: nat)
    requires i < |name| && name[i] == '.' && '.' !in name[i + 1..]
    requires i + 1 == |name| || '/' in name[i + 1..]
    ensures StripExtension(name) == name
  {
    assert name[i] in name[i..];
  }

  /** The text before the first `c` (JavaScript's `s.split(c)[0]`). */
  function BeforeFirst(s: string, c: char): (r: string)
    ensures r <= s && c !in r
    ensures |r| < |s| ==> s[|r|] == c
  {
    if |s| == 0 || s[0] == c then "" else [s[0]] + BeforeFirst(s[1..], c)
  }

  /** `${name.split('.')[0].toLowerCase()}@email.com`. */
  function CandidateEmail(fileName: string): string {
    Lower(BeforeFirst(fileName, '.')) + "@email.com"
  }

  /** The e-mail is built from the part before the first dot only: everything after it,
      further dots included, is ignored. */
  lemma CandidateEmailOf(stem: string, rest: string)
    requires '.' !in stem
    ensures CandidateEmail(stem + "." + rest) == Lower(stem) + "@email.com"
  {
    BeforeFirstOf(stem, rest);
  }

  lemma {:induction false} BeforeFirstOf(stem: string, rest: string)
    requires '.' !in stem
    ensures BeforeFirst(stem + "." + rest, '.') == stem
  {
    if |stem| > 0 {
      assert (stem + "." + rest)[1..] == stem[1..] + "." + rest;
      BeforeFirstOf(stem[1..], rest);
    }
  }
}

=== FILE: final_report.dfy ===
/** The final-decision screen (`src/components/FinalReport.tsx`): the combined score of resume
    and interview sentiment, the final decision, and the list of candidates it reports on. */
module FinalReport {
  import opened Outcomes
  import opened Text
  import opened Numbers
  import opened Lists
  import opened Candidates

  /** The sentiment-weighted score of a resume score and sentiment percentages, times ten:
      60% resume, 40% sentiment, where sentiment counts positive fully, neutral half and
      negative not at all. */
  function Weighted(score: int, s: Sentiment): int {
    6 * score + 4 * s.positive + 2 * s.neutral
  }

  /** `calculateOverallScore`: the resume score when there is no sentiment, otherwise the
      weighted score rounded to the nearest integer (halves upwards). */
  function OverallScore(c: Candidate): (r: int)
    ensures c.sentiment.None? ==> r == c.score
    ensures c.sentiment.Some? ==>
      10 * r - 5 <= Weighted(c.score, c.sentiment.value) < 10 * r + 5
  {
    match c.sentiment
    case None => c.score
    case Some(s) => RoundHalfUp(Weighted(c.score, s), 10)
  }

  /** The negative percentage never changes the overall score. */
  lemma OverallIgnoresNegative(c: Candidate, negative: int)
    requires c.sentiment.Some?
    ensures OverallScore(c.(sentiment := Some(c.sentiment.value.(negative := negative))))
            == OverallScore(c)
  {
  }

  /** A better resume score, or more positive or neutral sentiment, never lowers the overall score. */
  lemma OverallMonotonic(c1: Candidate, c2: Candidate)
    requires c1.sentiment.Some? && c2.sentiment.Some?
    requires c1.score <= c2.score
    requires c1.sentiment.value.positive <= c2.sentiment.value.positive
    requires c1.sentiment.value.neutral <= c2.sentiment.value.neutral
    ensures OverallScore(c1) <= OverallScore(c2)
  {
    RoundHalfUpMonotonic(Weighted(c1.score, c1.sentiment.value), Weighted(c2.score, c2.sentiment.value), 10);
  }

  /** Percentages in range give an overall score in range. */
  lemma OverallBounds(c: Candidate)
    requires 0 <= c.score <= 100
    requires c.sentiment.Some? ==> var s := c.sentiment.value;
      s.positive >= 0 && s.neutral >= 0 && s.positive + s.neutral <= 100
    ensures 0 <= OverallScore(c) <= 100
  {
  }

  /** The sample candidate with resume score 78 and sentiment 65/15/20 scores 77 overall
      (76.8 rounded). */
  lemma OverallExample(c: Candidate)
    requires c.score == 78 && c.sentiment == Some(Sentiment(65, 15, 20, Positive))
    ensures OverallScore(c) == 77
  {
  }

  // ---------------------------------------------------------------------------
  // handleMakeFinalDecision
  // ---------------------------------------------------------------------------

  /** The status a final decision moves a candidate to. */
  function DecisionStatus(d: Decision): (s: Status)
    ensures s == Hired <==> d == Hire
    ensures s == Rejected <==> d == Reject
    ensures s == OnHold <==> d == Hold
  {
    match d
    case Hire => Hired
    case Reject => Rejected
    case Hold => OnHold
  }

  /** Record a decision and its notes (the buttons pass none, which clears earlier notes) on
      every candidate with the id; the rest of the list is untouched. */
  function MakeDecision(cs: seq<Candidate>, id: string, d: Decision, notes: Option<string>)
    : (r: seq<Candidate>)
    ensures |r| == |cs|
    ensures forall i :: 0 <= i < |cs| && cs[i].id != id ==> r[i] == cs[i]
    ensures forall i :: 0 <= i < |cs| && cs[i].id == id ==>
      && r[i].finalDecision == Some(d) && r[i].notes == notes
      && r[i].status == DecisionStatus(d)
      && r[i] == cs[i].(finalDecision := Some(d), status := DecisionStatus(d), notes := notes)
  {
    UpdateWhere(cs, id, (c: Candidate) => c.(finalDecision := Some(d), status := DecisionStatus(d), notes := notes))
  }

  /** Making the same decision twice is the same as making it once. */
  lemma MakeDecisionIdempotent(cs: seq<Candidate>, id: string, d: Decision, notes: Option<string>)
    ensures MakeDecision(MakeDecision(cs, id, d, notes), id, d, notes) == MakeDecision(cs, id, d, notes)
  {
  }

  // ---------------------------------------------------------------------------
  // The report list and its filters
  // ---------------------------------------------------------------------------

  /** Candidates the report shows: interviewed and with a sentiment. */
  predicate InReport(c: Candidate) {
    c.status == Interviewed && c.sentiment.Some?
  }

  function Report(cs: seq<Candidate>): (r: seq<Candidate>)
    ensures forall c :: c in r <==> c in cs && c.status == Interviewed && c.sentiment.Some?
  {
    Filter(cs, InReport)
  }

  /** A decision moves the candidate out of `interviewed`, so the report stops listing it. */
  lemma DecisionLeavesReport(cs: seq<Candidate>, id: string, d: Decision, notes: Option<string>)
    ensures forall c :: c in Report(MakeDecision(cs, id, d, notes)) ==> c.id != id
  {
    var r := MakeDecision(cs, id, d, notes);
    forall c | c in Report(r)
      ensures c.id != id
    {
      var i :| 0 <= i < |r| && r[i] == c;
      assert cs[i].id == id ==> c.status == DecisionStatus(d);
    }
  }

  /** The name used by the status filter for a decision. */
  function DecisionName(d: Decision): string {
    match d
    case Hire => "hire"
    case Reject => "reject"
    case Hold => "on-hold"
  }

  /** The search box and status selector: the lower-cased term occurs in the lower-cased name
      or e-mail, and the selector is `all` or names the candidate's decision. */
  predicate Matches(c: Candidate, term: string, statusFilter: string) {
    && (Contains(Lower(c.name), Lower(term)) || Contains(Lower(c.email), Lower(term)))
    && (statusFilter == "all" || (c.finalDecision.Some? && DecisionName(c.finalDecision.value) == statusFilter))
  }

  /** The candidates the report displays. */
  function Shown(cs: seq<Candidate>, term: string, statusFilter: string): (r: seq<Candidate>)
    ensures forall c :: c in r <==> c in Report(cs) && Matches(c, term, statusFilter)
  {
    Filter(Report(cs), (c: Candidate) => Matches(c, term, statusFilter))
  }

  /** An empty search with the selector on `all` shows the whole report. */
  lemma EmptySearchShowsAll(cs: seq<Candidate>)
    ensures Shown(cs, "", "all") == Report(cs)
  {
    var rep := Report(cs);
    forall i | 0 <= i < |rep|
      ensures Matches(rep[i], "", "all")
    {
      assert OccursAt(Lower(rep[i].name), "", 0);
    }
    FilterAll(rep, (c: Candidate) => Matches(c, "", "all"));
  }

  /** With a status selected, only candidates that are still `interviewed` yet carry that
      decision are shown; a decision made on this screen never produces one. */
  lemma StatusFilterNeedsDecision(cs: seq<Candidate>, term: string, statusFilter: string, c: Candidate)
    requires statusFilter != "all" && c in Shown(cs, term, statusFilter)
    ensures c.status == Interviewed && c.finalDecision.Some?
    ensures DecisionName(c.finalDecision.value) == statusFilter
  {
  }
}

=== FILE: interview_report.dfy ===
/** The read-only result routes of the interview agent: the detailed results of one session
    (`get_interview_results`) and the summary of every completed session (`get_all_results`). */
module InterviewReport {
  import opened Outcomes
  import opened Text
  import opened Numbers
  import opened Evaluator
  import opened InterviewSessions
  import opened Lists

  // ---------------------------------------------------------------------------
  // per-skill scores
  // ---------------------------------------------------------------------------

  /** A skill's average, both as `round(avg, 1)` (kept in tenths, so `tenths == 10 * score`)
      and as the percentage `round(avg / 10 * 100)`. */
  datatype SkillScore = SkillScore(skill: string, tenths: int, percentage: int)

  lemma AllWithinSlice(xs: seq<int>, a: int, b: int, lo: int, hi: int)
    requires 0 <= a <= b <= |xs| && AllWithin(xs, lo, hi)
    ensures AllWithin(xs[a..b], lo, hi)
  {
    assert forall i :: 0 <= i < b - a ==> xs[a..b][i] == xs[a + i];
  }

  /** The scores attributed to skill `i`: `scores[i*q : i*q + q]` when that slice starts inside
      the list, and the whole list otherwise. */
  function SkillSlice(scores: seq<int>, i: nat, q: nat): (r: seq<int>)
    requires AllWithin(scores, 0, 10)
    ensures AllWithin(r, 0, 10)
  {
    var start := i * q;
    if start < |scores| then
      var end := if start + q < |scores| then start + q else |scores|;
      AllWithinSlice(scores, start, end, 0, 10);
      scores[start..end]
    else scores
  }

  /** The loop over the skills from index `i`, keeping only skills with a non-empty slice. */
  function SkillScoresFrom(skills: seq<string>, scores: seq<int>, q: nat, i: nat): (r: seq<SkillScore>)
    requires i <= |skills| && AllWithin(scores, 0, 10)
    decreases |skills| - i
  {
    if i == |skills| then []
    else
      var slice := SkillSlice(scores, i, q);
      var here := if |slice| > 0 then [SkillScore(skills[i], FinalScore(slice), FinalScore(slice))] else [];
      here + SkillScoresFrom(skills, scores, q, i + 1)
  }

  /** `questions_per_skill`: the scores split evenly over the skills, rounding down. */
  function PerSkill(skills: seq<string>, scores: seq<int>): nat {
    if |skills| > 0 then |scores| / |skills| else 1
  }

  /** The `skillScores` of the results: at most one entry per skill, each a percentage. */
  function SkillScores(skills: seq<string>, scores: seq<int>): (r: seq<SkillScore>)
    requires AllWithin(scores, 0, 10)
    ensures |r| <= |skills|
    ensures forall e :: e in r ==> e.skill in skills && 0 <= e.tenths == e.percentage <= 100
  {
    SkillScoresFromBounds(skills, scores, PerSkill(skills, scores), 0);
    SkillScoresFrom(skills, scores, PerSkill(skills, scores), 0)
  }

  /** The loop from skill `i` yields at most one entry per remaining skill, each a percentage. */
  lemma {:induction false} SkillScoresFromBounds(skills: seq<string>, scores: seq<int>, q: nat, i: nat)
    requires i <= |skills| && AllWithin(scores, 0, 10)
    ensures var r := SkillScoresFrom(skills, scores, q, i);
      && |r| <= |skills| - i
      && forall e :: e in r ==> e.skill in skills && 0 <= e.tenths == e.percentage <= 100
    decreases |skills| - i
  {
    if i < |skills| {
      var slice := SkillSlice(scores, i, q);
      var here := if |slice| > 0 then [SkillScore(skills[i], FinalScore(slice), FinalScore(slice))] else [];
      var rest := SkillScoresFrom(skills, scores, q, i + 1);
      SkillScoresFromBounds(skills, scores, q, i + 1);
      assert SkillScoresFrom(skills, scores, q, i) == here + rest;
      assert forall e :: e in here ==> e.skill == skills[i] && 0 <= e.tenths == e.percentage <= 100;
    }
  }

  /** With fewer scores than skills every slice is empty, so no skill gets a score. */
  lemma {:induction false} FewScoresNoSkillScores(skills: seq<string>, scores: seq<int>, i: nat)
    requires i <= |skills| && AllWithin(scores, 0, 10)
    requires |scores| < |skills|
    ensures SkillScoresFrom(skills, scores, PerSkill(skills, scores), i) == []
    decreases |skills| - i
  {
    if i < |skills| {
      assert PerSkill(skills, scores) == 0;
      FewScoresNoSkillScores(skills, scores, i + 1);
    }
  }

  lemma MulMono(a: nat, b: nat, q: nat)
    requires a <= b
    ensures a * q <= b * q
  {
  }

  /** When the blocks fit, skill `j`'s slice is its block `scores[j*q .. (j+1)*q]`. */
  lemma SliceIsBlock(scores: seq<int>, j: nat, q: nat)
    requires AllWithin(scores, 0, 10)
    requires q >= 1 && (j + 1) * q <= |scores|
    ensures j * q + q == (j + 1) * q
    ensures SkillSlice(scores, j, q) == scores[j * q..(j + 1) * q]
  {
  }

  /** When every block fits, each skill from `i` on gets exactly one entry, in order. */
  lemma {:induction false} AllSkillsFrom(skills: seq<string>, scores: seq<int>, q: nat, i: nat)
    requires i <= |skills| && AllWithin(scores, 0, 10)
    requires q >= 1 && |skills| * q <= |scores|
    ensures var r := SkillScoresFrom(skills, scores, q, i);
      && |r| == |skills| - i
      && forall t :: 0 <= t < |r| ==>
           && r[t].skill == skills[i + t]
           && r[t].tenths == r[t].percentage == FinalScore(SkillSlice(scores, i + t, q))
    decreases |skills| - i
  {
    if i < |skills| {
      MulMono(i + 1, |skills|, q);
      SliceIsBlock(scores, i, q);
      var slice := SkillSlice(scores, i, q);
      assert |slice| == q;
      var e := SkillScore(skills[i], FinalScore(slice), FinalScore(slice));
      var rest := SkillScoresFrom(skills, scores, q, i + 1);
      AllSkillsFrom(skills, scores, q, i + 1);
      assert SkillScoresFrom(skills, scores, q, i) == [e] + rest;
    }
  }

  /** With blocks of `q >= 1` scores that all fit, skill `j` gets the average of block `j`. */
  lemma BlockScoreAt(skills: seq<string>, scores: seq<int>, q: nat, j: nat)
    requires AllWithin(scores, 0, 10)
    requires q >= 1 && |skills| * q <= |scores| && j < |skills|
    ensures (j + 1) * q <= |scores|
    ensures var r := SkillScoresFrom(skills, scores, q, 0);
      && |r| == |skills|
      && r[j].skill == skills[j]
      && r[j].tenths == r[j].percentage == FinalScore(scores[j * q..(j + 1) * q])
  {
    AllSkillsFrom(skills, scores, q, 0);
    MulMono(j + 1, |skills|, q);
    SliceIsBlock(scores, j, q);
    var r := SkillScoresFrom(skills, scores, q, 0);
    assert r[j].skill == skills[0 + j];
    assert r[j].tenths == r[j].percentage == FinalScore(SkillSlice(scores, 0 + j, q));
  }

  lemma DivFits(n: nat, m: nat)
    requires 0 < m <= n
    ensures n / m >= 1 && m * (n / m) <= n
  {
    assert n == (n / m) * m + n % m;
  }

  /** With at least as many scores as skills, every skill gets exactly one entry, in order,
      and skill `j`'s entry is the average of the `j`-th block of `questions_per_skill` scores. */
  lemma EnoughScoresSkillAt(skills: seq<string>, scores: seq<int>, j: nat)
    requires AllWithin(scores, 0, 10)
    requires 0 < |skills| <= |scores| && j < |skills|
    ensures var q := PerSkill(skills, scores);
      var r := SkillScores(skills, scores);
      && (j + 1) * q <= |scores|
      && |r| == |skills|
      && r[j].skill == skills[j]
      && r[j].tenths == r[j].percentage == FinalScore(scores[j * q..(j + 1) * q])
  {
    DivFits(|scores|, |skills|);
    BlockScoreAt(skills, scores, PerSkill(skills, scores), j);
  }

  /** `skillScores` is empty exactly when there are fewer scores than skills. */
  lemma SkillScoresEmptyIff(skills: seq<string>, scores: seq<int>)
    requires |skills| > 0 && AllWithin(scores, 0, 10)
    ensures SkillScores(skills, scores) == [] <==> |scores| < |skills|
  {
    if |scores| < |skills| {
      FewScoresNoSkillScores(skills, scores, 0);
    } else {
      EnoughScoresSkillAt(skills, scores, 0);
    }
  }

  // ---------------------------------------------------------------------------
  // strengths, weaknesses, recommendation
  // ---------------------------------------------------------------------------

  /** The skills whose rounded average is at least 8, in order. */
  function HighSkills(ss: seq<SkillScore>): (r: seq<string>)
    ensures forall x :: x in r <==> exists s :: s in ss && s.tenths >= 80 && s.skill == x
  {
    if |ss| == 0 then []
    else (if ss[0].tenths >= 80 then [ss[0].skill] else []) + HighSkills(ss[1..])
  }

  /** The skills whose rounded average is below 6, in order. */
  function LowSkills(ss: seq<SkillScore>): (r: seq<string>)
    ensures forall x :: x in r <==> exists s :: s in ss && s.tenths < 60 && s.skill == x
  {
    if |ss| == 0 then []
    else (if ss[0].tenths < 60 then [ss[0].skill] else []) + LowSkills(ss[1..])
  }

  /** The first two names, comma-separated: `', '.join(names[:2])`. */
  function FirstTwo(names: seq<string>): string {
    Join(if |names| <= 2 then names else names[..2], ", ")
  }

  const Excellent: string := "Excellent overall performance"
  const StrongKnowledge: string := "Strong technical knowledge"
  const NoStrengths: string := "Completed interview"
  const ImproveDepth: string := "Could improve overall technical depth"
  const NoWeaknesses: string := "No significant gaps identified"

  function Proficient(names: seq<string>): string {
    "Proficient in " + FirstTwo(names)
  }

  function NeedsImprovement(names: seq<string>): string {
    "Needs improvement in " + FirstTwo(names)
  }

  /** The strengths list; never empty. The excellent line iff the score is at least 80, the
      knowledge line iff at least 70, the proficiency line iff some skill averages 8 or more. */
  function Strengths(overall: int, ss: seq<SkillScore>): (r: seq<string>)
    ensures |r| > 0
    ensures Excellent in r <==> overall >= 80
    ensures StrongKnowledge in r <==> overall >= 70
    ensures Proficient(HighSkills(ss)) in r <==> HighSkills(ss) != []
    ensures r == [NoStrengths] <==> overall < 70 && HighSkills(ss) == []
  {
    var high := HighSkills(ss);
    var found := (if overall >= 80 then [Excellent] else [])
               + (if overall >= 70 then [StrongKnowledge] else [])
               + (if high != [] then [Proficient(high)] else []);
    assert NoStrengths !in found by {
      assert Proficient(high)[0] == 'P' && NoStrengths[0] == 'C';
      assert Excellent[0] == 'E' && StrongKnowledge[0] == 'S';
    }
    assert Excellent != StrongKnowledge && Excellent != Proficient(high) && StrongKnowledge != Proficient(high) by {
      assert Proficient(high)[0] == 'P' && Excellent[0] == 'E' && StrongKnowledge[0] == 'S';
    }
    if found == [] then [NoStrengths] else found
  }

  /** The weaknesses list; never empty. The depth line iff the score is below 70, the
      improvement line iff some skill averages below 6. */
  function Weaknesses(overall: int, ss: seq<SkillScore>): (r: seq<string>)
    ensures |r| > 0
    ensures ImproveDepth in r <==> overall < 70
    ensures NeedsImprovement(LowSkills(ss)) in r <==> LowSkills(ss) != []
    ensures r == [NoWeaknesses] <==> overall >= 70 && LowSkills(ss) == []
  {
    var low := LowSkills(ss);
    var found := (if overall < 70 then [ImproveDepth] else [])
               + (if low != [] then [NeedsImprovement(low)] else []);
    assert NoWeaknesses !in found by {
      assert NeedsImprovement(low)[1] == 'e' && NoWeaknesses[1] == 'o';
      assert ImproveDepth[0] == 'C' && NoWeaknesses[0] == 'N';
    }
    assert ImproveDepth != NeedsImprovement(low) by {
      assert ImproveDepth[0] == 'C' && NeedsImprovement(low)[0] == 'N';
    }
    if found == [] then [NoWeaknesses] else found
  }

  datatype Recommendation = HighlyRecommended | Recommended | Consider | NotRecommended {
    function Text(): string {
      match this
      case HighlyRecommended => "Highly Recommended - Strong Candidate"
      case Recommended => "Recommended - Good Fit"
      case Consider => "Consider for Review - Moderate Fit"
      case NotRecommended => "Not Recommended - Weak Performance"
    }

    /** Position from the top: 0 is the strongest recommendation. */
    function Rank(): nat {
      match this
      case HighlyRecommended => 0
      case Recommended => 1
      case Consider => 2
      case NotRecommended => 3
    }
  }

  /** The thresholds 80, 65 and 50 on the overall percentage. */
  function Recommend(overall: int): (r: Recommendation)
    ensures r == HighlyRecommended <==> overall >= 80
    ensures r == NotRecommended <==> overall < 50
    ensures r == Recommended <==> 65 <= overall < 80
  {
    if overall >= 80 then HighlyRecommended
    else if overall >= 65 then Recommended
    else if overall >= 50 then Consider
    else NotRecommended
  }

  /** A higher overall score never gets a weaker recommendation. */
  lemma RecommendMonotonic(a: int, b: int)
    requires a <= b
    ensures Recommend(b).Rank() <= Recommend(a).Rank()
  {
  }

  // ---------------------------------------------------------------------------
  // transcript
  // ---------------------------------------------------------------------------

  datatype TranscriptEntry = TranscriptEntry(question: string, answer: string, score: int, feedback: string)

  /** The first candidate message at or after index `j`. */
  function FirstAnswerFrom(ms: seq<Message>, j: nat): (r: Option<nat>)
    requires j <= |ms|
    ensures r.Some? ==> j <= r.value < |ms| && ms[r.value].role == Candidate
    ensures r.Some? ==> forall i :: j <= i < r.value ==> ms[i].role != Candidate
    ensures r.None? ==> forall i :: j <= i < |ms| ==> ms[i].role != Candidate
    decreases |ms| - j
  {
    if j == |ms| then None
    else if ms[j].role == Candidate then Some(j)
    else FirstAnswerFrom(ms, j + 1)
  }

  /** The entry for a question and the answer found for it; a missing evaluation counts as
      score 0 and empty feedback. */
  function EntryFor(question: Message, answer: Message): TranscriptEntry {
    match answer.evaluation
    case Some(e) => TranscriptEntry(question.content, answer.content, e.score, e.feedback)
    case None => TranscriptEntry(question.content, answer.content, 0, "")
  }

  /** The transcript loop from message `i` on: each question followed by some candidate
      message yields one entry. */
  function TranscriptFrom(ms: seq<Message>, i: nat): (r: seq<TranscriptEntry>)
    requires i <= |ms|
    ensures |r| <= |ms| - i
    ensures (forall j :: i <= j < |ms| ==> ms[j].role != Candidate) ==> r == []
    decreases |ms| - i
  {
    if i == |ms| then []
    else if IsQuestion(ms[i]) then
      match FirstAnswerFrom(ms, i + 1)
      case Some(j) => [EntryFor(ms[i], ms[j])] + TranscriptFrom(ms, i + 1)
      case None => TranscriptFrom(ms, i + 1)
    else TranscriptFrom(ms, i + 1)
  }

  /** The transcript: at most one entry per message, and none without a candidate message. */
  function Transcript(ms: seq<Message>): (r: seq<TranscriptEntry>)
    ensures |r| <= |ms|
    ensures (forall j :: 0 <= j < |ms| ==> ms[j].role != Candidate) ==> r == []
  {
    TranscriptFrom(ms, 0)
  }

  /** The entries a shaped message list should give from answered question `k` on. */
  function ShapedEntries(ms: seq<Message>, cq: nat, scores: seq<int>, k: nat): (r: seq<TranscriptEntry>)
    requires |scores| == cq - 1 || |scores| == cq
    requires Shaped(ms, cq, scores) && k <= |scores|
    ensures |r| == |scores| - k
    ensures forall i :: 0 <= i < |r| ==> r[i] == EntryFor(ms[QuestionAt(k + i)], ms[AnswerAt(k + i)])
    decreases |scores| - k
  {
    if k == |scores| then []
    else [EntryFor(ms[QuestionAt(k)], ms[AnswerAt(k)])] + ShapedEntries(ms, cq, scores, k + 1)
  }

  lemma {:induction false} TranscriptFromShaped(ms: seq<Message>, cq: nat, scores: seq<int>, k: nat)
    requires |scores| == cq - 1 || |scores| == cq
    requires Shaped(ms, cq, scores) && k <= |scores|
    ensures QuestionAt(k) <= |ms|
    ensures TranscriptFrom(ms, QuestionAt(k)) == ShapedEntries(ms, cq, scores, k)
    decreases |scores| - k
  {
    var i := QuestionAt(k);
    if k == |scores| {
      if |scores| == cq {
        assert i == |ms| - 1 && !IsQuestion(ms[i]);
      } else {
        assert i == |ms| - 1;
        assert FirstAnswerFrom(ms, i + 1).None?;
      }
      assert TranscriptFrom(ms, |ms|) == [];
    } else {
      assert AnswerAt(k) == i + 1 && ms[i + 1].role == Candidate;
      assert FirstAnswerFrom(ms, i + 1) == Some(i + 1);
      assert !IsQuestion(ms[i + 1]);
      assert QuestionAt(k + 1) == i + 2;
      TranscriptFromShaped(ms, cq, scores, k + 1);
    }
  }

  /** Under the session invariant the transcript pairs every answered question with its
      answer, in order, and carries each answer's recorded score. */
  lemma TranscriptOfSession(s: Session)
    requires SessionInv(s)
    ensures var t := Transcript(s.messages);
      && |t| == |s.scores|
      && forall k :: 0 <= k < |t| ==>
           && t[k].score == s.scores[k]
           && t[k].question == s.messages[QuestionAt(k)].content
           && t[k].answer == s.messages[AnswerAt(k)].content
  {
    TranscriptFromShaped(s.messages, s.currentQuestion, s.scores, 0);
    assert !IsQuestion(s.messages[0]);
    assert Transcript(s.messages) == TranscriptFrom(s.messages, QuestionAt(0));
  }

  // ---------------------------------------------------------------------------
  // the results routes
  // ---------------------------------------------------------------------------

  datatype Results = Results(
    sessionId: string,
    candidateId: string,
    candidateName: string,
    skills: seq<string>,
    overallScore: int,
    totalQuestions: int,
    questionsAnswered: int,
    skillScores: seq<SkillScore>,
    strengths: seq<string>,
    weaknesses: seq<string>,
    recommendation: string,
    completedAt: string,
    transcript: seq<TranscriptEntry>)

  /** `get_interview_results`; `now` stands in for the missing completion time of a session
      that is still active. */
  function GetResults(st: Store, id: string, now: string): (r: Result<Results>)
    requires AllReady(st)
    ensures r.Err? <==> id !in st.sessions
    ensures r.Err? ==> r.error.code == 404
    ensures r.Ok? ==>
      var s := st.sessions[id];
      && r.value.overallScore == FinalScore(s.scores)
      && 0 <= r.value.overallScore <= 100
      && r.value.questionsAnswered == |s.scores|
      && |r.value.strengths| > 0 && |r.value.weaknesses| > 0
      && r.value.recommendation == Recommend(r.value.overallScore).Text()
      && r.value.sessionId == id && r.value.candidateId == s.candidateId
      && r.value.candidateName == s.candidateName
      && r.value.skills == s.skills && r.value.totalQuestions == s.totalQuestions
      && r.value.skillScores == SkillScores(s.skills, s.scores)
      && r.value.strengths == Strengths(r.value.overallScore, r.value.skillScores)
      && r.value.weaknesses == Weaknesses(r.value.overallScore, r.value.skillScores)
      && r.value.transcript == Transcript(s.messages)
      && r.value.completedAt == s.completedAt.GetOr(now)
  {
    if id !in st.sessions then Err(Error(404, "Session not found"))
    else
      var s := st.sessions[id];
      var overall := FinalScore(s.scores);
      var ss := SkillScores(s.skills, s.scores);
      Ok(Results(id, s.candidateId, s.candidateName, s.skills, overall, s.totalQuestions, |s.scores|,
                 ss, Strengths(overall, ss), Weaknesses(overall, ss), Recommend(overall).Text(),
                 s.completedAt.GetOr(now), Transcript(s.messages)))
  }

  datatype ResultRow = ResultRow(sessionId: string, candidateId: string, candidateName: string,
                                 overallScore: int, questionsAnswered: int, totalQuestions: int,
                                 completedAt: string)

  /** The ids in `order` whose session is completed, in order. */
  function CompletedIds(order: seq<string>, sessions: map<string, Session>): (r: seq<string>)
    requires forall i :: 0 <= i < |order| ==> order[i] in sessions
    ensures forall x :: x in r <==> x in order && sessions[x].status == Completed
  {
    Filter(order, (x: string) => x in sessions && sessions[x].status == Completed)
  }

  /** The summary keeps insertion order: the completed ids of two stretches of the order
      joined are those of the first followed by those of the second, and a single id is
      listed exactly when its session is completed. */
  lemma CompletedIdsKeepOrder(xs: seq<string>, ys: seq<string>, x: string, sessions: map<string, Session>)
    requires forall i :: 0 <= i < |xs| ==> xs[i] in sessions
    requires forall i :: 0 <= i < |ys| ==> ys[i] in sessions
    requires x in sessions
    ensures forall i :: 0 <= i < |xs + ys| ==> (xs + ys)[i] in sessions
    ensures CompletedIds(xs + ys, sessions) == CompletedIds(xs, sessions) + CompletedIds(ys, sessions)
    ensures CompletedIds([x], sessions) == if sessions[x].status == Completed then [x] else []
  {
    assert forall i :: 0 <= i < |xs + ys| ==> (xs + ys)[i] in sessions by {
      forall i | 0 <= i < |xs + ys|
        ensures (xs + ys)[i] in sessions
      {
        if i >= |xs| {
          assert (xs + ys)[i] == ys[i - |xs|];
        }
      }
    }
    FilterAppend(xs, ys, (x: string) => x in sessions && sessions[x].status == Completed);
    FilterSingle(x, (x: string) => x in sessions && sessions[x].status == Completed);
  }

  function RowOf(s: Session): ResultRow
    requires Ready(s)
  {
    ResultRow(s.id, s.candidateId, s.candidateName, FinalScore(s.scores), |s.scores|, s.totalQuestions,
              s.completedAt.GetOr(""))
  }

  /** One row per id, in order. */
  function RowsOf(ids: seq<string>, sessions: map<string, Session>): (r: seq<ResultRow>)
    requires forall i :: 0 <= i < |ids| ==> ids[i] in sessions && Ready(sessions[ids[i]])
    ensures |r| == |ids|
    ensures forall i :: 0 <= i < |ids| ==> r[i] == RowOf(sessions[ids[i]])
  {
    if |ids| == 0 then [] else [RowOf(sessions[ids[0]])] + RowsOf(ids[1..], sessions)
  }

  /** `get_all_results`: one row per completed session, in insertion order, with `count` the
      number of rows. */
  function AllResults(st: Store): (r: (seq<ResultRow>, int))
    requires Indexed(st) && AllReady(st)
    ensures var ids := CompletedIds(st.order, st.sessions);
      && |r.0| == |ids| && r.1 == |r.0|
      && forall i :: 0 <= i < |ids| ==> r.0[i] == RowOf(st.sessions[ids[i]]) && r.0[i].sessionId == ids[i]
  {
    var ids := CompletedIds(st.order, st.sessions);
    assert forall i :: 0 <= i < |ids| ==> ids[i] in ids;
    var rows := RowsOf(ids, st.sessions);
    (rows, |rows|)
  }

  /** A session appears in the summary exactly when it is stored and completed. */
  lemma AllResultsExactlyCompleted(st: Store, id: string)
    requires Indexed(st) && AllReady(st)
    ensures (exists row :: row in AllResults(st).0 && row.sessionId == id)
        <==> id in st.sessions && st.sessions[id].status == Completed
  {
    var ids := CompletedIds(st.order, st.sessions);
    var rows := AllResults(st).0;
    if id in st.sessions && st.sessions[id].status == Completed {
      var i :| 0 <= i < |ids| && ids[i] == id;
      assert rows[i] in rows;
    }
    if exists row :: row in rows && row.sessionId == id {
      var row :| row in rows && row.sessionId == id;
      var i :| 0 <= i < |rows| && rows[i] == row;
      assert ids[i] == id;
    }
  }
}

=== FILE: interview_screen.dfy ===
/** The interview screens: the chat screen that starts an interview, sends answers and writes
    the final score back to the candidate list
    (`Agentic_AI_Recruitment_Manager-main/src/components/InterviewAgent.tsx`), and the results
    screen built from that list (`.../InterviewResults.tsx`). Requests to the interview
    service are represented by what the screen sends and what it reads back. */
module InterviewScreen {
  import opened Outcomes
  import opened Text
  import opened Numbers
  import opened Lists
  import opened Candidates
  import InterviewSessions

  // ---------------------------------------------------------------------------
  // Starting an interview
  // ---------------------------------------------------------------------------

  predicate NonEmpty(s: string) {
    s != ""
  }

  /** `skills.split(',').map(s => s.trim())`: the stripped comma-separated pieces. */
  function Pieces(text: string): (r: seq<string>)
    ensures |r| == |Split(text, ",")|
    ensures forall i :: 0 <= i < |r| ==> r[i] == Strip(Split(text, ",")[i]) && ',' !in r[i]
  {
    var parts := Split(text, ",");
    SplitPiecesAvoidSep(text, ",");
    forall i | 0 <= i < |parts|
      ensures ',' !in Strip(parts[i])
    {
      ContainsChar(parts[i], ',');
    }
    seq(|parts|, i requires 0 <= i < |parts| => Strip(parts[i]))
  }

  /** `skills.split(',').map(s => s.trim()).filter(s => s)`. */
  function ParseSkills(text: string): (r: seq<string>)
    ensures forall x :: x in r ==> x != "" && ',' !in x && x[0] !in Whitespace && x[|x| - 1] !in Whitespace
  {
    Filter(Pieces(text), NonEmpty)
  }

  /** Skills written out with commas between them come back as written, provided each is
      non-empty, holds no comma and has no surrounding whitespace. */
  lemma ParseSkillsJoin(xs: seq<string>)
    requires |xs| >= 1
    requires forall k :: 0 <= k < |xs| ==>
      xs[k] != "" && ',' !in xs[k] && xs[k][0] !in Whitespace && xs[k][|xs[k]| - 1] !in Whitespace
    ensures ParseSkills(Join(xs, ",")) == xs
  {
    SplitJoin(xs, ',');
    var pieces := Pieces(Join(xs, ","));
    forall k | 0 <= k < |xs|
      ensures pieces[k] == xs[k]
    {
      StripSetTrimmed(xs[k], Whitespace);
    }
    assert pieces == xs;
    FilterAll(xs, NonEmpty);
  }

  /** What `handleStartInterview` does: refuse (alert), give up silently when the selected
      candidate is not in the list, or send a start request. */
  datatype StartOutcome =
    | Refused
    | NoCandidate
    | Request(candidateId: string, candidateName: string, skills: seq<string>, numQuestions: int)

  function StartInterview(cs: seq<Candidate>, selected: string, skills: string, numQuestions: int)
    : (r: StartOutcome)
    ensures r.Refused? <==> selected == "" || IsBlank(skills)
    ensures r.NoCandidate? <==> selected != "" && !IsBlank(skills) && FindCandidate(cs, selected).None?
    ensures r.Request? ==>
      && FindCandidate(cs, selected) == Some(FindCandidate(cs, selected).value)
      && r.candidateId == selected && r.candidateName == FindCandidate(cs, selected).value.name
      && r.skills == ParseSkills(skills) && r.numQuestions == numQuestions
  {
    if selected == "" || IsBlank(skills) then Refused
    else
      match FindCandidate(cs, selected)
      case None => NoCandidate
      case Some(c) => Request(c.id, c.name, ParseSkills(skills), numQuestions)
  }

  /** The request body as the interview service receives it. */
  function AsServiceRequest(r: StartOutcome): InterviewSessions.StartRequest
    requires r.Request?
  {
    InterviewSessions.StartRequest(Some(r.candidateId), Some(r.candidateName), Some(r.skills),
                                   Some(r.numQuestions))
  }

  /** A request the screen sends is accepted by the service exactly when at least one skill
      survived parsing: the screen's guard tests the text, not the parsed list, so a text of
      commas and spaces passes it and is then refused by the service with 400. */
  lemma ServiceAcceptsIffSkills(cs: seq<Candidate>, selected: string, skills: string, n: int,
                                st: InterviewSessions.Store, sid: string, now: string,
                                reply: LlmReply, pick: nat)
    requires StartInterview(cs, selected, skills, n).Request?
    ensures var req := AsServiceRequest(StartInterview(cs, selected, skills, n));
      InterviewSessions.Start(st, req, sid, now, reply, pick).Ok? <==> |ParseSkills(skills)| > 0
  {
    var o := StartInterview(cs, selected, skills, n);
    var req := AsServiceRequest(o);
    assert InterviewSessions.Truthy(req.candidateId) && req.skills == Some(ParseSkills(skills));
    var r := InterviewSessions.Start(st, req, sid, now, reply, pick);
    assert r.Err? <==> |ParseSkills(skills)| == 0;
  }

  /** No skill survives parsing exactly when every comma-separated piece is blank. */
  lemma ParseSkillsEmpty(text: string)
    ensures ParseSkills(text) == [] <==> forall i :: 0 <= i < |Split(text, ",")| ==> IsBlank(Split(text, ",")[i])
  {
    var pieces := Pieces(text);
    FilterEmpty(pieces, NonEmpty);
    assert forall i :: 0 <= i < |pieces| ==> (IsBlank(Split(text, ",")[i]) <==> !NonEmpty(pieces[i]));
  }

  /** A text of only a comma passes the screen's guard but parses to no skill. */
  lemma CommaPassesGuard()
    ensures !IsBlank(",") && ParseSkills(",") == []
  {
    SplitJoin(["", ""], ',');
    assert Join(["", ""], ",") == ",";
    assert Split(",", ",") == ["", ""];
    StripSetTrimmed(",", Whitespace);
    StripSetTrimmed("", Whitespace);
    ParseSkillsEmpty(",");
  }

  /** The question-count field: `parseInt(v) || 5`, so text without a number and `0` both
      give 5; other numbers are taken as they are, outside 1 to 10 included. */
  function QuestionCount(v: string): (r: int)
    ensures r != 0
    ensures JsParseInt(v).None? || JsParseInt(v) == Some(0) ==> r == 5
    ensures JsParseInt(v).Some? && JsParseInt(v).value != 0 ==> r == JsParseInt(v).value
  {
    match JsParseInt(v)
    case None => 5
    case Some(n) => if n == 0 then 5 else n
  }

  /** A typed non-zero number, even a negative one, followed by anything but digits, is the count. */
  lemma QuestionCountOf(n: int, rest: string)
    requires n != 0 && (|rest| == 0 || !IsDigit(rest[0]))
    ensures QuestionCount(IntToString(n) + rest) == n
  {
    JsParseIntPrefix(n, rest);
  }

  /** Clearing the field, or typing 0, gives 5. */
  lemma QuestionCountDefaults()
    ensures QuestionCount("") == 5
    ensures QuestionCount(IntToString(0)) == 5
  {
    JsParseIntPrefix(0, "");
    assert IntToString(0) + "" == IntToString(0);
  }

  // ---------------------------------------------------------------------------
  // Answers and the end of the interview
  // ---------------------------------------------------------------------------

  /** `handleSubmitAnswer` sends only a non-blank answer within a session. */
  predicate SubmitSends(answer: string, hasSession: bool) {
    !IsBlank(answer) && hasSession
  }

  /** The score and status the screen writes back for the session's candidate. */
  function Interviewed(cs: seq<Candidate>, candidateId: string, finalScore: int): (r: seq<Candidate>)
    ensures |r| == |cs|
    ensures forall i :: 0 <= i < |cs| ==>
      if cs[i].id == candidateId then r[i] == cs[i].(score := finalScore, status := Candidates.Interviewed)
      else r[i] == cs[i]
  {
    UpdateWhere(cs, candidateId, (c: Candidate) => c.(score := finalScore, status := Candidates.Interviewed))
  }

  /** After an answer: the candidate list changes only when the service reports the interview
      completed with a final score. */
  function AfterAnswer(cs: seq<Candidate>, candidateId: string, completed: bool, finalScore: Option<int>)
    : (r: seq<Candidate>)
    ensures !(completed && finalScore.Some?) ==> r == cs
    ensures completed && finalScore.Some? ==> r == Interviewed(cs, candidateId, finalScore.value)
  {
    if completed && finalScore.Some? then Interviewed(cs, candidateId, finalScore.value) else cs
  }

  /** After `end`: the same update, always; the matched candidate keeps every field but the
      score and the status. */
  function AfterEnd(cs: seq<Candidate>, candidateId: string, finalScore: int): (r: seq<Candidate>)
    ensures |r| == |cs|
    ensures forall c :: c in r && c.id == candidateId ==> c.score == finalScore && c.status == Candidates.Interviewed
    ensures forall i :: 0 <= i < |cs| && cs[i].id == candidateId ==>
      r[i] == cs[i].(score := finalScore, status := Candidates.Interviewed)
    ensures forall i :: 0 <= i < |cs| && cs[i].id != candidateId ==> r[i] == cs[i]
  {
    Interviewed(cs, candidateId, finalScore)
  }

  /** Ending an interview that already completed with the same score changes nothing more. */
  lemma EndAfterCompletion(cs: seq<Candidate>, candidateId: string, finalScore: int)
    ensures AfterEnd(AfterAnswer(cs, candidateId, true, Some(finalScore)), candidateId, finalScore)
            == AfterAnswer(cs, candidateId, true, Some(finalScore))
  {
  }

  /** `getScoreColor` for a single answer's score out of 10. */
  function AnswerScoreColor(score: int): (r: string)
    ensures r == "text-green-600" <==> score >= 8
    ensures r == "text-yellow-600" <==> 6 <= score < 8
    ensures r == "text-red-600" <==> score < 6
  {
    if score >= 8 then "text-green-600"
    else if score >= 6 then "text-yellow-600"
    else "text-red-600"
  }

  // ---------------------------------------------------------------------------
  // The results screen
  // ---------------------------------------------------------------------------

  /** The deterministic part of a result card (the per-skill scores are random draws). */
  datatype InterviewResult = InterviewResult(
    sessionId: string,
    candidateId: string,
    candidateName: string,
    candidateEmail: string,
    skills: seq<string>,
    overallScore: int,
    totalQuestions: int,
    questionsAnswered: int,
    recommendation: string)

  const HighlyRecommended := "Highly Recommended"
  const Recommended := "Recommended"
  const ConsiderForReview := "Consider for Review"

  /** The recommendation: at least 80, at least 65, or below. */
  function Recommendation(score: int): (r: string)
    ensures r == HighlyRecommended <==> score >= 80
    ensures r == Recommended <==> 65 <= score < 80
    ensures r == ConsiderForReview <==> score < 65
  {
    if score >= 80 then HighlyRecommended
    else if score >= 65 then Recommended
    else ConsiderForReview
  }

  /** Candidates with a result: interviewed with a positive score. */
  predicate HasResult(c: Candidate) {
    c.status == Candidates.Interviewed && c.score > 0
  }

  function ResultOf(c: Candidate): InterviewResult {
    InterviewResult("session-" + c.id, c.id, c.name, c.email, ["React", "TypeScript", "Node.js"],
                    c.score, 5, 5, Recommendation(c.score))
  }

  /** The results list: one card per interviewed candidate with a positive score, in list
      order, whose overall score is the candidate's score. */
  function Results(cs: seq<Candidate>): (r: seq<InterviewResult>)
    ensures |r| == |Filter(cs, HasResult)|
    ensures forall res :: res in r ==> exists c :: c in cs && HasResult(c) && res == ResultOf(c)
    ensures forall c :: c in cs && HasResult(c) ==> ResultOf(c) in r
  {
    var kept := Filter(cs, HasResult);
    var r := seq(|kept|, i requires 0 <= i < |kept| => ResultOf(kept[i]));
    forall c | c in cs && HasResult(c)
      ensures ResultOf(c) in r
    {
      var i :| 0 <= i < |kept| && kept[i] == c;
      assert r[i] == ResultOf(c);
    }
    r
  }

  /** A completed interview with a positive final score puts its candidate on the results screen. */
  lemma CompletedCandidateHasResult(cs: seq<Candidate>, candidateId: string, finalScore: int, i: nat)
    requires i < |cs| && cs[i].id == candidateId && finalScore > 0
    ensures exists res :: res in Results(AfterAnswer(cs, candidateId, true, Some(finalScore)))
                          && res.candidateId == candidateId && res.overallScore == finalScore
  {
    var r := AfterAnswer(cs, candidateId, true, Some(finalScore));
    assert r[i] in r && HasResult(r[i]);
    assert ResultOf(r[i]) in Results(r);
  }

  /** `getScoreColor` of the results screen. */
  function ResultScoreColor(score: int): string {
    if score >= 80 then "text-green-600"
    else if score >= 65 then "text-yellow-600"
    else "text-red-600"
  }

  /** `getScoreBgColor`. */
  function ResultScoreBgColor(score: int): string {
    if score >= 80 then "bg-green-100"
    else if score >= 65 then "bg-yellow-100"
    else "bg-red-100"
  }

  /** The colour family of a score bucket. */
  function Hue(score: int): string {
    if score >= 80 then "green" else if score >= 65 then "yellow" else "red"
  }

  /** Text and background colours come from the same three buckets. */
  lemma SameBuckets(score: int)
    ensures ResultScoreColor(score) == "text-" + Hue(score) + "-600"
    ensures ResultScoreBgColor(score) == "bg-" + Hue(score) + "-100"
  {
  }

  /** `getRecommendationColor`: a recommendation mentioning `Highly` is green, else one
      mentioning `Recommended` is blue, else yellow. */
  function RecommendationColor(rec: string): string {
    if Contains(rec, "Highly") then "bg-green-100 text-green-800"
    else if Contains(rec, "Recommended") then "bg-blue-100 text-blue-800"
    else "bg-yellow-100 text-yellow-800"
  }

  /** Because `Highly` is checked first, the three recommendations get three colours: green,
      blue and yellow. */
  lemma RecommendationColors(score: int)
    ensures RecommendationColor(Recommendation(score)) ==
      if score >= 80 then "bg-green-100 text-green-800"
      else if score >= 65 then "bg-blue-100 text-blue-800"
      else "bg-yellow-100 text-yellow-800"
  {
    if score >= 80 {
      PrefixContains(HighlyRecommended, "Highly");
    } else if score >= 65 {
      CharAbsent(Recommended, "Highly", 0);
      ContainsSelf(Recommended);
    } else {
      CharAbsent(ConsiderForReview, "Highly", 0);
      CharAbsent(ConsiderForReview, "Recommended", 4);
    }
  }
}

=== FILE: interview_sessions.dfy ===
/** The interview-session engine of the interview agent: an in-memory store of sessions and
    the `start`, `answer`, `session` and `end` routes that create and move them. Every route
    is a pure function from the store (plus the request and the environment's choices) to the
    new store and the reply, or to the error the route returns; on an error there is no new
    store, so a failed request never changes the sessions. */
module InterviewSessions {
  import opened Outcomes
  import opened Text
  import opened Numbers
  import opened QuestionBank
  import opened Evaluator

  datatype Role = Interviewer | Candidate

  /** A chat message of a session. Message ids and timestamps are left out. */
  datatype Message = Message(role: Role, content: string, questionNumber: Option<int>,
                             evaluation: Option<Evaluation>)

  /** An interviewer message carrying a question number: a question. */
  predicate IsQuestion(m: Message) {
    m.role == Interviewer && m.questionNumber.Some?
  }

  datatype Status = Active | Completed

  datatype Session = Session(
    id: string,
    candidateId: string,
    candidateName: string,
    skills: seq<string>,
    messages: seq<Message>,
    currentQuestion: int,
    totalQuestions: int,
    scores: seq<int>,
    status: Status,
    startedAt: string,
    completedAt: Option<string>)

  /** The module-level `interview_sessions` dict: the sessions by id, and the ids in
      insertion order (the order `dict.values()` yields them in). */
  datatype Store = Store(order: seq<string>, sessions: map<string, Session>)

  const EmptyStore: Store := Store([], map[])

  // ---------------------------------------------------------------------------
  // invariant
  // ---------------------------------------------------------------------------

  /** Where question `k + 1` sits in the message list: after the greeting, questions and
      answers alternate. */
  function QuestionAt(k: nat): nat {
    1 + 2 * k
  }

  /** Where the answer to question `k + 1` sits. */
  function AnswerAt(k: nat): nat {
    2 + 2 * k
  }

  /** The shape of a session's message list: the greeting, then question 1, answer 1,
      question 2, ... up to question `currentQuestion`, its answer if it was given, and then
      the completion message. Question `k + 1` carries number `k + 1`; answer `k + 1` carries
      the evaluation whose score is `scores[k]`. */
  predicate Shaped(ms: seq<Message>, currentQuestion: nat, scores: seq<int>)
    requires |scores| == currentQuestion - 1 || |scores| == currentQuestion
  {
    && |ms| == 1 + currentQuestion + |scores| + (if |scores| == currentQuestion then 1 else 0)
    && ms[0].role == Interviewer && !IsQuestion(ms[0])
    && (forall k :: 0 <= k < currentQuestion ==>
          IsQuestion(ms[QuestionAt(k)]) && ms[QuestionAt(k)].questionNumber.value == k + 1)
    && (forall k :: 0 <= k < |scores| ==>
          && ms[AnswerAt(k)].role == Candidate
          && ms[AnswerAt(k)].evaluation.Some?
          && ms[AnswerAt(k)].evaluation.value.score == scores[k])
    && (|scores| == currentQuestion ==>
          ms[|ms| - 1].role == Interviewer && !IsQuestion(ms[|ms| - 1]))
  }

  /** What the routes need of a stored session: a skill to target, a question counter that
      has started, and scores in `[0, 10]`. */
  predicate Ready(s: Session) {
    |s.skills| > 0 && 1 <= s.currentQuestion && AllWithin(s.scores, 0, 10)
  }

  predicate AllReady(st: Store) {
    forall k :: k in st.sessions ==> Ready(st.sessions[k])
  }

  /** What every stored session satisfies: its messages are `Shaped` (questions numbered
      `1..currentQuestion` in order, one evaluated answer per score), an active session awaits the answer to its
      current question, a completed one has answered it or was ended early, every score is
      in `[0, 10]`, and the counter never passes `max(1, totalQuestions)`. */
  predicate SessionInv(s: Session) {
    && Ready(s)
    && (s.currentQuestion <= s.totalQuestions || s.currentQuestion == 1)
    && (|s.scores| == s.currentQuestion - 1 || |s.scores| == s.currentQuestion)
    && (s.status == Active ==> |s.scores| == s.currentQuestion - 1)
    && (s.status == Completed <==> s.completedAt.Some?)
    && Shaped(s.messages, s.currentQuestion, s.scores)
  }

  /** Every session is stored under its own id, and the order lists each id exactly once. */
  ghost predicate StoreInv(st: Store) {
    && (forall k :: k in st.sessions ==> SessionInv(st.sessions[k]))
    && (forall i, j :: 0 <= i < j < |st.order| ==> st.order[i] != st.order[j])
    && Indexed(st)
  }

  /** Every session is stored under its own id, and the order lists exactly the stored ids. */
  ghost predicate Indexed(st: Store) {
    && (forall k :: k in st.sessions ==> st.sessions[k].id == k)
    && (forall k :: k in st.order <==> k in st.sessions)
  }

  lemma EmptyStoreInv()
    ensures StoreInv(EmptyStore)
  {
  }

  /** `interview_sessions[s.id] = s`: replace in place, or add at the end. */
  function Put(st: Store, s: Session): Store {
    Store(if s.id in st.sessions then st.order else st.order + [s.id], st.sessions[s.id := s])
  }

  lemma PutInv(st: Store, s: Session)
    requires StoreInv(st) && SessionInv(s)
    ensures StoreInv(Put(st, s))
  {
  }

  /** Updating a stored session in place, as the routes do through the dict, keeps the
      invariant when the new record does. */
  lemma UpdateInv(st: Store, s: Session)
    requires StoreInv(st) && s.id in st.sessions && SessionInv(s)
    ensures StoreInv(Store(st.order, st.sessions[s.id := s]))
  {
    assert Store(st.order, st.sessions[s.id := s]) == Put(st, s);
    PutInv(st, s);
  }

  // ---------------------------------------------------------------------------
  // scores
  // ---------------------------------------------------------------------------

  /** `round((sum(scores) / len(scores) / 10) * 100)`, or 0 without scores: the average score
      as a percentage, rounded half to even. */
  function FinalScore(scores: seq<int>): (r: int)
    requires AllWithin(scores, 0, 10)
    ensures 0 <= r <= 100
    ensures |scores| == 0 ==> r == 0
  {
    if |scores| == 0 then 0
    else
      var n := |scores|;
      var r := RoundHalfEven(10 * Sum(scores), n);
      SumBounds(scores, 0, 10);
      assert 2 * (r * n) <= 201 * n;
      MulCancel(r, 101, n);
      MulCancel(-1, r, n);
      r
  }

  /** The final score is the percentage `10 * Sum(scores) / |scores|` rounded to the nearest
      integer: it is off by at most one half. */
  lemma FinalScoreNearest(scores: seq<int>)
    requires AllWithin(scores, 0, 10) && |scores| > 0
    ensures var r := FinalScore(scores);
      -|scores| <= 2 * (10 * Sum(scores) - r * |scores|) <= |scores|
  {
  }

  /** When every score is `v`, the final score is exactly `10 * v`: no rounding happens. */
  lemma FinalScoreOfConstant(xs: seq<int>, v: int)
    requires |xs| > 0 && 0 <= v <= 10
    requires forall i :: 0 <= i < |xs| ==> xs[i] == v
    ensures AllWithin(xs, 0, 10)
    ensures FinalScore(xs) == 10 * v
  {
    SumOfConstant(xs, v);
    assert 10 * Sum(xs) == (10 * v) * |xs|;
    RoundExact(10 * v, |xs|);
  }

  lemma {:induction false} SumOfConstant(xs: seq<int>, v: int)
    requires forall i :: 0 <= i < |xs| ==> xs[i] == v
    ensures Sum(xs) == |xs| * v
  {
    if |xs| > 0 {
      SumOfConstant(xs[..|xs| - 1], v);
    }
  }

  /** Rounding an exact quotient returns it. */
  lemma RoundExact(c: int, n: int)
    requires n > 0
    ensures RoundHalfEven(c * n, n) == c
  {
    var r := RoundHalfEven(c * n, n);
    var d := c - r;
    assert c * n - r * n == d * n;
    if d > 0 {
      MulAtLeast(d, n);
    } else if d < 0 {
      MulAtLeast(-d, n);
    }
  }

  lemma MulAtLeast(a: int, n: int)
    requires a >= 1 && n > 0
    ensures a * n >= n
  {
  }

  // ---------------------------------------------------------------------------
  // start
  // ---------------------------------------------------------------------------

  /** The JSON body of a start request; `None` is an absent field. */
  datatype StartRequest = StartRequest(candidateId: Option<string>, candidateName: Option<string>,
                                       skills: Option<seq<string>>, numQuestions: Option<int>)

  datatype StartReply = StartReply(sessionId: string, message: Message, current: int, total: int)

  /** Python truthiness of an optional string: present and non-empty. */
  predicate Truthy(s: Option<string>) {
    s.Some? && s.value != ""
  }

  const DefaultName: string := "Candidate"
  const DefaultQuestions: int := 5

  function Greeting(name: string, skills: seq<string>): string {
    "Hello " + name + "! I'll be conducting your interview today. We'll be focusing on "
      + Join(skills, ", ") + ". Let's begin!"
  }

  /** `start_interview`: `sid` is the fresh uuid, `now` the clock, `reply` and `pick` the
      question generator's model reply and random draw. */
  function Start(st: Store, req: StartRequest, sid: string, now: string, reply: LlmReply, pick: nat)
    : (r: Result<(Store, StartReply)>)
    ensures r.Err? <==> !Truthy(req.candidateId) || req.skills.None? || |req.skills.value| == 0
    ensures r.Err? ==> r.error.code == 400
    ensures r.Ok? ==>
      var (st', rep) := r.value;
      && sid in st'.sessions
      && rep.sessionId == sid
      && st'.sessions[sid].id == sid
      && st'.sessions[sid].candidateId == req.candidateId.value
      && st'.sessions[sid].skills == req.skills.value
      && (forall k :: k in st.sessions && k != sid ==> k in st'.sessions && st'.sessions[k] == st.sessions[k])
      && (forall k :: k in st'.sessions ==> k in st.sessions || k == sid)
  {
    if !Truthy(req.candidateId) || req.skills.None? || |req.skills.value| == 0 then
      Err(Error(400, "candidateId and skills are required"))
    else
      var skills := req.skills.value;
      var name := req.candidateName.GetOr(DefaultName);
      var total := req.numQuestions.GetOr(DefaultQuestions);
      var first := GenerateQuestion(skills[0], reply, pick);
      var hello := Message(Interviewer, Greeting(name, skills), None, None);
      var question := Message(Interviewer, first, Some(1), None);
      var s := Session(sid, req.candidateId.value, name, skills, [hello, question], 1, total, [],
                       Active, now, None);
      Ok((Put(st, s), StartReply(sid, question, 1, total)))
  }

  /** A started session carries the request's candidate id and skills under the fresh id,
      started `now` and not completed; it is active, on question 1 of `numQuestions` (5 when
      absent, not validated), has no scores, and holds the greeting and the first question,
      which targets the first requested skill. */
  lemma StartCreates(st: Store, req: StartRequest, sid: string, now: string, reply: LlmReply, pick: nat)
    requires Start(st, req, sid, now, reply, pick).Ok?
    ensures var (st', rep) := Start(st, req, sid, now, reply, pick).value;
      var s := st'.sessions[sid];
      && s.id == sid && s.candidateId == req.candidateId.value && s.skills == req.skills.value
      && s.startedAt == now && s.completedAt == None
      && s.status == Active && s.currentQuestion == 1 && s.scores == []
      && s.totalQuestions == req.numQuestions.GetOr(5)
      && s.candidateName == req.candidateName.GetOr("Candidate")
      && |s.messages| == 2 && s.messages[1] == rep.message
      && rep.message.questionNumber == Some(1)
      && rep.message.content == GenerateQuestion(req.skills.value[0], reply, pick)
      && rep.current == 1 && rep.total == s.totalQuestions
  {
  }

  lemma StartPreservesInv(st: Store, req: StartRequest, sid: string, now: string, reply: LlmReply, pick: nat)
    requires StoreInv(st)
    ensures var r := Start(st, req, sid, now, reply, pick);
      r.Ok? ==> StoreInv(r.value.0)
  {
    var r := Start(st, req, sid, now, reply, pick);
    if r.Ok? {
      var s := r.value.0.sessions[sid];
      assert QuestionAt(0) == 1;
      PutInv(st, s);
    }
  }

  // ---------------------------------------------------------------------------
  // answer
  // ---------------------------------------------------------------------------

  datatype AnswerRequest = AnswerRequest(sessionId: Option<string>, answer: Option<string>)

  datatype AnswerReply =
    | Finished(message: Message, evaluation: Evaluation, finalScore: int)
    | NextQuestion(message: Message, evaluation: Evaluation, current: int, total: int)

  /** The skill question `k` targets: `skills[min(k - 1, len(skills) - 1)]`. */
  function SkillFor(skills: seq<string>, k: int): (skill: string)
    requires |skills| > 0 && k >= 1
    ensures skill in skills
  {
    skills[if k - 1 < |skills| - 1 then k - 1 else |skills| - 1]
  }

  /** Questions walk through the skills in order, and the last skill repeats: skills do not
      cycle. */
  lemma SkillForClamps(skills: seq<string>, k: int)
    requires |skills| > 0 && k >= 1
    ensures k <= |skills| ==> SkillFor(skills, k) == skills[k - 1]
    ensures k >= |skills| ==> SkillFor(skills, k) == skills[|skills| - 1]
  {
  }

  function CompletionText(finalScore: int): string {
    "Thank you for completing the interview! Your overall score is " + IntToString(finalScore)
      + "%. We'll review your responses and get back to you soon."
  }

  /** The session id names a stored session (and is present and non-empty). */
  predicate Known(st: Store, id: Option<string>) {
    Truthy(id) && id.value in st.sessions
  }

  /** The accepted-answer step on one active session, given the answer's evaluation `ev`
      and the question `next` the generator produces for the following question's skill. */
  function AnswerStep(s: Session, answer: string, ev: Evaluation, next: string, now: string)
    : (r: (Session, AnswerReply))
    requires Ready(s) && s.status == Active && InRange(ev)
    ensures && r.0.scores == s.scores + [ev.score]
            && r.0.id == s.id && r.0.skills == s.skills && r.0.totalQuestions == s.totalQuestions
            && r.0.messages == s.messages + [Message(Candidate, answer, None, Some(ev)), r.1.message]
            && r.1.evaluation == ev
    ensures r.1.Finished? <==> s.currentQuestion >= s.totalQuestions
    ensures r.1.Finished? ==>
              && r.0.status == Completed && r.0.currentQuestion == s.currentQuestion
              && r.1.finalScore == FinalScore(r.0.scores)
              && r.1.message.role == Interviewer && !IsQuestion(r.1.message)
    ensures r.1.NextQuestion? ==>
              && r.0.status == Active && r.0.currentQuestion == s.currentQuestion + 1
              && r.1.message == Message(Interviewer, next, Some(r.0.currentQuestion), None)
  {
    var answerMsg := Message(Candidate, answer, None, Some(ev));
    var scores := s.scores + [ev.score];
    var msgs := s.messages + [answerMsg];
    assert AllWithin(scores, 0, 10);
    if s.currentQuestion >= s.totalQuestions then
      var final := FinalScore(scores);
      var done := Message(Interviewer, CompletionText(final), None, None);
      (s.(messages := msgs + [done], scores := scores, status := Completed, completedAt := Some(now)),
       Finished(done, ev, final))
    else
      var cq := s.currentQuestion + 1;
      var questionMsg := Message(Interviewer, next, Some(cq), None);
      (s.(messages := msgs + [questionMsg], scores := scores, currentQuestion := cq),
       NextQuestion(questionMsg, ev, cq, s.totalQuestions))
  }

  /** Records an accepted answer in the stored session `id`, in place. */
  function Accept(st: Store, id: string, answer: string, ev: Evaluation, next: string, now: string)
    : (r: (Store, AnswerReply))
    requires id in st.sessions && Ready(st.sessions[id]) && st.sessions[id].status == Active
    requires InRange(ev)
    ensures r.0.order == st.order && r.0.sessions.Keys == st.sessions.Keys
    ensures forall k :: k in st.sessions && k != id ==> r.0.sessions[k] == st.sessions[k]
  {
    var (s', reply) := AnswerStep(st.sessions[id], answer, ev, next, now);
    (Store(st.order, st.sessions[id := s']), reply)
  }

  lemma AcceptKeepsInv(st: Store, id: string, answer: string, ev: Evaluation, next: string, now: string)
    requires StoreInv(st) && id in st.sessions && st.sessions[id].status == Active && InRange(ev)
    ensures StoreInv(Accept(st, id, answer, ev, next, now).0)
  {
    var s := st.sessions[id];
    var s' := AnswerStep(s, answer, ev, next, now).0;
    AnswerStepInv(s, answer, ev, next, now);
    UpdateInv(st, s');
  }

  lemma AcceptAdvances(st: Store, id: string, answer: string, ev: Evaluation, next: string, now: string)
    requires id in st.sessions && Ready(st.sessions[id]) && st.sessions[id].status == Active
    requires InRange(ev)
    ensures Advances(st, Accept(st, id, answer, ev, next, now).0)
  {
    var s := st.sessions[id];
    var s' := AnswerStep(s, answer, ev, next, now).0;
    var st' := Accept(st, id, answer, ev, next, now).0;
    assert st'.sessions == st.sessions[id := s'];
    assert s.scores <= s'.scores;
    forall k | k in st.sessions
      ensures k in st'.sessions
      ensures st.sessions[k].status == Completed ==> st'.sessions[k].status == Completed
      ensures st.sessions[k].scores <= st'.sessions[k].scores
    {
      if k != id {
        assert st'.sessions[k] == st.sessions[k];
      }
    }
  }

  /** `submit_answer`: `evalReply` is the evaluator's model reply, `questionReply` and `pick`
      those of the next question's generator, `now` the clock. Errors come in a fixed order:
      unknown id (404), then a blank answer (400), then a session that is not active (400). */
  function Submit(st: Store, req: AnswerRequest, now: string, evalReply: LlmReply,
                  questionReply: LlmReply, pick: nat): (r: Result<(Store, AnswerReply)>)
    requires AllReady(st)
    ensures !Known(st, req.sessionId) ==> r == Err(Error(404, "Invalid session ID"))
    ensures Known(st, req.sessionId) && IsBlank(req.answer.GetOr("")) ==>
      r == Err(Error(400, "Answer is required"))
    ensures Known(st, req.sessionId) && !IsBlank(req.answer.GetOr(""))
            && st.sessions[req.sessionId.value].status != Active ==>
      r == Err(Error(400, "Interview session is not active"))
    ensures r.Ok? ==>
      var (st', _) := r.value;
      var id := req.sessionId.value;
      && st'.order == st.order
      && st'.sessions.Keys == st.sessions.Keys
      && (forall k :: k in st.sessions && k != id ==> st'.sessions[k] == st.sessions[k])
  {
    if !Known(st, req.sessionId) then Err(Error(404, "Invalid session ID"))
    else
      var answer := Strip(req.answer.GetOr(""));
      if answer == [] then Err(Error(400, "Answer is required"))
      else
        var s := st.sessions[req.sessionId.value];
        if s.status != Active then Err(Error(400, "Interview session is not active"))
        else
          var ev := Evaluate(answer, evalReply);
          var next := GenerateQuestion(SkillFor(s.skills, s.currentQuestion + 1), questionReply, pick);
          Ok(Accept(st, req.sessionId.value, answer, ev, next, now))
  }

  /** An accepted answer appends exactly one score, the evaluation of the stripped answer;
      the session completes exactly when its counter has reached the total, and otherwise the
      counter moves up by one and the next question targets the skill of the new number. */
  lemma SubmitAccepts(st: Store, req: AnswerRequest, now: string, evalReply: LlmReply,
                      questionReply: LlmReply, pick: nat)
    requires StoreInv(st)
    requires Known(st, req.sessionId) && !IsBlank(req.answer.GetOr(""))
    requires st.sessions[req.sessionId.value].status == Active
    ensures var r := Submit(st, req, now, evalReply, questionReply, pick);
      var s := st.sessions[req.sessionId.value];
      && r.Ok?
      && var (st', reply) := r.value;
      var s' := st'.sessions[req.sessionId.value];
      && s'.scores == s.scores + [Evaluate(Strip(req.answer.GetOr("")), evalReply).score]
      && (reply.Finished? <==> s.currentQuestion >= s.totalQuestions)
      && (reply.Finished? ==> s'.status == Completed && s'.currentQuestion == s.currentQuestion)
      && (reply.NextQuestion? ==>
            && s'.status == Active && s'.currentQuestion == s.currentQuestion + 1
            && reply.message.questionNumber == Some(s'.currentQuestion)
            && reply.message.content
               == GenerateQuestion(SkillFor(s.skills, s'.currentQuestion), questionReply, pick))
  {
  }

  /** Answering the current question and closing with a non-question message keeps the
      shape, with the answer's score appended. */
  lemma ShapedAfterLastAnswer(ms: seq<Message>, cq: nat, scores: seq<int>, a: Message, x: Message)
    requires |scores| == cq - 1 && Shaped(ms, cq, scores)
    requires a.role == Candidate && a.evaluation.Some?
    requires x.role == Interviewer && !IsQuestion(x)
    ensures Shaped(ms + [a] + [x], cq, scores + [a.evaluation.value.score])
  {
    var ms' := ms + [a] + [x];
    var scores' := scores + [a.evaluation.value.score];
    assert AnswerAt(cq - 1) == |ms|;
    assert forall k :: 0 <= k < cq ==> ms'[QuestionAt(k)] == ms[QuestionAt(k)];
    assert forall k :: 0 <= k < cq - 1 ==> ms'[AnswerAt(k)] == ms[AnswerAt(k)];
    assert forall k :: 0 <= k < |scores'| ==> ms'[AnswerAt(k)].evaluation.value.score == scores'[k];
  }

  /** Answering the current question and asking the next keeps the shape, one question on. */
  lemma ShapedAfterNextQuestion(ms: seq<Message>, cq: nat, scores: seq<int>, a: Message, q: Message)
    requires |scores| == cq - 1 && Shaped(ms, cq, scores)
    requires a.role == Candidate && a.evaluation.Some?
    requires IsQuestion(q) && q.questionNumber.value == cq + 1
    ensures Shaped(ms + [a] + [q], cq + 1, scores + [a.evaluation.value.score])
  {
    var ms' := ms + [a] + [q];
    var scores' := scores + [a.evaluation.value.score];
    assert AnswerAt(cq - 1) == |ms|;
    assert QuestionAt(cq) == |ms| + 1;
    assert forall k :: 0 <= k < cq ==> ms'[QuestionAt(k)] == ms[QuestionAt(k)];
    assert forall k :: 0 <= k < cq - 1 ==> ms'[AnswerAt(k)] == ms[AnswerAt(k)];
    assert forall k :: 0 <= k < |scores'| ==> ms'[AnswerAt(k)].evaluation.value.score == scores'[k];
  }

  lemma AnswerStepInv(s: Session, answer: string, ev: Evaluation, next: string, now: string)
    requires SessionInv(s) && s.status == Active && InRange(ev)
    ensures SessionInv(AnswerStep(s, answer, ev, next, now).0)
  {
    var (s', reply) := AnswerStep(s, answer, ev, next, now);
    var a := Message(Candidate, answer, None, Some(ev));
    assert s'.messages == s.messages + [a] + [reply.message];
    if reply.NextQuestion? {
      ShapedAfterNextQuestion(s.messages, s.currentQuestion, s.scores, a, reply.message);
    } else {
      ShapedAfterLastAnswer(s.messages, s.currentQuestion, s.scores, a, reply.message);
    }
  }

  /** An accepted request is `Accept` on the stripped answer, its evaluation, and the question
      generated for the following question's skill. */
  lemma SubmitOk(st: Store, req: AnswerRequest, now: string, evalReply: LlmReply,
                 questionReply: LlmReply, pick: nat)
    requires AllReady(st)
    requires Submit(st, req, now, evalReply, questionReply, pick).Ok?
    ensures var id := req.sessionId.value;
      var answer := Strip(req.answer.GetOr(""));
      && id in st.sessions && st.sessions[id].status == Active
      && Submit(st, req, now, evalReply, questionReply, pick).value
         == Accept(st, id, answer, Evaluate(answer, evalReply),
                   GenerateQuestion(SkillFor(st.sessions[id].skills, st.sessions[id].currentQuestion + 1),
                                    questionReply, pick),
                   now)
  {
  }

  lemma SubmitPreservesInv(st: Store, req: AnswerRequest, now: string, evalReply: LlmReply,
                           questionReply: LlmReply, pick: nat)
    requires StoreInv(st)
    ensures var r := Submit(st, req, now, evalReply, questionReply, pick);
      r.Ok? ==> StoreInv(r.value.0) && Advances(st, r.value.0)
  {
    if Submit(st, req, now, evalReply, questionReply, pick).Ok? {
      SubmitOk(st, req, now, evalReply, questionReply, pick);
      var id := req.sessionId.value;
      var answer := Strip(req.answer.GetOr(""));
      var ev := Evaluate(answer, evalReply);
      var next := GenerateQuestion(SkillFor(st.sessions[id].skills, st.sessions[id].currentQuestion + 1),
                                   questionReply, pick);
      AcceptKeepsInv(st, id, answer, ev, next, now);
      AcceptAdvances(st, id, answer, ev, next, now);
    }
  }

  // ---------------------------------------------------------------------------
  // session lookup and early end
  // ---------------------------------------------------------------------------

  /** `get_session`: the session and its current percentage score. */
  function GetSession(st: Store, id: string): (r: Result<(Session, int)>)
    requires AllReady(st)
    ensures r.Err? <==> id !in st.sessions
    ensures r.Err? ==> r.error.code == 404
    ensures r.Ok? ==> r.value.0 == st.sessions[id] && 0 <= r.value.1 <= 100
    ensures r.Ok? ==> r.value.1 == FinalScore(st.sessions[id].scores)
  {
    if id !in st.sessions then Err(Error(404, "Session not found"))
    else Ok((st.sessions[id], FinalScore(st.sessions[id].scores)))
  }

  datatype EndReply = EndReply(sessionId: string, finalScore: int, questionsAnswered: int)

  /** `end_interview`: completes the session whatever its status and reports its score. */
  function End(st: Store, id: Option<string>, now: string): (r: Result<(Store, EndReply)>)
    requires AllReady(st)
    ensures r.Err? <==> !Known(st, id)
    ensures r.Err? ==> r.error.code == 404
    ensures r.Ok? ==>
      var (st', rep) := r.value;
      var s := st.sessions[id.value];
      && st'.order == st.order && st'.sessions.Keys == st.sessions.Keys
      && (forall k :: k in st.sessions && k != id.value ==> st'.sessions[k] == st.sessions[k])
      && var s' := st'.sessions[id.value];
      && s'.status == Completed && s'.scores == s.scores && s'.messages == s.messages
      && s'.completedAt == Some(now)
      && rep.sessionId == id.value
      && rep.questionsAnswered == |s.scores| && 0 <= rep.finalScore <= 100
      && rep.finalScore == FinalScore(s.scores)
  {
    if !Known(st, id) then Err(Error(404, "Invalid session ID"))
    else
      var s := st.sessions[id.value];
      var s' := s.(status := Completed, completedAt := Some(now));
      Ok((Store(st.order, st.sessions[id.value := s']), EndReply(id.value, FinalScore(s.scores), |s.scores|)))
  }

  lemma EndPreservesInv(st: Store, id: Option<string>, now: string)
    requires StoreInv(st)
    ensures var r := End(st, id, now);
      r.Ok? ==> StoreInv(r.value.0)
  {
    var r := End(st, id, now);
    if r.Ok? {
      var s := st.sessions[id.value];
      UpdateInv(st, s.(status := Completed, completedAt := Some(now)));
    }
  }

  /** Ending twice reports the same score and answer count, at any times. */
  lemma EndIdempotent(st: Store, id: Option<string>, now1: string, now2: string)
    requires StoreInv(st)
    requires End(st, id, now1).Ok?
    ensures StoreInv(End(st, id, now1).value.0)
    ensures var st1 := End(st, id, now1).value.0;
      var r2 := End(st1, id, now2);
      && r2.Ok?
      && r2.value.1.finalScore == End(st, id, now1).value.1.finalScore
      && r2.value.1.questionsAnswered == End(st, id, now1).value.1.questionsAnswered
  {
    EndPreservesInv(st, id, now1);
  }

  /** No route turns a completed session back into an active one, and no route removes a
      score: each stored session keeps its status or moves from active to completed, and its
      scores only grow at the end. */
  ghost predicate Advances(st: Store, st': Store) {
    forall k :: k in st.sessions ==>
      && k in st'.sessions
      && (st.sessions[k].status == Completed ==> st'.sessions[k].status == Completed)
      && st.sessions[k].scores <= st'.sessions[k].scores
  }

  lemma EndAdvances(st: Store, id: Option<string>, now: string)
    requires StoreInv(st)
    ensures var r := End(st, id, now); r.Ok? ==> Advances(st, r.value.0)
  {
  }

  /** Starting under a fresh id touches no existing session. */
  lemma StartAdvances(st: Store, req: StartRequest, sid: string, now: string, reply: LlmReply, pick: nat)
    requires sid !in st.sessions
    ensures var r := Start(st, req, sid, now, reply, pick); r.Ok? ==> Advances(st, r.value.0)
  {
  }
}

=== FILE: job_description.dfy ===
/** The job-description generator: the template used when no language model answers
    (`generate_fallback_jd`), the choice between the model's text, the template and no
    result (`generate_jd`), and the ranker's `/generate-jd` route around it. */
module JobDescription {
  import opened Outcomes
  import opened Text

  const DefaultRole := "Software Engineer"

  /** Prompts at least this long are not taken as a role or quoted in the requirements. */
  const ShortPrompt := 200

  const RoleMarker := "role:"

  /** The role a template is written for:
      - if the lower-cased prompt mentions `role:`, the text after the first literal
        (case-sensitive) `role:` up to the next newline, stripped, trailing dots removed;
        when only another casing occurs (`Role:`), the default role;
      - otherwise a prompt shorter than 200 characters, stripped;
      - otherwise the default role. */
  function FallbackRole(prompt: string): (r: string)
    ensures r == DefaultRole || |r| <= |prompt|
    ensures Contains(Lower(prompt), RoleMarker) && r != DefaultRole ==> |r| == 0 || r[|r| - 1] != '.'
  {
    if Contains(Lower(prompt), RoleMarker) then
      var parts := Split(prompt, RoleMarker);
      SplitPartsNoLonger(prompt, RoleMarker);
      if |parts| > 1 then MarkedRole(parts[1]) else DefaultRole
    else if |prompt| < ShortPrompt then Strip(prompt)
    else DefaultRole
  }

  /** The role named after the marker: the first line, stripped, without trailing dots. */
  function MarkedRole(after: string): (r: string)
    ensures |r| <= |after|
    ensures |r| == 0 || r[|r| - 1] != '.'
  {
    SplitPartsNoLonger(after, "\n");
    RStrip(Strip(Split(after, "\n")[0]), {'.'})
  }

  /** Text of the template up to the point where the role is repeated. */
  const AboutIntro := "\n\n## About the Role\nWe are seeking a talented "

  /** Text of the template from after the repeated role to the last requirement bullet. */
  const AboutToBullet :=
    " to join our growing team. This is an exciting opportunity to work on cutting-edge projects and make a significant impact.\n"
    + "\n## Key Responsibilities\n"
    + "- Design, develop, and maintain high-quality software solutions\n"
    + "- Collaborate with cross-functional teams to deliver exceptional products\n"
    + "- Participate in code reviews and contribute to technical discussions\n"
    + "- Mentor junior team members and share knowledge\n"
    + "- Stay updated with the latest industry trends and technologies\n"
    + "\n## Requirements\n"
    + "- Strong technical skills relevant to the role\n"
    + "- Excellent problem-solving and analytical abilities\n"
    + "- Effective communication and teamwork skills\n"
    + "- Bachelor's degree in Computer Science or related field (or equivalent experience)\n"
    + "- "

  /** Text of the template after the last requirement bullet. */
  const Closing :=
    "\n\n## Nice to Have\n"
    + "- Experience with cloud platforms (AWS, Azure, GCP)\n"
    + "- Contributions to open-source projects\n"
    + "- Strong understanding of software design patterns\n"
    + "- Agile/Scrum experience\n"
    + "\n## What We Offer\n"
    + "- Competitive salary and benefits package\n"
    + "- Flexible work arrangements (remote/hybrid options)\n"
    + "- Professional development opportunities\n"
    + "- Collaborative and innovative work environment\n"
    + "- Health insurance and wellness programs\n"
    + "\n**Note:** This is a template job description. For AI-generated descriptions, please install Ollama with the llama2 model.\n"

  const GenericRequirement := "Experience with modern development tools and practices"

  /** The last requirement bullet: the stripped prompt when it is short, a fixed sentence otherwise. */
  function LastRequirement(prompt: string): (r: string)
    ensures |r| < ShortPrompt
    ensures |prompt| < ShortPrompt ==> r == Strip(prompt)
  {
    if |prompt| < ShortPrompt then Strip(prompt) else GenericRequirement
  }

  /** The template filled in with a role and a last requirement. */
  function Template(role: string, lastRequirement: string): string {
    "# " + role + AboutIntro + role + AboutToBullet + lastRequirement + Closing
  }

  /** `generate_fallback_jd(prompt)`: a heading naming the role found in the prompt, and the
      fixed closing text at the end. */
  function FallbackJd(prompt: string): (r: string)
    ensures var role := FallbackRole(prompt);
      |r| >= 2 + |role| + |Closing| && r[..2 + |role|] == "# " + role && r[|r| - |Closing|..] == Closing
  {
    TemplateLayout(FallbackRole(prompt), LastRequirement(prompt));
    Template(FallbackRole(prompt), LastRequirement(prompt))
  }

  /** The template opens with a level-one heading naming the role, and the role, the last
      requirement and the closing text appear in that order; nothing else varies. */
  lemma TemplateLayout(role: string, req: string)
    ensures var t := Template(role, req);
      && |t| == 2 * |role| + |req| + |AboutIntro| + |AboutToBullet| + |Closing| + 2
      && t[..2 + |role|] == "# " + role
      && t[2 + |role|..2 + |role| + |AboutIntro|] == AboutIntro
      && var b := 2 + 2 * |role| + |AboutIntro| + |AboutToBullet|;
         t[b..b + |req|] == req && t[b + |req|..] == Closing
  {
    assert Template(role, req) == "# " + role + AboutIntro + role + AboutToBullet + req + Closing;
    Layout("# ", role, AboutIntro, AboutToBullet, req, Closing);
  }

  /** Where the pieces of `head + role + intro + role + middle + req + tail` sit. */
  lemma Layout(head: string, role: string, intro: string, middle: string, req: string, tail: string)
    ensures var t := head + role + intro + role + middle + req + tail;
      && |t| == |head| + 2 * |role| + |intro| + |middle| + |req| + |tail|
      && t[..|head| + |role|] == head + role
      && t[|head| + |role|..|head| + |role| + |intro|] == intro
      && var b := |head| + 2 * |role| + |intro| + |middle|;
         t[b..b + |req|] == req && t[b + |req|..] == tail
  {
    var t := head + role + intro + role + middle + req + tail;
    var a := |head| + |role|;
    var b := |head| + 2 * |role| + |intro| + |middle|;
    assert t == (head + role) + intro + (role + middle) + req + tail;
    assert t[..a] == head + role;
    assert t[a..a + |intro|] == intro;
    assert t[b..b + |req|] == req;
    assert t[b + |req|..] == tail;
  }

  /** When the prompt says `role:` (before it no other `role:`, after it no further one),
      the role is the rest of that line, stripped, with trailing dots removed. `RoleAtEnd`
      covers a role line that ends the prompt. */
  lemma RoleFromMarker(before: string, role: string, after: string)
    requires !Contains(before, RoleMarker)
    requires !Contains(role + "\n" + after, RoleMarker) && '\n' !in role
    ensures FallbackRole(before + RoleMarker + role + "\n" + after) == RStrip(Strip(role), {'.'})
  {
    var rest := role + "\n" + after;
    var p := before + RoleMarker + rest;
    assert p == before + RoleMarker + role + "\n" + after;
    MarkerFirstAt(before, rest);
    SplitAtFirst(before, RoleMarker, rest);
    assert Split(rest, RoleMarker) == [rest];
    LineFirstAt(role, after);
    SplitAtFirst(role, "\n", after);
    LowerContainsMarker(p, |before|);
  }

  /** A prompt ending with `role:` and a role of one line: the role is that text, stripped,
      with trailing dots removed. */
  lemma RoleAtEnd(before: string, role: string)
    requires !Contains(before, RoleMarker)
    requires !Contains(role, RoleMarker) && '\n' !in role
    ensures FallbackRole(before + RoleMarker + role) == RStrip(Strip(role), {'.'})
  {
    var p := before + RoleMarker + role;
    MarkerFirstAt(before, role);
    SplitAtFirst(before, RoleMarker, role);
    assert Split(role, RoleMarker) == [role];
    assert "\n" == ['\n'];
    SplitWithoutChar(role, '\n');
    LowerContainsMarker(p, |before|);
  }

  /** When only a differently-cased marker such as `Role:` occurs, the default role is kept. */
  lemma RoleOtherCase(prompt: string)
    requires Contains(Lower(prompt), RoleMarker) && !Contains(prompt, RoleMarker)
    ensures FallbackRole(prompt) == DefaultRole
  {
  }

  /** Without any marker, a short prompt is itself the role, stripped. */
  lemma RoleShortPrompt(prompt: string)
    requires !Contains(Lower(prompt), RoleMarker) && |prompt| < ShortPrompt
    ensures FallbackRole(prompt) == Strip(prompt)
  {
  }

  /** Without any marker, a long prompt gets the default role. */
  lemma RoleLongPrompt(prompt: string)
    requires !Contains(Lower(prompt), RoleMarker) && |prompt| >= ShortPrompt
    ensures FallbackRole(prompt) == DefaultRole
  {
  }

  /** Splitting at a separator whose first occurrence ends `before` yields `before` first. */
  lemma SplitAtFirst(before: string, sep: string, rest: string)
    requires |sep| > 0 && IndexOf(before + sep + rest, sep) == Some(|before|)
    ensures Split(before + sep + rest, sep) == [before] + Split(rest, sep)
  {
    var s := before + sep + rest;
    assert s[..|before|] == before;
    assert s[|before| + |sep|..] == rest;
  }

  /** The first `role:` of `before + "role:" + rest` is the one after `before`: an earlier one
      would lie inside `before` or straddle its end, and `role:` cannot overlap itself. */
  lemma MarkerFirstAt(before: string, rest: string)
    requires !Contains(before, RoleMarker)
    ensures IndexOf(before + RoleMarker + rest, RoleMarker) == Some(|before|)
  {
    var s := before + RoleMarker + rest;
    assert OccursAt(s, RoleMarker, |before|);
    forall j | 0 <= j < |before|
      ensures !OccursAt(s, RoleMarker, j)
    {
      if j + 5 <= |before| {
        assert s[j..j + 5] == before[j..j + 5];
        assert OccursAt(s, RoleMarker, j) <==> OccursAt(before, RoleMarker, j);
        ContainsIff(before, RoleMarker);
      } else {
        assert s[|before|] == 'r';
        assert s[j..j + 5][|before| - j] == s[|before|];
        assert forall k :: 1 <= k < 5 ==> RoleMarker[k] != 'r';
      }
    }
  }

  /** The first newline of `line + "\n" + rest` ends `line` when `line` has none. */
  lemma LineFirstAt(line: string, rest: string)
    requires '\n' !in line
    ensures IndexOf(line + "\n" + rest, "\n") == Some(|line|)
  {
    var s := line + "\n" + rest;
    assert OccursAt(s, "\n", |line|);
    forall j | 0 <= j < |line|
      ensures !OccursAt(s, "\n", j)
    {
      assert s[j] == line[j] != '\n';
    }
  }

  /** A literal `role:` in the prompt is found by the case-insensitive test too. */
  lemma LowerContainsMarker(p: string, i: nat)
    requires OccursAt(p, RoleMarker, i)
    ensures Contains(Lower(p), RoleMarker)
  {
    var l := Lower(p);
    assert l[i..i + 5] == RoleMarker;
    assert OccursAt(l, RoleMarker, i);
  }

  // ---------------------------------------------------------------------------
  // generate_jd and its route
  // ---------------------------------------------------------------------------

  /** An error text that counts as "model not found": it contains `404`, or `not found` in any
      casing. */
  predicate NotFoundError(message: string) {
    Contains(message, "404") || Contains(Lower(message), "not found")
  }

  /** `generate_jd(prompt)`, with the model's behaviour as an input. No model installed, a reply
      without content, or a not-found error give the template; content gives that content
      stripped; any other error gives no description. */
  function GenerateJd(prompt: string, reply: LlmReply): (r: Option<string>)
    ensures r.None? <==> reply.Raised? && !NotFoundError(reply.message)
    ensures !reply.Content? && r.Some? ==> r.value == FallbackJd(prompt)
    ensures reply.Content? ==> r == Some(Strip(reply.text))
  {
    match reply
    case Unavailable => Some(FallbackJd(prompt))
    case Malformed => Some(FallbackJd(prompt))
    case Content(text) => Some(Strip(text))
    case Raised(message) => if NotFoundError(message) then Some(FallbackJd(prompt)) else None
  }

  /** The `/generate-jd` route: an empty prompt is refused with 400 before the generator runs;
      no description, or an empty one, is a 500; otherwise the description is returned. */
  function GenerateJdRoute(prompt: string, reply: LlmReply): (r: Result<string>)
    ensures r.Err? && r.error.code == 400 <==> prompt == ""
    ensures r.Ok? ==> r.value != "" && Some(r.value) == GenerateJd(prompt, reply)
    ensures r.Ok? <==> prompt != "" && GenerateJd(prompt, reply).Some? && GenerateJd(prompt, reply).value != ""
    ensures prompt != "" && r.Err? ==> r.error == Error(500, "Failed to generate JD")
  {
    if prompt == "" then Err(Error(400, "Missing 'prompt'"))
    else
      match GenerateJd(prompt, reply)
      case None => Err(Error(500, "Failed to generate JD"))
      case Some(jd) => if jd == "" then Err(Error(500, "Failed to generate JD")) else Ok(jd)
  }

  /** Whenever the template is used, the route succeeds for any non-empty prompt: the template
      is never empty. Only a model reply (an error, or blank content) can make it fail. */
  lemma TemplateRouteSucceeds(prompt: string, reply: LlmReply)
    requires prompt != ""
    requires reply.Unavailable? || reply.Malformed? || (reply.Raised? && NotFoundError(reply.message))
    ensures GenerateJdRoute(prompt, reply) == Ok(FallbackJd(prompt))
  {
    TemplateLayout(FallbackRole(prompt), LastRequirement(prompt));
  }
}

=== FILE: lists.dfy ===
/** Order-keeping list filtering (`Array.prototype.filter`, a Python list comprehension with
    a condition) and first-match lookup (`Array.prototype.find`), shared by the screens and
    the rankers. */
module Lists {
  import opened Outcomes

  /** The elements satisfying `p`, in their original order. */
  function Filter<T(!new)>(xs: seq<T>, p: T -> bool): (r: seq<T>)
    ensures |r| <= |xs|
    ensures forall x :: x in r <==> x in xs && p(x)
  {
    if |xs| == 0 then []
    else
      assert xs == [xs[0]] + xs[1..];
      (if p(xs[0]) then [xs[0]] else []) + Filter(xs[1..], p)
  }

  /** Filtering distributes over concatenation: the relative order of the survivors is kept. */
  lemma {:induction false} FilterAppend<T(!new)>(xs: seq<T>, ys: seq<T>, p: T -> bool)
    ensures Filter(xs + ys, p) == Filter(xs, p) + Filter(ys, p)
  {
    if |xs| > 0 {
      assert (xs + ys)[1..] == xs[1..] + ys;
      FilterAppend(xs[1..], ys, p);
    } else {
      assert xs + ys == ys;
    }
  }

  /** A one-element list keeps its element exactly when it satisfies the condition. */
  lemma FilterSingle<T(!new)>(x: T, p: T -> bool)
    ensures Filter([x], p) == if p(x) then [x] else []
  {
    assert [x][1..] == [];
  }

  /** A filter that keeps every element is the identity. */
  lemma {:induction false} FilterAll<T(!new)>(xs: seq<T>, p: T -> bool)
    requires forall i :: 0 <= i < |xs| ==> p(xs[i])
    ensures Filter(xs, p) == xs
  {
    if |xs| > 0 {
      FilterAll(xs[1..], p);
    }
  }

  /** Filtering twice with the same condition is filtering once. */
  lemma FilterIdempotent<T(!new)>(xs: seq<T>, p: T -> bool)
    ensures Filter(Filter(xs, p), p) == Filter(xs, p)
  {
    var r := Filter(xs, p);
    forall i | 0 <= i < |r|
      ensures p(r[i])
    {
      assert r[i] in r;
    }
    FilterAll(r, p);
  }

  /** A filter keeps nothing exactly when no element satisfies the condition. */
  lemma FilterEmpty<T(!new)>(xs: seq<T>, p: T -> bool)
    ensures Filter(xs, p) == [] <==> forall i :: 0 <= i < |xs| ==> !p(xs[i])
  {
    var r := Filter(xs, p);
    if r != [] {
      assert r[0] in r;
    } else {
      forall i | 0 <= i < |xs|
        ensures !p(xs[i])
      {
        assert xs[i] in xs && xs[i] !in r;
      }
    }
  }

  /** `xs.find(p)`: the first element satisfying `p`, if any. */
  function Find<T(==)>(xs: seq<T>, p: T -> bool): (r: Option<T>)
    ensures r.None? <==> forall i :: 0 <= i < |xs| ==> !p(xs[i])
    ensures r.Some? ==> exists i :: 0 <= i < |xs| && xs[i] == r.value && p(r.value)
                          && forall j :: 0 <= j < i ==> !p(xs[j])
  {
    if |xs| == 0 then None
    else if p(xs[0]) then Some(xs[0])
    else
      var r := Find(xs[1..], p);
      if r.Some? then
        var i :| 0 <= i < |xs[1..]| && xs[1..][i] == r.value && p(r.value)
                 && forall j :: 0 <= j < i ==> !p(xs[1..][j]);
        assert xs[i + 1] == r.value;
        r
      else r
  }
}

=== FILE: numbers.dfy ===
/** Decimal digits, the three number parsers the sources rely on (Python `int()`,
    JavaScript `parseInt` and `Number`), and exact-rational models of Python's
    `round()` and JavaScript's `Math.round`. */
module Numbers {
  import opened Outcomes
  import opened Text

  predicate IsDigit(c: char) {
    '0' <= c <= '9'
  }

  function DigitValue(c: char): nat
    requires IsDigit(c)
  {
    c as int - '0' as int
  }

  function DigitChar(d: nat): char
    requires d < 10
  {
    ('0' as int + d) as char
  }

  predicate AllDigits(s: string) {
    forall i :: 0 <= i < |s| ==> IsDigit(s[i])
  }

  /** The value of a string of decimal digits (most significant first). */
  function DigitsValue(s: string): nat
    requires AllDigits(s)
  {
    if |s| == 0 then 0 else DigitsValue(s[..|s| - 1]) * 10 + DigitValue(s[|s| - 1])
  }

  function Pow10(k: nat): (r: nat)
    ensures r >= 1
  {
    if k == 0 then 1 else 10 * Pow10(k - 1)
  }

  /** Decimal rendering of a natural number; reading the digits back gives the number. */
  function NatToString(n: nat): (s: string)
    ensures |s| >= 1 && AllDigits(s)
    ensures DigitsValue(s) == n
  {
    if n < 10 then [DigitChar(n)]
    else
      var s := NatToString(n / 10) + [DigitChar(n % 10)];
      assert s[..|s| - 1] == NatToString(n / 10);
      s
  }

  /** Python's `str(i)` / JavaScript's `String(i)` for an integer. */
  function IntToString(i: int): string {
    if i < 0 then "-" + NatToString(-i) else NatToString(i)
  }

  /** The longest prefix of `s` made of decimal digits. */
  function LeadingDigits(s: string): (d: string)
    ensures d <= s && AllDigits(d)
    ensures |d| < |s| ==> !IsDigit(s[|d|])
  {
    if |s| == 0 || !IsDigit(s[0]) then "" else [s[0]] + LeadingDigits(s[1..])
  }

  /** Python's `int(s)` on a decimal string: optional surrounding whitespace, an optional
      sign, then one or more digits; anything else raises, modelled as `None`. */
  function PyInt(s: string): (r: Option<int>)
    ensures (forall k :: 0 <= k < |s| ==> !IsDigit(s[k])) ==> r.None?
    ensures r.Some? && r.value < 0 ==> '-' in s
  {
    var t := Strip(s);
    assert forall c :: c in t ==> c in s;
    if |t| > 0 && (t[0] == '+' || t[0] == '-') then
      var body := t[1..];
      if |body| > 0 && AllDigits(body) then
        Some(if t[0] == '-' then -(DigitsValue(body) as int) else DigitsValue(body))
      else None
    else if |t| > 0 && AllDigits(t) then Some(DigitsValue(t))
    else None
  }

  lemma NoWhitespaceInNumber(i: int)
    ensures forall k :: 0 <= k < |IntToString(i)| ==> IntToString(i)[k] !in Whitespace
  {
    var s := IntToString(i);
    forall k | 0 <= k < |s|
      ensures s[k] !in Whitespace
    {
      if i < 0 && k == 0 {
        assert s[k] == '-';
      } else if i < 0 {
        assert s[k] == NatToString(-i)[k - 1];
      }
    }
  }

  /** `int(str(n)) == n`: Python reads back every integer it prints. */
  lemma {:induction false} PyIntRoundTrip(n: int)
    ensures PyInt(IntToString(n)) == Some(n)
  {
    NoWhitespaceInNumber(n);
    StripSetNoop(IntToString(n), Whitespace);
    if n < 0 {
      var s := IntToString(n);
      assert s[1..] == NatToString(-n);
      assert s[0] == '-';
    } else {
      assert IntToString(n)[0] != '+' && IntToString(n)[0] != '-';
    }
  }

  /** JavaScript's `parseInt(s)` for decimal text: leading whitespace, an optional sign and
      the longest run of digits; no digits at all gives `NaN`, modelled as `None`. */
  function JsParseInt(s: string): (r: Option<int>)
    ensures (forall k :: 0 <= k < |s| ==> !IsDigit(s[k])) ==> r.None?
    ensures r.Some? && r.value < 0 ==> '-' in s
  {
    var t := LStrip(s, Whitespace);
    var negative := |t| > 0 && t[0] == '-';
    var body := if |t| > 0 && (t[0] == '+' || t[0] == '-') then t[1..] else t;
    var d := LeadingDigits(body);
    assert |d| > 0 ==> body[0] == s[|s| - |body|];
    assert negative ==> t[0] == s[|s| - |t|];
    if |d| == 0 then None
    else Some(if negative then -(DigitsValue(d) as int) else DigitsValue(d))
  }

  lemma LeadingDigitsOfNumber(n: nat, rest: string)
    requires |rest| == 0 || !IsDigit(rest[0])
    ensures LeadingDigits(NatToString(n) + rest) == NatToString(n)
  {
    var s := NatToString(n) + rest;
    var d := LeadingDigits(s);
    LeadingDigitsUpTo(s, |NatToString(n)|);
  }

  lemma {:induction false} LeadingDigitsUpTo(s: string, k: nat)
    requires k <= |s| && AllDigits(s[..k]) && (k == |s| || !IsDigit(s[k]))
    ensures LeadingDigits(s) == s[..k]
  {
    if k > 0 {
      assert s[1..][..k - 1] == s[1..k];
      LeadingDigitsUpTo(s[1..], k - 1);
    }
  }

  /** `parseInt` stops at the first non-digit: a number followed by other text parses to the number. */
  lemma JsParseIntPrefix(n: int, rest: string)
    requires |rest| == 0 || !IsDigit(rest[0])
    ensures JsParseInt(IntToString(n) + rest) == Some(n)
  {
    var s := IntToString(n) + rest;
    if n < 0 {
      var m: nat := -n;
      assert s == "-" + NatToString(m) + rest;
      JsParseIntSigned(m, rest);
    } else {
      assert s == NatToString(n) + rest;
      JsParseIntUnsigned(n, rest);
    }
  }

  lemma JsParseIntUnsigned(n: nat, rest: string)
    requires |rest| == 0 || !IsDigit(rest[0])
    ensures JsParseInt(NatToString(n) + rest) == Some(n)
  {
    var digits := NatToString(n);
    var s := digits + rest;
    assert s[0] == digits[0];
    LeadingDigitsOfNumber(n, rest);
    JsParseIntOfDigits(s, digits);
  }

  lemma JsParseIntSigned(n: nat, rest: string)
    requires |rest| == 0 || !IsDigit(rest[0])
    ensures JsParseInt("-" + NatToString(n) + rest) == Some(-(n as int))
  {
    var digits := NatToString(n);
    var s := "-" + digits + rest;
    SignedTail(digits, rest);
    LeadingDigitsOfNumber(n, rest);
    JsParseIntOfSignedDigits(s, digits);
  }

  lemma SignedTail(digits: string, rest: string)
    ensures |"-" + digits + rest| > 0 && ("-" + digits + rest)[0] == '-'
    ensures ("-" + digits + rest)[1..] == digits + rest
  {
  }

  lemma JsParseIntOfDigits(s: string, digits: string)
    requires |s| > 0 && IsDigit(s[0])
    requires LeadingDigits(s) == digits && AllDigits(digits) && |digits| > 0
    ensures JsParseInt(s) == Some(DigitsValue(digits) as int)
  {
    assert s[0] !in Whitespace;
  }

  lemma JsParseIntOfSignedDigits(s: string, digits: string)
    requires |s| > 0 && s[0] == '-'
    requires LeadingDigits(s[1..]) == digits && AllDigits(digits) && |digits| > 0
    ensures JsParseInt(s) == Some(-(DigitsValue(digits) as int))
  {
    assert s[0] !in Whitespace;
  }

  /** The value of `ip.fp` as an exact rational. */
  function DecimalValue(ip: string, fp: string): real
    requires AllDigits(ip) && AllDigits(fp)
  {
    DigitsValue(ip) as real + DigitsValue(fp) as real / Pow10(|fp|) as real
  }

  /** An unsigned decimal literal: digits with an optional fraction, at least one digit in all. */
  function UnsignedDecimal(b: string): (r: Option<real>)
    ensures r.Some? ==> r.value >= 0.0
    ensures (forall k :: 0 <= k < |b| ==> !IsDigit(b[k])) ==> r.None?
  {
    var ip := LeadingDigits(b);
    var rest := b[|ip|..];
    assert |rest| > 1 ==> rest[1] == b[|ip| + 1];
    if |rest| == 0 then (if |ip| > 0 then Some(DigitsValue(ip) as real) else None)
    else if rest[0] == '.' && AllDigits(rest[1..]) && (|ip| > 0 || |rest| > 1) then
      Some(DecimalValue(ip, rest[1..]))
    else None
  }

  /** JavaScript's `Number(s)` on decimal text: surrounding whitespace is ignored, blank text
      is 0, an optional sign precedes digits with an optional fraction; everything else is
      `NaN`, modelled as `None`. */
  function JsNumber(s: string): (r: Option<real>)
    ensures IsBlank(s) ==> r == Some(0.0)
    ensures !IsBlank(s) && (forall k :: 0 <= k < |s| ==> !IsDigit(s[k])) ==> r.None?
    ensures r.Some? && r.value < 0.0 ==> '-' in s
  {
    var t := Strip(s);
    assert forall c :: c in t ==> c in s;
    if |t| == 0 then Some(0.0)
    else
      var body := if t[0] == '+' || t[0] == '-' then t[1..] else t;
      match UnsignedDecimal(body)
      case None => None
      case Some(v) => Some(if t[0] == '-' then -v else v)
  }

  /** `Number(String(n)) == n` for a natural number. */
  lemma {:induction false} JsNumberOfNat(n: nat)
    ensures JsNumber(NatToString(n)) == Some(n as real)
  {
    var s := NatToString(n);
    NoWhitespaceInNumber(n);
    StripSetNoop(s, Whitespace);
    LeadingDigitsUpTo(s, |s|);
    assert s[..|s|] == s;
  }

  /** Python's `round()` applied to the exact rational `n / d`: the nearest integer, ties to even. */
  function RoundHalfEven(n: int, d: int): (r: int)
    requires d > 0
    ensures -d <= 2 * (n - r * d) <= d
    ensures 2 * (n - r * d) == d ==> r % 2 == 0
    ensures 2 * (n - r * d) == -d ==> r % 2 == 0
  {
    var q := n / d;
    var rem := n % d;
    assert n == q * d + rem;
    if 2 * rem < d then q
    else if 2 * rem > d then
      assert n - (q + 1) * d == rem - d;
      q + 1
    else if q % 2 == 0 then q
    else
      assert n - (q + 1) * d == rem - d;
      q + 1
  }

  /** JavaScript's `Math.round` applied to the exact rational `n / d`: the nearest integer,
      ties towards positive infinity. */
  function RoundHalfUp(n: int, d: int): (r: int)
    requires d > 0
    ensures -d <= 2 * (n - r * d) < d
  {
    var r := (2 * n + d) / (2 * d);
    assert 2 * n + d == r * (2 * d) + (2 * n + d) % (2 * d);
    r
  }

  /** JavaScript's `Math.round` applied to an exact real: the nearest integer, ties upwards. */
  function JsRound(x: real): (r: int)
    ensures r as real - 0.5 <= x < r as real + 0.5
  {
    (x + 0.5).Floor
  }

  /** `Math.round` never decreases when its argument grows. */
  lemma RoundHalfUpMonotonic(n1: int, n2: int, d: int)
    requires d > 0 && n1 <= n2
    ensures RoundHalfUp(n1, d) <= RoundHalfUp(n2, d)
  {
    var r1 := RoundHalfUp(n1, d);
    var r2 := RoundHalfUp(n2, d);
    assert r1 * (2 * d) <= 2 * n1 + d;
    assert 2 * n2 + d < (r2 + 1) * (2 * d);
    MulCancel(r1, r2 + 1, 2 * d);
  }

  lemma MulCancel(a: int, b: int, c: int)
    requires c > 0 && a * c < b * c
    ensures a < b
  {
  }

  /** `String.prototype.padStart(2, '0')`. */
  function PadStart2(s: string): (r: string)
    ensures |r| == if |s| < 2 then 2 else |s|
  {
    if |s| == 0 then "00" else if |s| == 1 then "0" + s else s
  }

  function Sum(xs: seq<int>): int {
    if |xs| == 0 then 0 else Sum(xs[..|xs| - 1]) + xs[|xs| - 1]
  }

  /** Every element lies in `[lo, hi]`. */
  predicate AllWithin(xs: seq<int>, lo: int, hi: int) {
    forall i :: 0 <= i < |xs| ==> lo <= xs[i] <= hi
  }

  /** A sum of elements in `[lo, hi]` lies between `lo` and `hi` times the length. */
  lemma {:induction false} SumBounds(xs: seq<int>, lo: int, hi: int)
    requires AllWithin(xs, lo, hi)
    ensures lo * |xs| <= Sum(xs) <= hi * |xs|
  {
    if |xs| > 0 {
      var n := |xs| - 1;
      assert AllWithin(xs[..n], lo, hi);
      SumBounds(xs[..n], lo, hi);
      assert lo <= xs[n] <= hi;
      MulSucc(lo, n);
      MulSucc(hi, n);
    }
  }

  lemma MulSucc(a: int, n: nat)
    ensures a * (n + 1) == a * n + a
  {
  }

  lemma SumAppend(xs: seq<int>, x: int)
    ensures Sum(xs + [x]) == Sum(xs) + x
  {
    assert (xs + [x])[..|xs|] == xs;
  }
}

=== FILE: outcomes.dfy ===
/** Optional values and error-carrying results used by every model in the project. */
module Outcomes {

  /** A value that may be absent: a missing JSON field, a failed lookup, `undefined`. */
  datatype Option<+T> = None | Some(value: T) {

    /** The value, or `default` when absent (Python's `dict.get(k, default)`). */
    function GetOr(default: T): T {
      match this
      case Some(v) => v
      case None => default
    }
  }

  /** An HTTP-style failure: the status code the route returns and its error text. */
  datatype Error = Error(code: int, message: string)

  /** Either the successful value of an operation or the error it reports. */
  datatype Result<+R> = Ok(value: R) | Err(error: Error) {

    predicate IsFailure() {
      Err?
    }

    function PropagateFailure<U>(): Result<U>
      requires Err?
    {
      Err(error)
    }

    function Extract(): R
      requires Ok?
    {
      value
    }
  }

  /** The outcome of one call to the local language model (`ollama.chat`), which the
      models treat as an input: the library is not installed, the reply lacks
      `message.content`, the call raised with an error text, or it returned content. */
  datatype LlmReply = Unavailable | Malformed | Raised(message: string) | Content(text: string)
}

=== FILE: question_bank.dfy ===
/** The question bank of the interview agent and the choice of question for a skill:
    a bank lookup by substring match (`get_fallback_question`) or the model's reply
    (`generate_ai_question`). */
module QuestionBank {
  import opened Outcomes
  import opened Text

  /** The banks in declaration order, each a key and its eight questions. */
  const Bank: seq<(string, seq<string>)> := [
    ("react", [
      "What is the difference between state and props in React?",
      "Explain the concept of React hooks and give examples.",
      "How does the Virtual DOM work in React?",
      "What are React lifecycle methods? Name a few.",
      "Explain the useEffect hook and its use cases.",
      "What is the difference between controlled and uncontrolled components?",
      "How do you optimize performance in React applications?",
      "What is Redux and when would you use it?"
    ]),
    ("javascript", [
      "Explain the difference between let, const, and var.",
      "What is closure in JavaScript? Give an example.",
      "Explain promises and async/await in JavaScript.",
      "What is the event loop in JavaScript?",
      "Explain the difference between == and === operators.",
      "What are arrow functions and how do they differ from regular functions?",
      "Explain prototypal inheritance in JavaScript.",
      "What is the 'this' keyword in JavaScript?"
    ]),
    ("typescript", [
      "What are the benefits of using TypeScript over JavaScript?",
      "Explain interfaces and types in TypeScript.",
      "What are generics in TypeScript?",
      "How does TypeScript handle type inference?",
      "What is the difference between 'any' and 'unknown' types?",
      "Explain union and intersection types.",
      "What are decorators in TypeScript?",
      "How do you handle null and undefined in TypeScript?"
    ]),
    ("python", [
      "Explain the difference between lists and tuples in Python.",
      "What are decorators in Python?",
      "Explain list comprehensions with an example.",
      "What is the difference between deep copy and shallow copy?",
      "Explain Python's GIL (Global Interpreter Lock).",
      "What are generators in Python?",
      "Explain the difference between @staticmethod and @classmethod.",
      "What is the purpose of __init__ and __new__ methods?"
    ]),
    ("node.js", [
      "What is Node.js and how does it work?",
      "Explain the event-driven architecture of Node.js.",
      "What is the difference between synchronous and asynchronous code?",
      "Explain middleware in Express.js.",
      "What is npm and what is package.json?",
      "How do you handle errors in Node.js?",
      "Explain streams in Node.js.",
      "What is the purpose of the cluster module?"
    ]),
    ("sql", [
      "What is the difference between INNER JOIN and OUTER JOIN?",
      "Explain normalization and denormalization.",
      "What are indexes and why are they important?",
      "Explain the difference between DELETE, TRUNCATE, and DROP.",
      "What is a primary key and foreign key?",
      "Explain ACID properties in databases.",
      "What are stored procedures?",
      "Explain the difference between WHERE and HAVING clauses."
    ]),
    ("general", [
      "Tell me about a challenging project you worked on.",
      "How do you approach debugging complex issues?",
      "Describe your experience with version control systems.",
      "How do you stay updated with new technologies?",
      "Explain your approach to code reviews.",
      "How do you handle tight deadlines?",
      "Describe a time when you had to learn a new technology quickly.",
      "What's your experience with agile methodologies?"
    ])
  ]

  /** The index of the `general` bank, the default. */
  const GeneralIndex: nat := 6

  lemma GeneralIndexIsGeneral()
    ensures GeneralIndex < |Bank| && Bank[GeneralIndex].0 == "general"
  {
  }

  /** The test `key in skill_lower or skill_lower in key`. */
  predicate Matches(key: string, skillLower: string) {
    Contains(skillLower, key) || Contains(key, skillLower)
  }

  /** The first bank at or after index `k` whose key matches, or `|Bank|` when none does. */
  function FirstMatchFrom(skillLower: string, k: nat): (r: nat)
    requires k <= |Bank|
    ensures k <= r <= |Bank|
    ensures r < |Bank| ==> Matches(Bank[r].0, skillLower)
    ensures forall j :: k <= j < r ==> !Matches(Bank[j].0, skillLower)
    decreases |Bank| - k
  {
    if k == |Bank| then k
    else if Matches(Bank[k].0, skillLower) then k
    else FirstMatchFrom(skillLower, k + 1)
  }

  /** The bank `get_fallback_question` draws from: the first key, in declaration order,
      that is a substring of the lower-cased skill or contains it; `general` when none is. */
  function BankIndex(skill: string): (i: nat)
    ensures i < |Bank|
    ensures forall j :: 0 <= j < i ==> !Matches(Bank[j].0, Lower(skill))
    ensures Matches(Bank[i].0, Lower(skill))
         || (i == GeneralIndex && forall j :: 0 <= j < |Bank| ==> !Matches(Bank[j].0, Lower(skill)))
  {
    var r := FirstMatchFrom(Lower(skill), 0);
    if r < |Bank| then r else GeneralIndex
  }

  /** `random.choice(xs)`: `pick` stands for the random draw. */
  function Choice(xs: seq<string>, pick: nat): (x: string)
    requires |xs| > 0
    ensures x in xs
  {
    xs[pick % |xs|]
  }

  /** Every element can be drawn. */
  lemma ChoiceReachesAll(xs: seq<string>, x: string)
    requires x in xs
    ensures exists pick: nat :: Choice(xs, pick) == x
  {
    var k :| 0 <= k < |xs| && xs[k] == x;
    assert k % |xs| == k;
    assert Choice(xs, k) == x;
  }

  /** `get_fallback_question`: a random question of the selected bank. */
  function FallbackQuestion(skill: string, pick: nat): (q: string)
    ensures q in Bank[BankIndex(skill)].1
  {
    Choice(Bank[BankIndex(skill)].1, pick)
  }

  /** `generate_ai_question`: the model's reply stripped of whitespace and then of quotes,
      or a bank question when the model is unavailable, replies malformed or raises. */
  function GenerateQuestion(skill: string, reply: LlmReply, pick: nat): (q: string)
    ensures !reply.Content? ==> q in Bank[BankIndex(skill)].1
    ensures reply.Content? ==> |q| <= |reply.text|
  {
    match reply
    case Content(text) => StripSet(Strip(text), {'"', '\''})
    case _ => FallbackQuestion(skill, pick)
  }

  /** Because the test is two-way substring containment, `Java` is served JavaScript questions. */
  lemma JavaGetsJavaScript()
    ensures Bank[BankIndex("Java")].0 == "javascript"
  {
    assert Lower("Java") == "java";
    assert !Matches("react", "java");
    assert Contains("javascript", "java") by {
      assert OccursAt("javascript", "java", 0);
    }
  }

  /** An empty skill is contained in every key, so it selects the first bank, `react`. */
  lemma EmptySkillGetsReact()
    ensures Bank[BankIndex("")].0 == "react"
  {
    assert OccursAt("react", "", 0);
  }
}

=== FILE: resume_manager.dfy ===
/** The resume screens: `Agentic_AI_Recruitment_Manager-main/src/components/ResumeManager.tsx`
    (uploads keep their file and are ranked by the ranker service) and the earlier
    `src/components/ResumeManager.tsx` (random mock scores). Upload and delete are the same
    code in both. */
module ResumeManager {
  import opened Outcomes
  import opened Numbers
  import opened Lists
  import opened Sorting
  import opened FileNames
  import opened Candidates

  /** The job every upload is filed under (the screens' fixed job selection). */
  const JobId := "job-1"

  /** The candidate created for the `index`-th uploaded file; `stamp` is `Date.now()` and `now`
      the upload time. The file object is kept only by the screen that sends it for ranking. */
  function NewCandidate(fileName: string, index: nat, stamp: string, now: string, keepFile: bool): Candidate {
    Candidate("candidate-" + stamp + "-" + NatToString(index), CandidateName(fileName),
              CandidateEmail(fileName), fileName, 0, New, JobId, now, None, None, None, None,
              keepFile, None)
  }

  /** `handleFileUpload`: no file list changes nothing; otherwise one new, unscored candidate
      per file is appended after the existing ones, in file order. */
  function Upload(cs: seq<Candidate>, files: Option<seq<string>>, stamp: string, now: string,
                  keepFile: bool): (r: seq<Candidate>)
    ensures files.None? ==> r == cs
    ensures files.Some? ==>
      && |r| == |cs| + |files.value|
      && r[..|cs|] == cs
      && forall k :: 0 <= k < |files.value| ==>
           && r[|cs| + k].resume == files.value[k]
           && r[|cs| + k].name == CandidateName(files.value[k])
           && r[|cs| + k].email == CandidateEmail(files.value[k])
           && r[|cs| + k].score == 0 && r[|cs| + k].status == New
           && r[|cs| + k].hasFile == keepFile
  {
    match files
    case None => cs
    case Some(fs) =>
      cs + seq(|fs|, k requires 0 <= k < |fs| => NewCandidate(fs[k], k, stamp, now, keepFile))
  }

  /** The files of one upload get pairwise different ids. */
  lemma UploadIdsDistinct(cs: seq<Candidate>, fs: seq<string>, stamp: string, now: string,
                          keepFile: bool, j: nat, k: nat)
    requires j < k < |fs|
    ensures var r := Upload(cs, Some(fs), stamp, now, keepFile);
      r[|cs| + j].id != r[|cs| + k].id
  {
    var p := "candidate-" + stamp + "-";
    assert (p + NatToString(j))[|p|..] == NatToString(j);
    assert (p + NatToString(k))[|p|..] == NatToString(k);
  }

  /** A file `stem.ext` with a real extension is shown as its stem with dashes and underscores
      turned into spaces; a stem without dots gives the e-mail `<stem, lower-cased>@email.com`. */
  lemma UploadNameAndEmail(cs: seq<Candidate>, stem: string, ext: string, stamp: string,
                           now: string, keepFile: bool)
    requires |ext| > 0 && '.' !in ext && '/' !in ext && '.' !in stem
    ensures var c := Upload(cs, Some([stem + "." + ext]), stamp, now, keepFile)[|cs|];
      && c.name == Text.ReplaceChars(stem, {'-', '_'}, ' ')
      && c.email == Text.Lower(stem) + "@email.com"
  {
    StripExtensionOf(stem, ext);
    CandidateEmailOf(stem, ext);
  }

  // ---------------------------------------------------------------------------
  // Ranking with the ranker service
  // ---------------------------------------------------------------------------

  /** Whether any candidate still carries its uploaded file (only those are sent). */
  predicate HasFiles(cs: seq<Candidate>) {
    exists i :: 0 <= i < |cs| && cs[i].hasFile
  }

  /** One ranking of the service's reply, as the screen reads it. */
  datatype RankEntry = RankEntry(resume: string, score: real, analysis: Option<Analysis>)

  /** `data.rankings.find(r => r.resume === resume)`: the first ranking under that name. */
  function FindRanking(rs: seq<RankEntry>, resume: string): (r: Option<RankEntry>)
    ensures r.None? <==> forall i :: 0 <= i < |rs| ==> rs[i].resume != resume
    ensures r.Some? ==> r.value in rs && r.value.resume == resume
    ensures r.Some? ==> exists i :: 0 <= i < |rs| && rs[i] == r.value
                          && forall j :: 0 <= j < i ==> rs[j].resume != resume
  {
    Find(rs, (e: RankEntry) => e.resume == resume)
  }

  /** A candidate after the merge: one whose resume name has a ranking takes its rounded score,
      the `reviewed` status and the analysis. */
  function Merged(c: Candidate, rs: seq<RankEntry>): Candidate {
    match FindRanking(rs, c.resume)
    case Some(e) => c.(score := JsRound(e.score), status := Reviewed, analysis := e.analysis)
    case None => c
  }

  function Merge(cs: seq<Candidate>, rs: seq<RankEntry>): (r: seq<Candidate>)
    ensures |r| == |cs|
    ensures forall i :: 0 <= i < |cs| ==>
      if exists k :: 0 <= k < |rs| && rs[k].resume == cs[i].resume then
        && r[i].status == Reviewed
        && (r[i].score as real) - 0.5 <= FindRanking(rs, cs[i].resume).value.score < (r[i].score as real) + 0.5
        && r[i].analysis == FindRanking(rs, cs[i].resume).value.analysis
        && r[i] == cs[i].(score := r[i].score, status := Reviewed, analysis := r[i].analysis)
      else r[i] == cs[i]
  {
    seq(|cs|, i requires 0 <= i < |cs| => Merged(cs[i], rs))
  }

  function ScoreKey(c: Candidate): real {
    c.score as real
  }

  /** `handleRankResumes`: with no file to send nothing changes; a failed request changes
      nothing; otherwise the merged list, sorted by score from highest to lowest. */
  function RankResumes(cs: seq<Candidate>, reply: Option<seq<RankEntry>>): (r: seq<Candidate>)
    ensures !HasFiles(cs) || reply.None? ==> r == cs
    ensures HasFiles(cs) && reply.Some? ==>
      && multiset(r) == multiset(Merge(cs, reply.value))
      && SortedDesc(r, ScoreKey)
  {
    if !HasFiles(cs) then cs
    else
      match reply
      case None => cs
      case Some(rs) =>
        var m := Merge(cs, rs);
        SortDescSorted(m, ScoreKey);
        SortDesc(m, ScoreKey)
  }

  /** Candidates with the same score keep their merged-list order: the sort is stable. */
  lemma RankResumesTiesKeepOrder(cs: seq<Candidate>, rs: seq<RankEntry>, k: real)
    requires HasFiles(cs)
    ensures Filter(RankResumes(cs, Some(rs)), KeyIs(ScoreKey, k))
         == Filter(Merge(cs, rs), KeyIs(ScoreKey, k))
  {
    SortDescStable(Merge(cs, rs), ScoreKey, k);
  }

  /** Ranking never adds or drops a candidate: the ids after it are the ids before it. */
  lemma RankKeepsIds(cs: seq<Candidate>, reply: Option<seq<RankEntry>>, id: string)
    ensures (exists c :: c in RankResumes(cs, reply) && c.id == id) <==> (exists c :: c in cs && c.id == id)
  {
    if HasFiles(cs) && reply.Some? {
      var m := Merge(cs, reply.value);
      var r := RankResumes(cs, reply);
      SameMembers(r, m);
      MergeKeepsIds(cs, reply.value, id);
    }
  }

  /** Two lists with the same multiset of elements have the same members. */
  lemma SameMembers(a: seq<Candidate>, b: seq<Candidate>)
    requires multiset(a) == multiset(b)
    ensures forall c :: c in a <==> c in b
  {
    forall c
      ensures c in a <==> c in b
    {
      assert c in a <==> c in multiset(a);
      assert c in b <==> c in multiset(b);
    }
  }

  /** Merging keeps every candidate's id in its place. */
  lemma MergeKeepsIds(cs: seq<Candidate>, rs: seq<RankEntry>, id: string)
    ensures (exists c :: c in Merge(cs, rs) && c.id == id) <==> (exists c :: c in cs && c.id == id)
  {
    var m := Merge(cs, rs);
    assert forall i :: 0 <= i < |cs| ==> m[i].id == cs[i].id;
    if c :| c in m && c.id == id {
      var i :| 0 <= i < |m| && m[i] == c;
      assert cs[i] in cs;
    }
    if c :| c in cs && c.id == id {
      var i :| 0 <= i < |cs| && cs[i] == c;
      assert m[i] in m;
    }
  }

  // ---------------------------------------------------------------------------
  // The earlier screen's mock ranking
  // ---------------------------------------------------------------------------

  /** `Math.floor(Math.random() * 40) + 60` for a draw in [0, 1). */
  function MockScore(draw: real): (s: int)
    requires 0.0 <= draw < 1.0
    ensures 60 <= s <= 99
  {
    (draw * 40.0).Floor + 60
  }

  /** Every candidate with the score of its own draw and the `reviewed` status, in list order. */
  function MockScored(cs: seq<Candidate>, draws: seq<real>): (r: seq<Candidate>)
    requires |draws| == |cs| && forall i :: 0 <= i < |draws| ==> 0.0 <= draws[i] < 1.0
    ensures |r| == |cs|
    ensures forall i :: 0 <= i < |cs| ==> r[i] == cs[i].(score := MockScore(draws[i]), status := Reviewed)
  {
    seq(|cs|, i requires 0 <= i < |cs| => cs[i].(score := MockScore(draws[i]), status := Reviewed))
  }

  /** The mock `handleRankResumes`: every candidate gets a score from its own draw and the
      `reviewed` status; the list is then sorted by score from highest to lowest. */
  function MockRank(cs: seq<Candidate>, draws: seq<real>): (r: seq<Candidate>)
    requires |draws| == |cs| && forall i :: 0 <= i < |draws| ==> 0.0 <= draws[i] < 1.0
    ensures |r| == |cs|
    ensures forall c :: c in r ==> 60 <= c.score <= 99 && c.status == Reviewed
    ensures forall c :: c in r ==> exists i :: 0 <= i < |cs| && c == cs[i].(score := c.score, status := Reviewed)
    ensures multiset(r) == multiset(MockScored(cs, draws))
    ensures SortedDesc(r, ScoreKey)
  {
    var scored := MockScored(cs, draws);
    SortDescSorted(scored, ScoreKey);
    var r := SortDesc(scored, ScoreKey);
    assert forall c :: c in r ==> c in scored by {
      forall c | c in r
        ensures c in scored
      {
        assert c in multiset(r);
      }
    }
    r
  }

  /** Candidates drawing the same score keep their list order: the sort is stable. */
  lemma MockRankTiesKeepOrder(cs: seq<Candidate>, draws: seq<real>, k: real)
    requires |draws| == |cs| && forall i :: 0 <= i < |draws| ==> 0.0 <= draws[i] < 1.0
    ensures Filter(MockRank(cs, draws), KeyIs(ScoreKey, k))
         == Filter(MockScored(cs, draws), KeyIs(ScoreKey, k))
  {
    SortDescStable(MockScored(cs, draws), ScoreKey, k);
  }

  // ---------------------------------------------------------------------------
  // Delete and stars
  // ---------------------------------------------------------------------------

  function Delete(cs: seq<Candidate>, id: string): (r: seq<Candidate>)
    ensures forall c :: c in r <==> c in cs && c.id != id
  {
    Filter(cs, (c: Candidate) => c.id != id)
  }

  /** Deleting keeps the order of the others: deleting from two lists joined is joining the
      two lists deleted from; an absent id changes nothing. */
  lemma DeleteKeepsOrder(xs: seq<Candidate>, ys: seq<Candidate>, id: string)
    ensures Delete(xs + ys, id) == Delete(xs, id) + Delete(ys, id)
    ensures (forall i :: 0 <= i < |xs| ==> xs[i].id != id) ==> Delete(xs, id) == xs
  {
    FilterAppend(xs, ys, (c: Candidate) => c.id != id);
    if forall i :: 0 <= i < |xs| ==> xs[i].id != id {
      FilterAll(xs, (c: Candidate) => c.id != id);
    }
  }

  /** How many of five stars are lit when star `i` (from 0) is lit exactly when `lit(i)`. */
  function LitCount(lit: nat -> bool, n: nat): (k: nat)
    ensures k <= n
  {
    if n == 0 then 0 else LitCount(lit, n - 1) + (if lit(n - 1) then 1 else 0)
  }

  /** When the lit stars are exactly those below a threshold, their number is the threshold
      clamped to [0, n]. */
  lemma {:induction false} LitBelow(t: int, n: nat)
    ensures LitCount((i: nat) => i < t, n) == if t < 0 then 0 else if t > n then n else t
  {
    if n > 0 {
      LitBelow(t, n - 1);
    }
  }

  /** The second screen's table: star `i` (from 0) is lit when `i < Math.round(score / 20)`. */
  function TableStars(score: int): (k: nat)
    ensures var t := RoundHalfUp(score, 20); k == if t < 0 then 0 else if t > 5 then 5 else t
  {
    LitBelow(RoundHalfUp(score, 20), 5);
    LitCount((i: nat) => i < RoundHalfUp(score, 20), 5)
  }

  /** `renderScoreStars`: star `s` (from 1) is lit when `s <= Math.floor(score / 20)`, that is,
      star `s - 1` (from 0) when `s - 1 < Math.floor(score / 20)`. */
  function RenderStars(score: int): (k: nat)
    ensures var t := score / 20; k == if t < 0 then 0 else if t > 5 then 5 else t
  {
    LitBelow(score / 20, 5);
    LitCount((i: nat) => i < score / 20, 5)
  }

  /** The two star counts differ by at most one: the table rounds where `renderScoreStars`
      truncates, so a score of 90 lights five stars in the table and four in `renderScoreStars`. */
  lemma StarsDiffer(score: int)
    requires 0 <= score <= 100
    ensures RenderStars(score) <= TableStars(score) <= RenderStars(score) + 1
    ensures TableStars(90) == 5 && RenderStars(90) == 4
  {
  }

  /** The earlier screen's score column: no stars and "Not ranked" for a score of 0 or less. */
  function StarsShown(score: int): (r: Option<nat>)
    ensures r.Some? <==> score > 0
    ensures r.Some? ==> r.value == score / 20 || r.value == 5
  {
    if score > 0 then Some(RenderStars(score)) else None
  }
}

=== FILE: resume_ranker.dfy ===
/** The resume-analysis ranker (`beckend/resume_ranker.py` of the application package): skill
    matching against a fixed skill list, education classification, the strengths / weaknesses /
    recommendation heuristics and the `/rank` route's validation, filtering and ordering.
    The similarity score, the text extracted from each file and the years-of-experience text
    are inputs: they come from TF-IDF, PDF/DOCX readers and regular expressions. */
module ResumeRanker {
  import opened Outcomes
  import opened Text
  import opened Sorting
  import opened FileNames
  import opened Lists

  /** The technical skills looked for, all lower-case, in the order the lists report them
      (written in the eight rows of the source's list). */
  const SkillsRow1: seq<string> := ["python", "java", "javascript", "typescript", "react", "angular", "vue"]
  const SkillsRow2: seq<string> := ["node.js", "nodejs", "express", "django", "flask", "spring", "sql"]
  const SkillsRow3: seq<string> := ["mongodb", "postgresql", "mysql", "redis", "docker", "kubernetes"]
  const SkillsRow4: seq<string> := ["aws", "azure", "gcp", "git", "ci/cd", "jenkins", "terraform"]
  const SkillsRow5: seq<string> := ["machine learning", "ml", "ai", "data science", "deep learning"]
  const SkillsRow6: seq<string> := ["html", "css", "rest api", "graphql", "microservices", "agile"]
  const SkillsRow7: seq<string> := ["scrum", "jira", "linux", "bash", "powershell", "c++", "c#"]
  const SkillsRow8: seq<string> := ["go", "rust", "php", "ruby", "rails", "scala", "kotlin", "swift"]

  const CommonSkills: seq<string> :=
    SkillsRow1 + SkillsRow2 + SkillsRow3 + SkillsRow4 + SkillsRow5 + SkillsRow6 + SkillsRow7 + SkillsRow8

  const MaxMatched := 10
  const MaxMissing := 5

  /** A skill is mentioned when it is a plain substring of the lower-cased text
      (so `go` is mentioned by "good"). */
  predicate Mentions(text: string, skill: string) {
    Contains(Lower(text), skill)
  }

  /** Whether a listed skill is reported: the job description mentions it, and the resume
      mentions it (`inResume`) or does not (`!inResume`). */
  predicate Wanted(resume: string, jd: string, inResume: bool, s: string) {
    Mentions(jd, s) && Mentions(resume, s) == inResume
  }

  /** The skills, in list order, that the job description mentions and that the resume
      mentions (`inResume`) or does not (`!inResume`). */
  function Select(skills: seq<string>, resume: string, jd: string, inResume: bool): (r: seq<string>)
    ensures |r| <= |skills|
    ensures forall x :: x in r <==> x in skills && Wanted(resume, jd, inResume, x)
  {
    Filter(skills, (s: string) => Wanted(resume, jd, inResume, s))
  }

  lemma SelectIff(skills: seq<string>, resume: string, jd: string, inResume: bool, x: string)
    ensures x in Select(skills, resume, jd, inResume)
        <==> x in skills && Mentions(jd, x) && Mentions(resume, x) == inResume
  {
  }

  /** Selection keeps list order: selecting from two lists joined is joining the two
      selections, and a single skill is kept exactly when it is wanted. */
  lemma SelectKeepsOrder(xs: seq<string>, ys: seq<string>, x: string, resume: string, jd: string, inResume: bool)
    ensures Select(xs + ys, resume, jd, inResume)
         == Select(xs, resume, jd, inResume) + Select(ys, resume, jd, inResume)
    ensures Select([x], resume, jd, inResume) == if Wanted(resume, jd, inResume, x) then [x] else []
  {
    FilterAppend(xs, ys, (s: string) => Wanted(resume, jd, inResume, s));
    FilterSingle(x, (s: string) => Wanted(resume, jd, inResume, s));
  }

  /** Python's `s.title()` applied to every element. */
  function Titles(xs: seq<string>): (r: seq<string>)
    ensures |r| == |xs|
    ensures forall i :: 0 <= i < |xs| ==> r[i] == Title(xs[i])
  {
    if |xs| == 0 then [] else [Title(xs[0])] + Titles(xs[1..])
  }

  /** Python's `xs[:n]`. */
  function Take<T>(xs: seq<T>, n: nat): (r: seq<T>)
    ensures |r| <= n && r <= xs
    ensures |xs| <= n ==> r == xs
  {
    if |xs| <= n then xs else xs[..n]
  }

  datatype SkillMatch = SkillMatch(matched: seq<string>, missing: seq<string>)

  /** `extract_skills`: title-cased skills found in both texts (at most 10) and skills the job
      description asks for that the resume lacks (at most 5), both in skill-list order. */
  function ExtractSkills(resume: string, jd: string): (r: SkillMatch)
    ensures |r.matched| <= MaxMatched && |r.missing| <= MaxMissing
    ensures var m := Titles(Select(CommonSkills, resume, jd, true));
      r.matched <= m && |r.matched| == (if |m| < MaxMatched then |m| else MaxMatched)
    ensures var n := Titles(Select(CommonSkills, resume, jd, false));
      r.missing <= n && |r.missing| == (if |n| < MaxMissing then |n| else MaxMissing)
  {
    SkillMatch(
      Take(Titles(Select(CommonSkills, resume, jd, true)), MaxMatched),
      Take(Titles(Select(CommonSkills, resume, jd, false)), MaxMissing))
  }

  /** Every skill in the list is lower-case, so title-casing keeps skills apart. */
  lemma CommonSkillsLowerCase()
    ensures AllLowerCase(CommonSkills)
  {
    RowsLowerCase12();
    RowsLowerCase34();
    RowsLowerCase56();
    RowsLowerCase78();
    var acc := SkillsRow1;
    LowerCaseConcat(acc, SkillsRow2);
    acc := acc + SkillsRow2;
    LowerCaseConcat(acc, SkillsRow3);
    acc := acc + SkillsRow3;
    LowerCaseConcat(acc, SkillsRow4);
    acc := acc + SkillsRow4;
    LowerCaseConcat(acc, SkillsRow5);
    acc := acc + SkillsRow5;
    LowerCaseConcat(acc, SkillsRow6);
    acc := acc + SkillsRow6;
    LowerCaseConcat(acc, SkillsRow7);
    acc := acc + SkillsRow7;
    LowerCaseConcat(acc, SkillsRow8);
  }

  predicate AllLowerCase(xs: seq<string>) {
    forall i :: 0 <= i < |xs| ==> IsLowerCase(xs[i])
  }

  lemma RowsLowerCase12()
    ensures AllLowerCase(SkillsRow1) && AllLowerCase(SkillsRow2)
  {
  }

  lemma RowsLowerCase34()
    ensures AllLowerCase(SkillsRow3) && AllLowerCase(SkillsRow4)
  {
  }

  lemma RowsLowerCase56()
    ensures AllLowerCase(SkillsRow5) && AllLowerCase(SkillsRow6)
  {
  }

  lemma RowsLowerCase78()
    ensures AllLowerCase(SkillsRow7) && AllLowerCase(SkillsRow8)
  {
  }

  lemma LowerCaseConcat(a: seq<string>, b: seq<string>)
    requires AllLowerCase(a) && AllLowerCase(b)
    ensures AllLowerCase(a + b)
  {
    forall i | 0 <= i < |a + b|
      ensures IsLowerCase((a + b)[i])
    {
      if i >= |a| {
        assert (a + b)[i] == b[i - |a|];
      }
    }
  }

  /** Each reported skill is the title-cased form of a listed skill that the job description
      mentions; matched ones are mentioned by the resume, missing ones are not. */
  lemma ExtractSkillsSound(resume: string, jd: string, x: string)
    ensures x in ExtractSkills(resume, jd).matched ==>
      exists s :: s in CommonSkills && x == Title(s) && Mentions(jd, s) && Mentions(resume, s)
    ensures x in ExtractSkills(resume, jd).missing ==>
      exists s :: s in CommonSkills && x == Title(s) && Mentions(jd, s) && !Mentions(resume, s)
  {
    var m := Select(CommonSkills, resume, jd, true);
    var n := Select(CommonSkills, resume, jd, false);
    if x in ExtractSkills(resume, jd).matched {
      var i :| 0 <= i < |Titles(m)| && Titles(m)[i] == x;
      SelectIff(CommonSkills, resume, jd, true, m[i]);
    }
    if x in ExtractSkills(resume, jd).missing {
      var i :| 0 <= i < |Titles(n)| && Titles(n)[i] == x;
      SelectIff(CommonSkills, resume, jd, false, n[i]);
    }
  }

  /** No skill is reported both as matched and as missing. */
  lemma ExtractSkillsDisjoint(resume: string, jd: string, x: string)
    ensures !(x in ExtractSkills(resume, jd).matched && x in ExtractSkills(resume, jd).missing)
  {
    ExtractSkillsSound(resume, jd, x);
    if x in ExtractSkills(resume, jd).matched && x in ExtractSkills(resume, jd).missing {
      var a :| a in CommonSkills && x == Title(a) && Mentions(jd, a) && Mentions(resume, a);
      var b :| b in CommonSkills && x == Title(b) && Mentions(jd, b) && !Mentions(resume, b);
      CommonSkillsLowerCase();
      var i :| 0 <= i < |CommonSkills| && CommonSkills[i] == a;
      var j :| 0 <= j < |CommonSkills| && CommonSkills[j] == b;
      TitleInjective(a, b);
      assert false;
    }
  }

  /** Below the caps nothing is lost: every listed skill mentioned by the job description is
      reported, as matched when the resume mentions it and as missing otherwise. */
  lemma ExtractSkillsComplete(resume: string, jd: string, s: string)
    requires s in CommonSkills && Mentions(jd, s)
    ensures Mentions(resume, s) && |Select(CommonSkills, resume, jd, true)| <= MaxMatched
            ==> Title(s) in ExtractSkills(resume, jd).matched
    ensures !Mentions(resume, s) && |Select(CommonSkills, resume, jd, false)| <= MaxMissing
            ==> Title(s) in ExtractSkills(resume, jd).missing
  {
    var m := Select(CommonSkills, resume, jd, true);
    var n := Select(CommonSkills, resume, jd, false);
    SelectIff(CommonSkills, resume, jd, true, s);
    SelectIff(CommonSkills, resume, jd, false, s);
    if s in m {
      var i :| 0 <= i < |m| && m[i] == s;
      assert Titles(m)[i] == Title(s);
    }
    if s in n {
      var i :| 0 <= i < |n| && n[i] == s;
      assert Titles(n)[i] == Title(s);
    }
  }

  /** Matching is by plain substring: `go` is mentioned by any text containing "good". */
  lemma GoInsideGood(pre: string, post: string)
    ensures Mentions(pre + "Good" + post, "go")
  {
    var t := pre + "Good" + post;
    var l := Lower(t);
    assert l[|pre|..|pre| + 2] == "go";
    assert OccursAt(l, "go", |pre|);
  }

  // ---------------------------------------------------------------------------
  // Education
  // ---------------------------------------------------------------------------

  const EducationKeywords: seq<string> := ["bachelor", "master", "phd", "b.tech", "m.tech", "mba", "b.s", "m.s"]

  const NotSpecified := "Not specified"
  const Bachelors := "Bachelor's Degree"
  const Masters := "Master's Degree"
  const Doctorate := "PhD"
  const Mba := "MBA"

  /** The first keyword, in list order, that occurs in `text`. */
  function FirstFound(keys: seq<string>, text: string): (r: Option<nat>)
    ensures r.Some? ==> r.value < |keys| && Contains(text, keys[r.value])
    ensures r.Some? ==> forall j :: 0 <= j < r.value ==> !Contains(text, keys[j])
    ensures r.None? <==> forall j :: 0 <= j < |keys| ==> !Contains(text, keys[j])
  {
    if |keys| == 0 then None
    else if Contains(text, keys[0]) then Some(0)
    else match FirstFound(keys[1..], text)
      case None => None
      case Some(i) => Some(i + 1)
  }

  /** The degree a found keyword stands for, checked the way the source checks it: a keyword
      containing `master`, `m.tech` or `m.s` is a master's, then `phd`, then `bachelor`,
      `b.tech` or `b.s`, then `mba`. */
  function Degree(keyword: string): string {
    if Contains(keyword, "master") || Contains(keyword, "m.tech") || Contains(keyword, "m.s") then Masters
    else if Contains(keyword, "phd") then Doctorate
    else if Contains(keyword, "bachelor") || Contains(keyword, "b.tech") || Contains(keyword, "b.s") then Bachelors
    else if Contains(keyword, "mba") then Mba
    else NotSpecified
  }

  /** The education part of `extract_experience`: one of the four degrees, or "Not specified". */
  function Education(resume: string): (r: string)
    ensures r in {NotSpecified, Bachelors, Masters, Doctorate, Mba}
  {
    match FirstFound(EducationKeywords, Lower(resume))
    case None => NotSpecified
    case Some(i) =>
      KeywordDegree(i);
      Degree(EducationKeywords[i])
  }

  /** "Not specified" exactly when the resume mentions no keyword. */
  lemma EducationUnspecifiedIff(resume: string)
    ensures Education(resume) == NotSpecified
        <==> forall j :: 0 <= j < |EducationKeywords| ==> !Contains(Lower(resume), EducationKeywords[j])
  {
    match FirstFound(EducationKeywords, Lower(resume))
    case None =>
    case Some(k) =>
      KeywordDegree(k);
  }

  /** Otherwise the degree of the first keyword, in list order, that the resume mentions. */
  lemma EducationFirstKeyword(resume: string, i: nat)
    requires i < |EducationKeywords| && Contains(Lower(resume), EducationKeywords[i])
    requires forall j :: 0 <= j < i ==> !Contains(Lower(resume), EducationKeywords[j])
    ensures Education(resume) == Degree(EducationKeywords[i])
  {
    FirstFoundAt(EducationKeywords, Lower(resume), i);
  }

  /** The first keyword found is the one before which no keyword occurs. */
  lemma FirstFoundAt(keys: seq<string>, text: string, i: nat)
    requires i < |keys| && Contains(text, keys[i])
    requires forall j :: 0 <= j < i ==> !Contains(text, keys[j])
    ensures FirstFound(keys, text) == Some(i)
  {
    var r := FirstFound(keys, text);
    assert r.Some?;
  }

  /** Every keyword stands for one of the four degrees. */
  lemma KeywordDegree(k: nat)
    requires k < |EducationKeywords|
    ensures Degree(EducationKeywords[k]) in {Bachelors, Masters, Doctorate, Mba}
  {
    var w := EducationKeywords[k];
    if k == 0 {
      assert w == "bachelor";
      DegreeOfBachelor();
    } else if k == 1 || k == 4 || k == 7 {
      assert w in {"master", "m.tech", "m.s"};
      DegreeOfMasters();
    } else if k == 2 {
      assert w == "phd";
      DegreeOfPhd();
    } else if k == 3 {
      assert w == "b.tech";
      DegreeOfBTech();
    } else if k == 5 {
      assert w == "mba";
      DegreeOfMba();
    } else {
      assert w == "b.s";
      DegreeOfBs();
    }
  }

  /** What each keyword classifies as: the chain of substring tests sends every keyword to the
      degree its name suggests. */
  lemma DegreeTable()
    ensures Degree("bachelor") == Bachelors && Degree("master") == Masters
    ensures Degree("phd") == Doctorate && Degree("b.tech") == Bachelors
    ensures Degree("m.tech") == Masters && Degree("mba") == Mba
    ensures Degree("b.s") == Bachelors && Degree("m.s") == Masters
  {
    DegreeOfBachelor();
    DegreeOfPhd();
    DegreeOfBTech();
    DegreeOfBs();
    DegreeOfMasters();
    DegreeOfMba();
  }

  lemma DegreeOfBachelor()
    ensures Degree("bachelor") == Bachelors
  {
    FirstCharAbsent("bachelor", "master");
    FirstCharAbsent("bachelor", "m.tech");
    FirstCharAbsent("bachelor", "m.s");
    FirstCharAbsent("bachelor", "phd");
    ContainsSelf("bachelor");
  }

  lemma DegreeOfPhd()
    ensures Degree("phd") == Doctorate
  {
    FirstCharAbsent("phd", "master");
    FirstCharAbsent("phd", "m.tech");
    FirstCharAbsent("phd", "m.s");
    ContainsSelf("phd");
  }

  lemma DegreeOfBTech()
    ensures Degree("b.tech") == Bachelors
  {
    FirstCharAbsent("b.tech", "master");
    FirstCharAbsent("b.tech", "m.tech");
    FirstCharAbsent("b.tech", "m.s");
    FirstCharAbsent("b.tech", "phd");
    LongerAbsent("b.tech", "bachelor");
    ContainsSelf("b.tech");
  }

  lemma DegreeOfBs()
    ensures Degree("b.s") == Bachelors
  {
    FirstCharAbsent("b.s", "master");
    FirstCharAbsent("b.s", "m.tech");
    FirstCharAbsent("b.s", "m.s");
    FirstCharAbsent("b.s", "phd");
    LongerAbsent("b.s", "bachelor");
    LongerAbsent("b.s", "b.tech");
    ContainsSelf("b.s");
  }

  lemma DegreeOfMasters()
    ensures Degree("master") == Masters && Degree("m.tech") == Masters && Degree("m.s") == Masters
  {
    ContainsSelf("master");
    SameLengthAbsent("m.tech", "master");
    ContainsSelf("m.tech");
    ContainsSelf("m.s");
  }

  lemma DegreeOfMba()
    ensures Degree("mba") == Mba
  {
    SameLengthAbsent("mba", "m.s");
    FirstCharAbsent("mba", "phd");
    SameLengthAbsent("mba", "b.s");
    ContainsSelf("mba");
  }

  /** A resume mentioning "bachelor" is a bachelor's whatever else it mentions: the first
      keyword found decides, and "bachelor" is checked first. */
  lemma BachelorTakesPrecedence(resume: string)
    requires Contains(Lower(resume), "bachelor")
    ensures Education(resume) == Bachelors
  {
    DegreeOfBachelor();
    assert EducationKeywords[0] == "bachelor";
  }

  /** Otherwise a resume mentioning "master" is a master's. */
  lemma MasterSecond(resume: string)
    requires !Contains(Lower(resume), "bachelor") && Contains(Lower(resume), "master")
    ensures Education(resume) == Masters
  {
    DegreeOfMasters();
    assert EducationKeywords[0] == "bachelor" && EducationKeywords[1] == "master";
  }

  // ---------------------------------------------------------------------------
  // analyze_resume
  // ---------------------------------------------------------------------------

  const StrongAlignment := "Strong technical skill alignment"
  const ProficientIn := "Proficient in "
  // Written in two pieces: the verifier does not read the characters of a literal this long.
  const ExcellentMatch := "Excellent overall match " + "with job requirements"
  const RelevantEducation := "Relevant education: "
  const SubmittedForReview := "Resume submitted for review"
  const LimitedExperience := "Limited experience with "
  const CouldBeStronger := "Overall skill match could be stronger"
  const ExperienceUnclear := "Experience level not clearly stated"
  const NoGaps := "No significant gaps identified"

  datatype Analysis = Analysis(
    matchedSkills: seq<string>,
    missingSkills: seq<string>,
    experienceYears: string,
    education: string,
    strengths: seq<string>,
    weaknesses: seq<string>,
    recommendation: string)

  /** The four recommendation bands of the similarity score. */
  function Recommendation(score: real): (r: string)
    ensures score >= 80.0 <==> r == "Strong Match - Highly Recommended"
    ensures 65.0 <= score < 80.0 <==> r == "Good Fit - Recommended for Interview"
    ensures 50.0 <= score < 65.0 <==> r == "Moderate Match - Consider for Review"
    ensures score < 50.0 <==> r == "Weak Match - May Not Meet Requirements"
  {
    if score >= 80.0 then "Strong Match - Highly Recommended"
    else if score >= 65.0 then "Good Fit - Recommended for Interview"
    else if score >= 50.0 then "Moderate Match - Consider for Review"
    else "Weak Match - May Not Meet Requirements"
  }

  /** The band's place from weakest (0) to strongest (3). */
  function Band(recommendation: string): nat {
    if recommendation == "Strong Match - Highly Recommended" then 3
    else if recommendation == "Good Fit - Recommended for Interview" then 2
    else if recommendation == "Moderate Match - Consider for Review" then 1
    else 0
  }

  /** A higher score never gets a weaker recommendation. */
  lemma RecommendationMonotonic(s1: real, s2: real)
    requires s1 <= s2
    ensures Band(Recommendation(s1)) <= Band(Recommendation(s2))
  {
  }

  /** Whether the education counts as a strength: its lower-cased text names a bachelor's or
      a master's. */
  predicate RelevantDegree(education: string) {
    Contains(Lower(education), "bachelor") || Contains(Lower(education), "master")
  }

  /** Of the five education values, exactly the bachelor's and the master's are relevant. */
  lemma RelevantDegreeIff(e: string)
    requires e in {NotSpecified, Bachelors, Masters, Doctorate, Mba}
    ensures RelevantDegree(e) <==> e == Bachelors || e == Masters
  {
    if e == Bachelors {
      BachelorsRelevant();
    } else if e == Masters {
      MastersRelevant();
    } else if e == NotSpecified {
      UnspecifiedNotRelevant();
    } else {
      LongerAbsent(Lower(e), "bachelor");
      LongerAbsent(Lower(e), "master");
    }
  }

  lemma BachelorsRelevant()
    ensures RelevantDegree(Bachelors)
  {
    assert Lower("Bachelor") == "bachelor";
    assert Bachelors[..8] == "Bachelor";
    LowerPrefixContains(Bachelors, "Bachelor", "bachelor");
  }

  lemma MastersRelevant()
    ensures RelevantDegree(Masters)
  {
    assert Lower("Master") == "master";
    assert Masters[..6] == "Master";
    LowerPrefixContains(Masters, "Master", "master");
  }

  lemma UnspecifiedNotRelevant()
    ensures !RelevantDegree(NotSpecified)
  {
    UnspecifiedAvoids('b');
    UnspecifiedAvoids('m');
    FirstCharAbsent(Lower(NotSpecified), "bachelor");
    FirstCharAbsent(Lower(NotSpecified), "master");
  }

  /** Neither case of the letters b and m occurs in `Not specified`. */
  lemma UnspecifiedAvoids(c: char)
    requires c == 'b' || c == 'm'
    ensures c !in Lower(NotSpecified)
  {
    assert NotSpecified == ['N', 'o', 't', ' ', 's', 'p', 'e', 'c', 'i', 'f', 'i', 'e', 'd'];
    assert c !in NotSpecified && UpperChar(c) !in NotSpecified;
    LowerAvoidsChar(NotSpecified, c);
  }

  function Strengths(m: SkillMatch, score: real, education: string): seq<string> {
    var found :=
      (if |m.matched| > 5 then [StrongAlignment] else [])
      + (if |m.matched| > 0 then [ProficientIn + Join(Take(m.matched, 3), ", ")] else [])
      + (if score > 75.0 then [ExcellentMatch] else [])
      + (if RelevantDegree(education) then [RelevantEducation + education] else []);
    if found == [] then [SubmittedForReview] else found
  }

  function Weaknesses(m: SkillMatch, score: real, years: string): seq<string> {
    var found :=
      (if |m.missing| > 0 then [LimitedExperience + Join(Take(m.missing, 2), ", ")] else [])
      + (if score < 60.0 then [CouldBeStronger] else [])
      + (if years == NotSpecified then [ExperienceUnclear] else []);
    if found == [] then [NoGaps] else found
  }

  /** `analyze_resume(text, jd, score)`, with the years-of-experience text as an input. */
  function Analyze(resume: string, jd: string, score: real, years: string): (a: Analysis)
    ensures a.matchedSkills == ExtractSkills(resume, jd).matched
    ensures a.missingSkills == ExtractSkills(resume, jd).missing
    ensures a.education == Education(resume) && a.experienceYears == years
    ensures a.recommendation == Recommendation(score)
    ensures a.strengths == Strengths(ExtractSkills(resume, jd), score, Education(resume))
    ensures a.weaknesses == Weaknesses(ExtractSkills(resume, jd), score, years)
  {
    var m := ExtractSkills(resume, jd);
    var education := Education(resume);
    Analysis(m.matched, m.missing, years, education,
             Strengths(m, score, education), Weaknesses(m, score, years), Recommendation(score))
  }

  /** The strengths list: never empty; the alignment line iff more than five skills match;
      the proficiency line iff any skill matches; the excellent-match line iff the score is
      above 75; the education line iff the education is relevant; the placeholder iff none. */
  lemma StrengthsRules(m: SkillMatch, score: real, education: string)
    ensures var s := Strengths(m, score, education);
      && |s| > 0
      && (StrongAlignment in s <==> |m.matched| > 5)
      && ((ProficientIn + Join(Take(m.matched, 3), ", ")) in s <==> |m.matched| > 0)
      && (ExcellentMatch in s <==> score > 75.0)
      && ((RelevantEducation + education) in s <==> RelevantDegree(education))
      && (s == [SubmittedForReview] <==> |m.matched| == 0 && score <= 75.0 && !RelevantDegree(education))
  {
    var p := ProficientIn + Join(Take(m.matched, 3), ", ");
    var e := RelevantEducation + education;
    assert StrongAlignment[0] == 'S' && p[0] == 'P' && ExcellentMatch[0] == 'E';
    assert e[0] == RelevantEducation[0] == 'R' && e[2] == RelevantEducation[2] == 'l';
    assert SubmittedForReview[0] == 'R' && SubmittedForReview[2] == 's';
    assert StrongAlignment != p && StrongAlignment != ExcellentMatch && StrongAlignment != e;
    assert p != ExcellentMatch && p != e && ExcellentMatch != e;
    assert SubmittedForReview != StrongAlignment && SubmittedForReview != p;
    assert SubmittedForReview != ExcellentMatch && SubmittedForReview != e;
  }

  /** The weaknesses list: never empty; the limited-experience line iff a skill is missing;
      the weak-match line iff the score is below 60; the unclear-experience line iff the years
      are not stated; the placeholder iff none. */
  lemma WeaknessesRules(m: SkillMatch, score: real, years: string)
    ensures var w := Weaknesses(m, score, years);
      && |w| > 0
      && ((LimitedExperience + Join(Take(m.missing, 2), ", ")) in w <==> |m.missing| > 0)
      && (CouldBeStronger in w <==> score < 60.0)
      && (ExperienceUnclear in w <==> years == NotSpecified)
      && (w == [NoGaps] <==> |m.missing| == 0 && score >= 60.0 && years != NotSpecified)
  {
    var l := LimitedExperience + Join(Take(m.missing, 2), ", ");
    assert l[0] == 'L' && CouldBeStronger[0] == 'O' && ExperienceUnclear[0] == 'E' && NoGaps[0] == 'N';
    assert l != CouldBeStronger && l != ExperienceUnclear && CouldBeStronger != ExperienceUnclear;
    assert NoGaps != l && NoGaps != CouldBeStronger && NoGaps != ExperienceUnclear;
  }

  /** In a full analysis the education strength appears exactly for a bachelor's or a master's
      (never for a PhD or an MBA), and both lists are non-empty. */
  lemma AnalysisEducationStrength(resume: string, jd: string, score: real, years: string)
    ensures var a := Analyze(resume, jd, score, years);
      && |a.strengths| > 0 && |a.weaknesses| > 0
      && ((RelevantEducation + a.education) in a.strengths <==> a.education in {Bachelors, Masters})
  {
    var a := Analyze(resume, jd, score, years);
    StrengthsRules(ExtractSkills(resume, jd), score, a.education);
    WeaknessesRules(ExtractSkills(resume, jd), score, years);
    RelevantDegreeIff(a.education);
  }

  // ---------------------------------------------------------------------------
  // The /rank route
  // ---------------------------------------------------------------------------

  /** What processing a saved file produced: its text, similarity score and years-of-experience
      text, or the message of the exception it raised. */
  datatype Processing = Processed(text: string, score: real, years: string) | Failed(error: string)

  /** One uploaded file: the name the client sent, the name it was saved under and what
      processing it gave. */
  datatype Upload = Upload(filename: string, savedName: string, outcome: Processing)

  datatype Ranking = Ranking(resume: string, score: real, error: Option<string>, analysis: Analysis)

  datatype RankReply = RankReply(rankings: seq<Ranking>, count: int)

  /** The analysis reported for a file that could not be processed. */
  const ErrorAnalysis := Analysis([], [], NotSpecified, NotSpecified,
    ["Error processing resume"], ["Could not analyze resume"], "Error - Review Manually")

  /** The entry for one kept file: listed under its saved name; a processed file carries its
      score and the analysis of its text, a failed one score 0, its error and the fixed analysis. */
  function RankingOf(jd: string, u: Upload): (r: Ranking)
    ensures r.resume == u.savedName
    ensures r.error.None? <==> u.outcome.Processed?
    ensures u.outcome.Processed? ==>
      && r.score == u.outcome.score
      && r.analysis.matchedSkills == ExtractSkills(u.outcome.text, jd).matched
      && r.analysis.missingSkills == ExtractSkills(u.outcome.text, jd).missing
      && r.analysis.education == Education(u.outcome.text)
      && r.analysis.recommendation == Recommendation(u.outcome.score)
      && r.analysis.experienceYears == u.outcome.years
      && r.analysis.strengths
         == Strengths(ExtractSkills(u.outcome.text, jd), u.outcome.score, Education(u.outcome.text))
      && r.analysis.weaknesses
         == Weaknesses(ExtractSkills(u.outcome.text, jd), u.outcome.score, u.outcome.years)
    ensures u.outcome.Failed? ==> r == Ranking(u.savedName, 0.0, Some(u.outcome.error), ErrorAnalysis)
  {
    match u.outcome
    case Processed(text, score, years) => Ranking(u.savedName, score, None, Analyze(text, jd, score, years))
    case Failed(e) => Ranking(u.savedName, 0.0, Some(e), ErrorAnalysis)
  }

  /** The uploads that pass the extension filter, in upload order. */
  function Kept(files: seq<Upload>): (r: seq<Upload>)
    ensures |r| <= |files|
    ensures forall u :: u in r <==> u in files && Allowed(u.filename)
  {
    Filter(files, (u: Upload) => Allowed(u.filename))
  }

  /** The filter keeps upload order: keeping from two lists joined is joining what each
      keeps, and a single upload is kept exactly when its name is allowed. */
  lemma KeptKeepsOrder(xs: seq<Upload>, ys: seq<Upload>, u: Upload)
    ensures Kept(xs + ys) == Kept(xs) + Kept(ys)
    ensures Kept([u]) == if Allowed(u.filename) then [u] else []
  {
    FilterAppend(xs, ys, (u: Upload) => Allowed(u.filename));
    FilterSingle(u, (u: Upload) => Allowed(u.filename));
  }

  function RankingsOf(jd: string, files: seq<Upload>): (r: seq<Ranking>)
    ensures |r| == |files|
    ensures forall i :: 0 <= i < |files| ==> r[i] == RankingOf(jd, files[i])
  {
    if |files| == 0 then []
    else
      var rest := RankingsOf(jd, files[1..]);
      assert forall i :: 1 <= i < |files| ==> rest[i - 1] == RankingOf(jd, files[i]);
      [RankingOf(jd, files[0])] + rest
  }

  function RankingScore(e: Ranking): real {
    e.score
  }

  /** `/rank`: a blank job description is refused first, then an empty file list; files the
      extension filter refuses are skipped; every other file yields one ranking; the rankings
      come back by score, highest first, with their number. */
  function Rank(jdField: string, files: seq<Upload>): (r: Result<RankReply>)
    ensures IsBlank(jdField) ==> r == Err(Error(400, "Missing 'jd' in form-data"))
    ensures !IsBlank(jdField) && |files| == 0 ==> r == Err(Error(400, "Upload at least one file under 'files'"))
    ensures r.Ok? <==> !IsBlank(jdField) && |files| > 0
    ensures r.Ok? ==>
      && r.value.count == |r.value.rankings| == |Kept(files)|
      && SortedDesc(r.value.rankings, RankingScore)
      && multiset(r.value.rankings) == multiset(RankingsOf(Strip(jdField), Kept(files)))
  {
    var jd := Strip(jdField);
    if jd == [] then Err(Error(400, "Missing 'jd' in form-data"))
    else if |files| == 0 then Err(Error(400, "Upload at least one file under 'files'"))
    else
      var results := RankingsOf(jd, Kept(files));
      var sorted := SortDesc(results, RankingScore);
      SortDescSorted(results, RankingScore);
      Ok(RankReply(sorted, |sorted|))
  }

  /** Entries with the same score keep the order of the kept uploads: the sort is stable. */
  lemma RankTiesKeepUploadOrder(jdField: string, files: seq<Upload>, k: real)
    requires Rank(jdField, files).Ok?
    ensures Filter(Rank(jdField, files).value.rankings, KeyIs(RankingScore, k))
         == Filter(RankingsOf(Strip(jdField), Kept(files)), KeyIs(RankingScore, k))
  {
    SortDescStable(RankingsOf(Strip(jdField), Kept(files)), RankingScore, k);
  }

  /** Each kept upload appears in the rankings under its saved name: a processed one with its
      score and analysis, a failed one with score 0.0, its error and the fixed error analysis. */
  lemma RankListsEveryKeptFile(jdField: string, files: seq<Upload>, u: Upload)
    requires Rank(jdField, files).Ok? && u in files && Allowed(u.filename)
    ensures var rs := Rank(jdField, files).value.rankings;
      && RankingOf(Strip(jdField), u) in rs
      && (u.outcome.Failed? ==> Ranking(u.savedName, 0.0, Some(u.outcome.error), ErrorAnalysis) in rs)
  {
    var kept := Kept(files);
    var results := RankingsOf(Strip(jdField), kept);
    var i :| 0 <= i < |kept| && kept[i] == u;
    assert results[i] == RankingOf(Strip(jdField), u);
    assert results[i] in multiset(results);
  }

  /** A file the extension filter refuses contributes nothing: the rankings are those of the
      other files alone. */
  lemma RankSkipsRefused(jdField: string, files: seq<Upload>, u: Upload)
    requires !Allowed(u.filename) && |files| > 0
    ensures Rank(jdField, files + [u]) == Rank(jdField, files)
  {
    KeptAppendRefused(files, u);
  }

  lemma KeptAppendRefused(files: seq<Upload>, u: Upload)
    requires !Allowed(u.filename)
    ensures Kept(files + [u]) == Kept(files)
  {
    KeptKeepsOrder(files, [u], u);
    assert Kept(files) + [] == Kept(files);
  }
}

=== FILE: routing.dfy ===
/** How requests find their handler: the front end's URL builder (`getApiUrl` in
    `src/config.ts`) and the unified backend's prefix dispatch between the interview service
    and the ranker (`MergedApp` in `beckend/unified_app.py`). */
module Routing {
  import opened Outcomes

  // ---------------------------------------------------------------------------
  // getApiUrl
  // ---------------------------------------------------------------------------

  /** `import.meta.env.VITE_API_URL || ''`: an unset variable and an empty one both give "". */
  function ApiBase(env: Option<string>): string {
    env.GetOr("")
  }

  /** The endpoint without one leading `/`, if it has one. */
  function CleanEndpoint(endpoint: string): (r: string)
    ensures endpoint == r || endpoint == "/" + r
    ensures |endpoint| > 0 && endpoint[0] == '/' <==> endpoint == "/" + r
  {
    if |endpoint| > 0 && endpoint[0] == '/' then endpoint[1..] else endpoint
  }

  /** `getApiUrl(endpoint)` against a base URL: the endpoint, carrying exactly one `/` of its
      own in front (one is added when it has none, none is added when it has one), after the
      base. An empty base therefore gives a root-relative path. */
  function ApiUrl(base: string, endpoint: string): (r: string)
    ensures r == base + (if |endpoint| > 0 && endpoint[0] == '/' then endpoint else "/" + endpoint)
  {
    var clean := CleanEndpoint(endpoint);
    if base == "" then "/" + clean else base + "/" + clean
  }

  /** The URL always contains the base, then a `/`, and the result is root-relative when the
      base is empty. */
  lemma ApiUrlShape(base: string, endpoint: string)
    ensures var r := ApiUrl(base, endpoint);
      && |r| > |base| && r[..|base|] == base && r[|base|] == '/'
      && (base == "" ==> r[0] == '/')
  {
  }

  /** Writing the endpoint with or without its leading slash gives the same URL. */
  lemma LeadingSlashIrrelevant(base: string, e: string)
    requires |e| == 0 || e[0] != '/'
    ensures ApiUrl(base, "/" + e) == ApiUrl(base, e)
  {
  }

  /** Only one slash is removed: an endpoint starting with `//` keeps the second one, so
      the URL has two slashes after the base. */
  lemma OnlyOneSlashRemoved(base: string, e: string)
    ensures var r := ApiUrl(base, "//" + e);
      r[|base|] == '/' && r[|base| + 1] == '/'
  {
  }

  /** When neither the base ends nor the endpoint starts with two slashes, the join point
      carries exactly one `/`. */
  lemma SingleSlashAtJoin(base: string, endpoint: string)
    requires |endpoint| < 2 || endpoint[..2] != "//"
    requires |CleanEndpoint(endpoint)| > 0
    ensures var r := ApiUrl(base, endpoint);
      r[|base|] == '/' && r[|base| + 1] != '/'
  {
  }

  // ---------------------------------------------------------------------------
  // MergedApp.__call__
  // ---------------------------------------------------------------------------

  /** The two applications the merged backend forwards to. The wrapper's own Flask app,
      with its `/` and `/health` routes, is not among them: `application` never reaches it. */
  datatype App = InterviewApp | RankerApp

  const InterviewPrefix := "/api/interview"

  /** `environ.get('PATH_INFO', '')`. */
  function PathInfo(path: Option<string>): string {
    path.GetOr("")
  }

  /** The prefix test: a path beginning with `/api/interview` goes to the interview service,
      every other path (a missing one included) to the ranker. */
  function Dispatch(path: Option<string>): (a: App)
    ensures a == InterviewApp <==> path.Some? && |path.value| >= |InterviewPrefix|
                                   && path.value[..|InterviewPrefix|] == InterviewPrefix
  {
    if InterviewPrefix <= PathInfo(path) then InterviewApp else RankerApp
  }

  /** Every path made of the prefix and any continuation reaches the interview service; this
      covers all of its `/api/interview/...` routes. */
  lemma PrefixedGoesToInterview(rest: string)
    ensures Dispatch(Some(InterviewPrefix + rest)) == InterviewApp
  {
    assert (InterviewPrefix + rest)[..|InterviewPrefix|] == InterviewPrefix;
  }

  /** The test compares characters, not path segments: `/api/interviews` also reaches the
      interview service. */
  lemma PrefixIsNotSegmentAware()
    ensures Dispatch(Some("/api/interviews")) == InterviewApp
  {
    PrefixedGoesToInterview("s");
  }

  /** A missing path is treated as the empty path and reaches the ranker. */
  lemma MissingPathGoesToRanker()
    ensures Dispatch(None) == RankerApp
    ensures Dispatch(Some("")) == RankerApp
  {
  }

  /** The ranker's routes and the wrapper's own `/` and `/health` all go to the ranker, so
      the wrapper's handlers and the interview service's `/health` are never reached. */
  lemma RankerPaths()
    ensures Dispatch(Some("/rank")) == RankerApp
    ensures Dispatch(Some("/generate-jd")) == RankerApp
    ensures Dispatch(Some("/health")) == RankerApp
    ensures Dispatch(Some("/")) == RankerApp
  {
    ShortPathGoesToRanker("/rank");
    ShortPathGoesToRanker("/generate-jd");
    ShortPathGoesToRanker("/health");
    ShortPathGoesToRanker("/");
  }

  /** A path shorter than the prefix cannot start with it. */
  lemma ShortPathGoesToRanker(p: string)
    requires |p| < |InterviewPrefix|
    ensures Dispatch(Some(p)) == RankerApp
  {
  }
}

=== FILE: scheduler.dfy ===
/** The interview scheduler screen (`src/components/InterviewScheduler.tsx`): which candidates
    may be invited, the half-hour time slots offered, scheduling and cancelling. The screen's
    state is the pair of lists it receives; each handler returns the lists it hands back. */
module Scheduler {
  import opened Outcomes
  import opened Numbers
  import opened Lists
  import opened Candidates

  /** Reviewed candidates with a score of at least 70 may be invited. */
  predicate Eligible(c: Candidate) {
    c.status == Reviewed && c.score >= 70
  }

  function EligibleCandidates(cs: seq<Candidate>): (r: seq<Candidate>)
    ensures forall c :: c in r <==> c in cs && c.status == Reviewed && c.score >= 70
  {
    Filter(cs, Eligible)
  }

  /** The candidate and interview lists the screen works on. */
  datatype Board = Board(candidates: seq<Candidate>, interviews: seq<Interview>)

  /** The form: the chosen candidate id (none before a choice), the date and the time. */
  datatype Form = Form(candidate: Option<string>, date: string, time: string)

  /** The guard of `handleScheduleInterview`: a candidate, a date and a time are all given. */
  predicate Complete(f: Form) {
    f.candidate.Some? && f.candidate.value != "" && f.date != "" && f.time != ""
  }

  /** The date-time text the interview date is built from. */
  function When(f: Form): string {
    f.date + "T" + f.time
  }

  /** `handleScheduleInterview` (after its delay): an incomplete form changes nothing;
      otherwise one scheduled interview for the chosen candidate is appended under the fresh
      id, and the chosen candidate becomes `interviewed` with that date. */
  function Schedule(b: Board, f: Form, newId: string): (r: Board)
    ensures !Complete(f) ==> r == b
    ensures Complete(f) ==>
      && r.interviews == b.interviews + [Interview(newId, f.candidate.value, When(f), Scheduled)]
      && |r.candidates| == |b.candidates|
      && forall i :: 0 <= i < |b.candidates| ==>
           r.candidates[i] == if b.candidates[i].id == f.candidate.value
                              then b.candidates[i].(status := Interviewed, interviewDate := Some(When(f)))
                              else b.candidates[i]
  {
    if !Complete(f) then b
    else
      var id := f.candidate.value;
      var date := When(f);
      Board(UpdateWhere(b.candidates, id, (c: Candidate) => c.(status := Interviewed, interviewDate := Some(date))),
            b.interviews + [Interview(newId, id, date, Scheduled)])
  }

  /** A scheduled candidate is no longer offered for scheduling. */
  lemma ScheduledNotEligible(b: Board, f: Form, newId: string)
    requires Complete(f)
    ensures forall c :: c in EligibleCandidates(Schedule(b, f, newId).candidates) ==>
      c.id != f.candidate.value
  {
    var r := Schedule(b, f, newId).candidates;
    forall c | c in EligibleCandidates(r)
      ensures c.id != f.candidate.value
    {
      var i :| 0 <= i < |r| && r[i] == c;
      assert b.candidates[i].id == f.candidate.value ==> c.status == Interviewed;
    }
  }

  /** `interviews.map(i => i.id === id ? { ...i, status: 'cancelled' } : i)`. */
  function CancelWhere(ivs: seq<Interview>, id: string): (r: seq<Interview>)
    ensures |r| == |ivs|
    ensures forall i :: 0 <= i < |ivs| ==>
      r[i] == if ivs[i].id == id then ivs[i].(status := Cancelled) else ivs[i]
  {
    seq(|ivs|, i requires 0 <= i < |ivs| => if ivs[i].id == id then ivs[i].(status := Cancelled) else ivs[i])
  }

  /** `handleCancelInterview`: an unknown id changes nothing; otherwise every interview with
      the id is cancelled and the first one's candidate goes back to `reviewed` without a date. */
  function Cancel(b: Board, interviewId: string): (r: Board)
    ensures (forall i :: 0 <= i < |b.interviews| ==> b.interviews[i].id != interviewId) ==> r == b
    ensures FindInterview(b.interviews, interviewId).Some? ==>
      var cid := FindInterview(b.interviews, interviewId).value.candidateId;
      && |r.interviews| == |b.interviews| && |r.candidates| == |b.candidates|
      && (forall i :: 0 <= i < |b.interviews| ==>
            r.interviews[i] == if b.interviews[i].id == interviewId
                               then b.interviews[i].(status := Cancelled) else b.interviews[i])
      && (forall i :: 0 <= i < |b.candidates| ==>
            r.candidates[i] == if b.candidates[i].id == cid
                               then b.candidates[i].(status := Reviewed, interviewDate := None)
                               else b.candidates[i])
  {
    match FindInterview(b.interviews, interviewId)
    case None => b
    case Some(iv) =>
      Board(UpdateWhere(b.candidates, iv.candidateId, (c: Candidate) => c.(status := Reviewed, interviewDate := None)),
            CancelWhere(b.interviews, interviewId))
  }

  /** Cancelling the interview just scheduled (under an id no earlier interview has) leaves
      it in the list as cancelled and gives back the candidate list from before, provided the
      candidate was an undated reviewed one, as every eligible candidate of the sample data is. */
  lemma CancelUndoesSchedule(b: Board, f: Form, newId: string)
    requires Complete(f)
    requires forall i :: 0 <= i < |b.interviews| ==> b.interviews[i].id != newId
    requires forall c :: c in b.candidates && c.id == f.candidate.value ==>
      c.status == Reviewed && c.interviewDate.None?
    ensures var r := Cancel(Schedule(b, f, newId), newId);
      && r.interviews == b.interviews + [Interview(newId, f.candidate.value, When(f), Cancelled)]
      && r.candidates == b.candidates
  {
    var s := Schedule(b, f, newId);
    var n := |b.interviews|;
    assert s.interviews[n].id == newId;
    assert FindInterview(s.interviews, newId).Some?;
    var r := Cancel(s, newId);
    assert r.candidates == b.candidates by {
      forall i | 0 <= i < |b.candidates|
        ensures r.candidates[i] == b.candidates[i]
      {
        assert b.candidates[i] in b.candidates;
      }
    }
  }

  // ---------------------------------------------------------------------------
  // Time slots
  // ---------------------------------------------------------------------------

  /** A two-digit hour, as `hour.toString().padStart(2, '0')` renders it. */
  function Hour2(h: nat): string {
    PadStart2(NatToString(h))
  }

  /** The slot text for an hour and a half-hour flag. */
  function Slot(h: nat, half: bool): string {
    Hour2(h) + (if half then ":30" else ":00")
  }

  /** Well-formed `HH:MM` text (the minutes below 60). */
  predicate ClockText(s: string) {
    && |s| == 5 && s[2] == ':'
    && IsDigit(s[0]) && IsDigit(s[1]) && '0' <= s[3] <= '5' && IsDigit(s[4])
  }

  /** Minutes since midnight that `HH:MM` text denotes. */
  function Minutes(s: string): int
    requires ClockText(s)
  {
    60 * (10 * DigitValue(s[0]) + DigitValue(s[1])) + 10 * DigitValue(s[3]) + DigitValue(s[4])
  }

  /** An hour below 100 is padded to exactly its two decimal digits. */
  lemma Hour2Digits(h: nat)
    requires h < 100
    ensures Hour2(h) == [DigitChar(h / 10), DigitChar(h % 10)]
  {
    if h >= 10 {
      assert NatToString(h) == NatToString(h / 10) + [DigitChar(h % 10)];
    }
  }

  /** Each slot is clock text for its hour and half hour. */
  lemma SlotMinutes(h: nat, half: bool)
    requires h < 24
    ensures ClockText(Slot(h, half))
    ensures Minutes(Slot(h, half)) == 60 * h + (if half then 30 else 0)
  {
    Hour2Digits(h);
  }

  /** The slot offered at position `k`: half-hour steps from 09:00. */
  predicate SlotAt(s: string, k: int) {
    ClockText(s) && Minutes(s) == 540 + 30 * k
  }

  /** The loop building the time slots: every hour from 9 to 17 on the hour, and every hour
      but the last at half past. The result is 17 slots from 09:00 to 17:00, each 30 minutes
      after the one before, so there is no 17:30. */
  method TimeSlots() returns (slots: seq<string>)
    ensures |slots| == 17
    ensures forall k :: 0 <= k < |slots| ==> SlotAt(slots[k], k)
  {
    slots := [];
    var hour := 9;
    while hour <= 17
      invariant 9 <= hour <= 18
      invariant |slots| == if hour <= 17 then 2 * (hour - 9) else 17
      invariant forall k :: 0 <= k < |slots| ==> SlotAt(slots[k], k)
    {
      SlotMinutes(hour, false);
      slots := slots + [Slot(hour, false)];
      if hour < 17 {
        SlotMinutes(hour, true);
        slots := slots + [Slot(hour, true)];
      }
      hour := hour + 1;
    }
  }

  /** The first slot is 09:00, the last 17:00, and none is 17:30. */
  lemma TimeSlotBounds(slots: seq<string>)
    requires |slots| == 17 && forall k :: 0 <= k < |slots| ==> SlotAt(slots[k], k)
    ensures slots[0] == Slot(9, false) && slots[16] == Slot(17, false)
    ensures Slot(17, true) !in slots
    ensures forall j, k :: 0 <= j < k < |slots| ==>
      ClockText(slots[j]) && ClockText(slots[k]) && Minutes(slots[j]) < Minutes(slots[k])
  {
    SlotMinutes(9, false);
    SlotMinutes(17, false);
    SlotMinutes(17, true);
    ClockTextInjective(slots[0], Slot(9, false));
    ClockTextInjective(slots[16], Slot(17, false));
    forall k | 0 <= k < |slots|
      ensures slots[k] != Slot(17, true)
    {
      assert Minutes(slots[k]) <= 1020;
    }
  }

  /** Clock texts with the same minutes under one day are the same text. */
  lemma ClockTextInjective(a: string, b: string)
    requires ClockText(a) && ClockText(b) && Minutes(a) == Minutes(b)
    ensures a == b
  {
    var ha := 10 * DigitValue(a[0]) + DigitValue(a[1]);
    var hb := 10 * DigitValue(b[0]) + DigitValue(b[1]);
    var ma := 10 * DigitValue(a[3]) + DigitValue(a[4]);
    var mb := 10 * DigitValue(b[3]) + DigitValue(b[4]);
    assert ha == hb && ma == mb;
    assert a[0] == b[0] && a[1] == b[1] && a[3] == b[3] && a[4] == b[4];
  }
}

=== FILE: sorting.dfy ===
/** The stable descending sort both rankers and the resume screens apply to their
    results: Python's `list.sort(key=..., reverse=True)` and JavaScript's
    `Array.prototype.sort((a, b) => b.score - a.score)` (both stable). */
module Sorting {
  import opened Lists

  /** Keys never increase from left to right. */
  ghost predicate SortedDesc<T>(xs: seq<T>, key: T -> real) {
    forall i, j :: 0 <= i < j < |xs| ==> key(xs[i]) >= key(xs[j])
  }

  /** Put `x` in front of the first element whose key is not greater than its own, so that
      `x` precedes the equal keys that came after it in the input (stability). */
  function Insert<T>(x: T, ys: seq<T>, key: T -> real): (r: seq<T>)
    ensures multiset(r) == multiset(ys) + multiset{x}
  {
    if |ys| == 0 then [x]
    else if key(x) >= key(ys[0]) then [x] + ys
    else
      assert ys == [ys[0]] + ys[1..];
      [ys[0]] + Insert(x, ys[1..], key)
  }

  /** Inserting into a sorted sequence keeps it sorted. */
  lemma {:induction false} InsertSorted<T>(x: T, ys: seq<T>, key: T -> real)
    requires SortedDesc(ys, key)
    ensures SortedDesc(Insert(x, ys, key), key)
  {
    if |ys| > 0 && key(x) < key(ys[0]) {
      var tail := Insert(x, ys[1..], key);
      InsertSorted(x, ys[1..], key);
      forall k | 0 <= k < |tail|
        ensures key(tail[k]) <= key(ys[0])
      {
        assert tail[k] in multiset(tail);
        if tail[k] != x {
          assert tail[k] in multiset(ys[1..]);
          var m :| 0 <= m < |ys[1..]| && ys[1..][m] == tail[k];
          assert ys[m + 1] == tail[k];
        }
      }
      var r := [ys[0]] + tail;
      forall i, j | 0 <= i < j < |r|
        ensures key(r[i]) >= key(r[j])
      {
        if i == 0 {
          assert r[j] == tail[j - 1];
        } else {
          assert r[i] == tail[i - 1] && r[j] == tail[j - 1];
        }
      }
    }
  }

  /** Insertion sort: the input reordered so that keys never increase. */
  function SortDesc<T>(xs: seq<T>, key: T -> real): (r: seq<T>)
    ensures multiset(r) == multiset(xs)
    ensures |r| == |xs|
  {
    if |xs| == 0 then []
    else
      assert xs == [xs[0]] + xs[1..];
      Insert(xs[0], SortDesc(xs[1..], key), key)
  }

  lemma {:induction false} SortDescSorted<T>(xs: seq<T>, key: T -> real)
    ensures SortedDesc(SortDesc(xs, key), key)
  {
    if |xs| > 0 {
      SortDescSorted(xs[1..], key);
      InsertSorted(xs[0], SortDesc(xs[1..], key), key);
    }
  }

  /** The elements whose key is `k`. */
  function KeyIs<T>(key: T -> real, k: real): T -> bool {
    (y: T) => key(y) == k
  }

  /** Among the elements with any one key, `x` lands in front of those already present. */
  lemma {:induction false} InsertStable<T(!new)>(x: T, ys: seq<T>, key: T -> real, k: real)
    ensures Filter(Insert(x, ys, key), KeyIs(key, k))
         == (if key(x) == k then [x] else []) + Filter(ys, KeyIs(key, k))
  {
    var p := KeyIs(key, k);
    assert p(x) == (key(x) == k);
    FilterSingle(x, p);
    if |ys| == 0 {
      assert Filter(ys, p) == [];
    } else if key(x) >= key(ys[0]) {
      FilterAppend([x], ys, p);
    } else {
      InsertStable(x, ys[1..], key, k);
      PassOver(x, ys, key, k);
    }
  }

  /** The step of `InsertStable` where `x` passes over a head with a greater key. */
  lemma PassOver<T(!new)>(x: T, ys: seq<T>, key: T -> real, k: real)
    requires |ys| > 0 && key(x) < key(ys[0])
    requires Filter(Insert(x, ys[1..], key), KeyIs(key, k))
          == (if key(x) == k then [x] else []) + Filter(ys[1..], KeyIs(key, k))
    ensures Filter(Insert(x, ys, key), KeyIs(key, k))
         == (if key(x) == k then [x] else []) + Filter(ys, KeyIs(key, k))
  {
    var p := KeyIs(key, k);
    var rest := Insert(x, ys[1..], key);
    var a := if key(x) == k then [x] else [];
    assert p(ys[0]) == (key(ys[0]) == k);
    FilterSingle(ys[0], p);
    var head := Filter([ys[0]], p);
    assert Insert(x, ys, key) == [ys[0]] + rest;
    FilterAppend([ys[0]], rest, p);
    assert ys == [ys[0]] + ys[1..];
    FilterAppend([ys[0]], ys[1..], p);
    var tail := Filter(ys[1..], p);
    assert Filter(Insert(x, ys, key), p) == head + (a + tail);
    assert Filter(ys, p) == head + tail;
    Commute(head, a, tail);
  }

  /** Two pieces of which one is empty can change places. */
  lemma Commute<T>(u: seq<T>, v: seq<T>, w: seq<T>)
    requires u == [] || v == []
    ensures u + (v + w) == v + (u + w)
  {
    if u == [] {
      assert u + (v + w) == v + w && u + w == w;
    } else {
      assert v + (u + w) == u + w;
    }
  }

  /** The sort is stable: the elements sharing a key keep their input order. */
  lemma {:induction false} SortDescStable<T(!new)>(xs: seq<T>, key: T -> real, k: real)
    ensures Filter(SortDesc(xs, key), KeyIs(key, k)) == Filter(xs, KeyIs(key, k))
  {
    if |xs| > 0 {
      var p := KeyIs(key, k);
      assert p(xs[0]) == (key(xs[0]) == k);
      SortDescStable(xs[1..], key, k);
      InsertStable(xs[0], SortDesc(xs[1..], key), key, k);
      assert xs == [xs[0]] + xs[1..];
      FilterAppend([xs[0]], xs[1..], p);
      FilterSingle(xs[0], p);
    }
  }
}

=== FILE: text.dfy ===
/** String helpers shared by the models: ASCII case mapping, substring search,
    Python-style `split` / `strip` / `title` and the `join` that undoes `split`. */
module Text {
  import opened Outcomes

  /** The whitespace characters `str.strip`, `str.split()` and `String.trim` drop (ASCII subset). */
  const Whitespace: set<char> := {' ', '\t', '\n', '\r', '\U{000B}', '\U{000C}'}

  predicate IsSpace(c: char) {
    c in Whitespace
  }

  predicate IsUpper(c: char) {
    'A' <= c <= 'Z'
  }

  predicate IsLowerLetter(c: char) {
    'a' <= c <= 'z'
  }

  predicate IsLetter(c: char) {
    IsUpper(c) || IsLowerLetter(c)
  }

  function LowerChar(c: char): char {
    if IsUpper(c) then (c as int + 32) as char else c
  }

  function UpperChar(c: char): char {
    if IsLowerLetter(c) then (c as int - 32) as char else c
  }

  /** `str.lower()` / `String.toLowerCase()` on ASCII letters. */
  function Lower(s: string): (r: string)
    ensures |r| == |s|
    ensures forall i :: 0 <= i < |s| ==> r[i] == LowerChar(s[i])
  {
    if |s| == 0 then "" else [LowerChar(s[0])] + Lower(s[1..])
  }

  /** A string that lower-casing leaves unchanged. */
  predicate IsLowerCase(s: string) {
    forall i :: 0 <= i < |s| ==> !IsUpper(s[i])
  }

  // ---------------------------------------------------------------------------
  // Substring search
  // ---------------------------------------------------------------------------

  /** `sub` occurs in `s` starting at index `i`. */
  predicate OccursAt(s: string, sub: string, i: int) {
    0 <= i && i + |sub| <= |s| && s[i..i + |sub|] == sub
  }

  /** The first occurrence of `sub` in `s` at or after index `k`. */
  function IndexFrom(s: string, sub: string, k: nat): (r: Option<nat>)
    requires k <= |s|
    ensures r.Some? ==> k <= r.value && OccursAt(s, sub, r.value)
    ensures r.Some? ==> forall j :: k <= j < r.value ==> !OccursAt(s, sub, j)
    ensures r.None? ==> forall j :: k <= j ==> !OccursAt(s, sub, j)
    decreases |s| - k
  {
    if OccursAt(s, sub, k) then Some(k)
    else if k == |s| then None
    else IndexFrom(s, sub, k + 1)
  }

  /** `s.find(sub)`: the first occurrence of `sub` in `s`, if any. */
  function IndexOf(s: string, sub: string): (r: Option<nat>)
    ensures r.Some? ==> OccursAt(s, sub, r.value) && forall j :: 0 <= j < r.value ==> !OccursAt(s, sub, j)
    ensures r.None? <==> forall j :: !OccursAt(s, sub, j)
  {
    IndexFrom(s, sub, 0)
  }

  /** Python's `sub in s` and JavaScript's `s.includes(sub)`. */
  predicate Contains(s: string, sub: string) {
    IndexOf(s, sub).Some?
  }

  lemma ContainsIff(s: string, sub: string)
    ensures Contains(s, sub) <==> exists i :: OccursAt(s, sub, i)
  {
  }

  /** A one-character needle occurs exactly when the character does. */
  lemma {:induction false} ContainsChar(s: string, c: char)
    ensures Contains(s, [c]) <==> c in s
  {
    if c in s {
      var i :| 0 <= i < |s| && s[i] == c;
      assert OccursAt(s, [c], i);
    }
    if Contains(s, [c]) {
      var i := IndexOf(s, [c]).value;
      assert s[i..i + 1] == [c];
      assert s[i] == c;
    }
  }

  /** A needle whose first character does not occur never occurs. */
  lemma FirstCharAbsent(s: string, sub: string)
    requires |sub| > 0 && sub[0] !in s
    ensures !Contains(s, sub)
  {
    forall j | 0 <= j && j + |sub| <= |s|
      ensures !OccursAt(s, sub, j)
    {
      assert s[j..j + |sub|][0] == s[j];
    }
  }

  /** A needle holding a character that does not occur never occurs. */
  lemma CharAbsent(s: string, sub: string, k: nat)
    requires k < |sub| && sub[k] !in s
    ensures !Contains(s, sub)
  {
    forall j | 0 <= j && j + |sub| <= |s|
      ensures !OccursAt(s, sub, j)
    {
      assert s[j..j + |sub|][k] == s[j + k];
    }
  }

  /** A string contains each of its prefixes. */
  lemma PrefixContains(s: string, w: string)
    requires |w| <= |s| && s[..|w|] == w
    ensures Contains(s, w)
  {
    assert OccursAt(s, w, 0);
  }

  /** Every string contains itself. */
  lemma ContainsSelf(s: string)
    ensures Contains(s, s)
  {
    assert OccursAt(s, s, 0);
  }

  /** A needle longer than the string never occurs. */
  lemma LongerAbsent(s: string, sub: string)
    requires |s| < |sub|
    ensures !Contains(s, sub)
  {
  }

  /** A needle as long as the string occurs only if it is the string. */
  lemma SameLengthAbsent(s: string, sub: string)
    requires |s| == |sub| && s != sub
    ensures !Contains(s, sub)
  {
    assert s[0..|sub|] == s;
  }

  /** A string that starts with `w` contains, once lower-cased, the lower-cased `w`. */
  lemma LowerPrefixContains(e: string, w: string, lw: string)
    requires |w| <= |e| && e[..|w|] == w && Lower(w) == lw
    ensures Contains(Lower(e), lw)
  {
    assert forall i :: 0 <= i < |w| ==> Lower(e)[i] == LowerChar(w[i]);
    assert Lower(e)[..|w|] == lw;
    assert OccursAt(Lower(e), lw, 0);
  }

  /** A lower-case letter occurs in the lower-cased string only if it, or its upper-case
      form, occurs in the string. */
  lemma LowerAvoidsChar(e: string, c: char)
    requires IsLowerLetter(c) && c !in e && UpperChar(c) !in e
    ensures c !in Lower(e)
  {
    forall i | 0 <= i < |e|
      ensures Lower(e)[i] != c
    {
      assert e[i] != c && e[i] != UpperChar(c);
    }
  }

  /** Lower-casing a string without upper-case letters changes nothing. */
  lemma LowerOfLowerCase(s: string)
    requires IsLowerCase(s)
    ensures Lower(s) == s
  {
  }

  // ---------------------------------------------------------------------------
  // split / join
  // ---------------------------------------------------------------------------

  /** Python's `s.split(sep)` (and JavaScript's `s.split(sep)`) for a non-empty separator. */
  function Split(s: string, sep: string): (parts: seq<string>)
    requires |sep| > 0
    ensures |parts| >= 1
    decreases |s|
  {
    match IndexOf(s, sep)
    case None => [s]
    case Some(i) => [s[..i]] + Split(s[i + |sep|..], sep)
  }

  /** Python's `sep.join(parts)`. */
  function Join(parts: seq<string>, sep: string): string {
    if |parts| == 0 then ""
    else if |parts| == 1 then parts[0]
    else parts[0] + sep + Join(parts[1..], sep)
  }

  /** Joining the pieces of a split with the same separator rebuilds the string. */
  lemma {:induction false} JoinSplit(s: string, sep: string)
    requires |sep| > 0
    ensures Join(Split(s, sep), sep) == s
    decreases |s|
  {
    match IndexOf(s, sep)
    case None =>
    case Some(i) =>
      var rest := Split(s[i + |sep|..], sep);
      JoinSplit(s[i + |sep|..], sep);
      assert Split(s, sep) == [s[..i]] + rest;
      assert ([s[..i]] + rest)[1..] == rest;
      calc {
        Join(Split(s, sep), sep);
        s[..i] + sep + Join(rest, sep);
        s[..i] + s[i..i + |sep|] + s[i + |sep|..];
        s;
      }
  }

  /** No piece of a split contains the separator. */
  lemma {:induction false} SplitPiecesAvoidSep(s: string, sep: string)
    requires |sep| > 0
    ensures forall k :: 0 <= k < |Split(s, sep)| ==> !Contains(Split(s, sep)[k], sep)
    decreases |s|
  {
    match IndexOf(s, sep)
    case None =>
    case Some(i) =>
      var rest := Split(s[i + |sep|..], sep);
      SplitPiecesAvoidSep(s[i + |sep|..], sep);
      var head := s[..i];
      forall j | OccursAt(head, sep, j)
        ensures false
      {
        assert head[j..j + |sep|] == s[j..j + |sep|];
        assert OccursAt(s, sep, j);
      }
      assert Split(s, sep) == [head] + rest;
  }

  /** The first occurrence of a character that the prefix does not contain is right after the prefix. */
  lemma IndexOfAfterPrefix(a: string, c: char, b: string)
    requires c !in a
    ensures IndexOf(a + [c] + b, [c]) == Some(|a|)
  {
    var s := a + [c] + b;
    assert OccursAt(s, [c], |a|);
    forall j | 0 <= j < |a|
      ensures !OccursAt(s, [c], j)
    {
      assert s[j] == a[j];
    }
  }

  /** No piece of a split is longer than the text split. */
  lemma {:induction false} SplitPartsNoLonger(s: string, sep: string)
    requires |sep| > 0
    ensures forall k :: 0 <= k < |Split(s, sep)| ==> |Split(s, sep)[k]| <= |s|
    decreases |s|
  {
    match IndexOf(s, sep)
    case None =>
    case Some(i) =>
      SplitPartsNoLonger(s[i + |sep|..], sep);
  }

  /** A string without the separator character splits into itself alone. */
  lemma SplitWithoutChar(a: string, c: char)
    requires c !in a
    ensures Split(a, [c]) == [a]
  {
    ContainsChar(a, c);
    assert IndexOf(a, [c]).None?;
  }

  /** Splitting at a character splits off the text before its first occurrence. */
  lemma SplitAfterChar(a: string, c: char, b: string)
    requires c !in a
    ensures Split(a + [c] + b, [c]) == [a] + Split(b, [c])
  {
    var s := a + [c] + b;
    IndexOfAfterPrefix(a, c, b);
    assert s[..|a|] == a;
    assert s[|a| + 1..] == b;
  }

  /** Splitting a single-character join undoes it when no part contains the separator. */
  lemma {:induction false} SplitJoin(xs: seq<string>, c: char)
    requires |xs| >= 1
    requires forall k :: 0 <= k < |xs| ==> c !in xs[k]
    ensures Split(Join(xs, [c]), [c]) == xs
    decreases |xs|
  {
    if |xs| == 1 {
      SplitWithoutChar(xs[0], c);
    } else {
      var rest := Join(xs[1..], [c]);
      assert Join(xs, [c]) == xs[0] + [c] + rest;
      SplitAfterChar(xs[0], c, rest);
      SplitJoin(xs[1..], c);
      assert xs == [xs[0]] + xs[1..];
    }
  }

  /** Python's `s.split(sep, 1)[1]`: the text after the first `sep` (empty when there is none). */
  function AfterFirst(s: string, sep: string): (r: string)
    ensures Contains(s, sep) ==> exists i :: OccursAt(s, sep, i) && r == s[i + |sep|..]
  {
    match IndexOf(s, sep)
    case Some(i) => s[i + |sep|..]
    case None => ""
  }

  /** The index of the last occurrence of `c` in `s`. */
  function LastIndexOfChar(s: string, c: char): (r: Option<nat>)
    ensures r.Some? ==> r.value < |s| && s[r.value] == c && c !in s[r.value + 1..]
    ensures r.None? <==> c !in s
  {
    if |s| == 0 then None
    else if s[|s| - 1] == c then Some(|s| - 1)
    else
      assert s == s[..|s| - 1] + [s[|s| - 1]];
      LastIndexOfChar(s[..|s| - 1], c)
  }

  // ---------------------------------------------------------------------------
  // strip
  // ---------------------------------------------------------------------------

  /** `s.lstrip(chars)`: drop the longest prefix made of characters in `cs`. */
  function LStrip(s: string, cs: set<char>): (r: string)
    ensures |r| <= |s| && r == s[|s| - |r|..]
    ensures |r| > 0 ==> r[0] !in cs
    ensures forall i :: 0 <= i < |s| - |r| ==> s[i] in cs
  {
    if |s| > 0 && s[0] in cs then
      var r := LStrip(s[1..], cs);
      assert forall i :: 1 <= i < |s| - |r| ==> s[i] == s[1..][i - 1];
      r
    else s
  }

  /** `s.rstrip(chars)`: drop the longest suffix made of characters in `cs`. */
  function RStrip(s: string, cs: set<char>): (r: string)
    ensures |r| <= |s| && r == s[..|r|]
    ensures |r| > 0 ==> r[|r| - 1] !in cs
    ensures forall i :: |r| <= i < |s| ==> s[i] in cs
  {
    if |s| > 0 && s[|s| - 1] in cs then RStrip(s[..|s| - 1], cs) else s
  }

  /** `s.strip(chars)`: both ends. The result is empty exactly when every character is in `cs`. */
  function StripSet(s: string, cs: set<char>): (r: string)
    ensures |r| <= |s|
    ensures |r| > 0 ==> r[0] !in cs && r[|r| - 1] !in cs
    ensures r == [] <==> forall i :: 0 <= i < |s| ==> s[i] in cs
    ensures forall c :: c in r ==> c in s
  {
    var t := LStrip(s, cs);
    var r := RStrip(t, cs);
    assert r == [] ==> t == [];
    r
  }

  /** `str.strip()` / `String.trim()`. */
  function Strip(s: string): string {
    StripSet(s, Whitespace)
  }

  /** A string that is empty after stripping: only whitespace. */
  predicate IsBlank(s: string) {
    Strip(s) == []
  }

  /** Stripping a string that neither starts nor ends with a stripped character changes nothing. */
  lemma StripSetTrimmed(s: string, cs: set<char>)
    requires |s| > 0 ==> s[0] !in cs && s[|s| - 1] !in cs
    ensures StripSet(s, cs) == s
  {
  }

  /** Stripping a string without any of the stripped characters changes nothing. */
  lemma StripSetNoop(s: string, cs: set<char>)
    requires forall i :: 0 <= i < |s| ==> s[i] !in cs
    ensures StripSet(s, cs) == s
  {
  }

  // ---------------------------------------------------------------------------
  // words, title case, character replacement
  // ---------------------------------------------------------------------------

  /** The longest prefix of `s` without whitespace. */
  function TakeWord(s: string): (w: string)
    ensures w <= s
    ensures forall i :: 0 <= i < |w| ==> !IsSpace(w[i])
    ensures |w| < |s| ==> IsSpace(s[|w|])
  {
    if |s| == 0 || IsSpace(s[0]) then "" else [s[0]] + TakeWord(s[1..])
  }

  /** A non-empty run of non-whitespace characters. */
  predicate IsWord(w: string) {
    |w| > 0 && forall i :: 0 <= i < |w| ==> !IsSpace(w[i])
  }

  /** Python's `s.split()`: the maximal runs of non-whitespace characters. */
  function Words(s: string): (ws: seq<string>)
    ensures |ws| <= |s|
    decreases |s|
  {
    var t := LStrip(s, Whitespace);
    if |t| == 0 then []
    else
      var w := TakeWord(t);
      assert w[0] == t[0];
      [w] + Words(t[|w|..])
  }

  /** Every piece `Words` returns is a word. */
  lemma {:induction false} WordsAreWords(s: string)
    ensures forall k :: 0 <= k < |Words(s)| ==> IsWord(Words(s)[k])
    decreases |s|
  {
    var t := LStrip(s, Whitespace);
    if |t| > 0 {
      var w := TakeWord(t);
      assert w[0] == t[0];
      WordsAreWords(t[|w|..]);
      var rest := Words(t[|w|..]);
      assert Words(s) == [w] + rest;
      forall k | 0 <= k < |Words(s)|
        ensures IsWord(Words(s)[k])
      {
        if k > 0 {
          assert Words(s)[k] == rest[k - 1];
        }
      }
    }
  }

  /** A string has no words exactly when it is blank. */
  lemma WordsEmptyIffBlank(s: string)
    ensures Words(s) == [] <==> IsBlank(s)
  {
    var t := LStrip(s, Whitespace);
    if |t| == 0 {
      assert IsBlank(s);
    } else {
      assert Words(s) != [];
      assert Strip(s) == RStrip(t, Whitespace);
      assert |RStrip(t, Whitespace)| > 0;
    }
  }

  /** A run without whitespace, followed by nothing or by whitespace, is the word taken. */
  lemma {:induction false} TakeWordOf(w: string, rest: string)
    requires forall i :: 0 <= i < |w| ==> !IsSpace(w[i])
    requires rest == [] || IsSpace(rest[0])
    ensures TakeWord(w + rest) == w
  {
    if |w| == 0 {
      assert w + rest == rest;
    } else {
      assert (w + rest)[0] == w[0];
      assert (w + rest)[1..] == w[1..] + rest;
      TakeWordOf(w[1..], rest);
    }
  }

  /** A leading space changes no word. */
  lemma WordsSkipSpace(s: string)
    ensures Words(" " + s) == Words(s)
  {
    assert (" " + s)[1..] == s;
    assert LStrip(" " + s, Whitespace) == LStrip(s, Whitespace);
  }

  /** A single word has itself as its only word. */
  lemma WordsOfWord(w: string)
    requires IsWord(w)
    ensures Words(w) == [w]
  {
    assert LStrip(w, Whitespace) == w;
    TakeWordOf(w, "");
    assert w + "" == w;
    assert w[|w|..] == "";
  }

  /** A word, a space, then text starting with a non-space: the word, then the text's words. */
  lemma WordsOfCons(w: string, j: string)
    requires IsWord(w) && |j| > 0 && !IsSpace(j[0])
    ensures Words(w + " " + j) == [w] + Words(j)
  {
    var s := w + (" " + j);
    assert w + " " + j == s;
    assert s[0] == w[0] && !IsSpace(s[0]);
    assert LStrip(s, Whitespace) == s;
    TakeWordOf(w, " " + j);
    assert s[|w|..] == " " + j;
    assert Words(s) == [w] + Words(" " + j);
    WordsSkipSpace(j);
  }

  /** Words joined by spaces start with the first word's first character. */
  lemma JoinHead(ws: seq<string>)
    requires |ws| > 0 && IsWord(ws[0])
    ensures |Join(ws, " ")| > 0 && Join(ws, " ")[0] == ws[0][0]
  {
    if |ws| > 1 {
      assert Join(ws, " ") == ws[0] + " " + Join(ws[1..], " ");
    }
  }

  /** The words of words joined by single spaces are those words: `s.split()` undoes
      `' '.join(ws)` when no piece is empty or holds whitespace. */
  lemma {:induction false} WordsJoin(ws: seq<string>)
    requires forall k :: 0 <= k < |ws| ==> IsWord(ws[k])
    ensures Words(Join(ws, " ")) == ws
    decreases |ws|
  {
    if |ws| == 1 {
      WordsOfWord(ws[0]);
    } else if |ws| > 1 {
      var tail := ws[1..];
      assert ws == [ws[0]] + tail;
      assert forall k :: 0 <= k < |tail| ==> IsWord(tail[k]) by {
        forall k | 0 <= k < |tail|
          ensures IsWord(tail[k])
        {
          assert tail[k] == ws[k + 1];
        }
      }
      var j := Join(tail, " ");
      JoinHead(tail);
      WordsOfCons(ws[0], j);
      WordsJoin(tail);
      calc {
        Words(Join(ws, " "));
        Words(ws[0] + " " + j);
        [ws[0]] + Words(j);
        [ws[0]] + tail;
      }
    }
  }

  /** Python's `str.title()` on ASCII: a letter is upper-cased when it does not follow a letter,
      lower-cased when it does; other characters are kept. */
  function TitleFrom(s: string, afterLetter: bool): (r: string)
    ensures |r| == |s|
  {
    if |s| == 0 then ""
    else
      var c := s[0];
      var c' := if !IsLetter(c) then c else if afterLetter then LowerChar(c) else UpperChar(c);
      [c'] + TitleFrom(s[1..], IsLetter(c))
  }

  function Title(s: string): string {
    TitleFrom(s, false)
  }

  /** Title-casing only changes letter case: lower-casing undoes it. */
  lemma {:induction false} LowerTitleFrom(s: string, afterLetter: bool)
    ensures Lower(TitleFrom(s, afterLetter)) == Lower(s)
  {
    if |s| > 0 {
      LowerTitleFrom(s[1..], IsLetter(s[0]));
    }
  }

  /** Title-casing is injective on lower-case strings. */
  lemma TitleInjective(a: string, b: string)
    requires IsLowerCase(a) && IsLowerCase(b)
    requires Title(a) == Title(b)
    ensures a == b
  {
    LowerTitleFrom(a, false);
    LowerTitleFrom(b, false);
  }

  /** Replace every character in `from` by `to` (a global regex replace of a character class). */
  function ReplaceChars(s: string, from: set<char>, to: char): (r: string)
    ensures |r| == |s|
    ensures forall i :: 0 <= i < |s| ==> r[i] == if s[i] in from then to else s[i]
  {
    if |s| == 0 then "" else [if s[0] in from then to else s[0]] + ReplaceChars(s[1..], from, to)
  }
}
